=== FILE: README.md ===
# ticket_to_ride sync core, modelled in Dafny

`ttr push` mirrors a directory of Markdown tickets (YAML frontmatter plus a
body) into GitHub issues. This project models the reconciliation core of
that push:

- parsing a ticket and writing the `external-ref: gh-N` reference back into
  its frontmatter (`Tickets`);
- rendering an issue body with its `<!-- ticket:ID -->` marker, dependency
  section and footer, and reading the marker back (`Codec`);
- deciding per ticket whether its issue is in sync, needs an update
  (content, close, reopen), is in conflict or is missing (`Reconcile`);
- the batched GraphQL calls the sync makes: aliases, variables and how each
  item's result is read from the reply (`Batch`, `Issues`, `Projects`,
  `SubIssues`);
- the label-id resolution with its cache, issue-type resolution and
  validation, and the project field setup (`Engine`, `IssueTypes`,
  `ProjectFields`);
- the whole run `SyncEngine::sync`: the dependency lookup, the fetch of
  existing issues and parents, the classification into direct results,
  creates and updates, the create phase with its write-back, the update
  phase, the sort by ticket index and the summary (`Engine`);
- the advisory phases after the summary: sub-issue linking, adding created
  issues to the project with their field values, and the project status
  sync (`Advisory`).

Every network reply, file read and file write is a parameter of the
function that consumes it, so a run is a pure function of the tickets, the
engine state and the replies. `Strings`, `Numerals`, `Json`, `Ordering` and
`Wrappers` hold the Rust standard-library behaviour the core relies on
(`str::lines`, `trim`, `find`, `u64` parsing, a sort by key).

Where a property is about one call it is an `ensures` clause; where it
relates calls it is a lemma. The central ones:

- the rendered marker is read back (`Codec.MarkerRoundTrip`);
- applying the update the check asks for makes the next check report no
  changes (`Reconcile.UpdateThenNoChanges`);
- a run yields exactly one result per ticket, in ticket order, each what its
  ticket called for, counted in the summary (`Engine.Sync`,
  `Engine.SyncEntries`);
- a run changes a ticket only by recording the reference of an issue it
  created for that ticket (`Engine.SyncOnlyRecordsRefs`);
- the advisory phases add to the project only issues created in this run
  for tickets that had none (`Advisory.Push`).

## Model

| member | source | states |
|---|---|---|
| Strings.Find | src/sync.rs:1101-1106 | `str::find`: the first position at which the pattern occurs, and none exactly when it does not occur |
| Strings.Lower | src/sync.rs:755 | lowercasing keeps the length and maps every character independently |
| Strings.LowerIdempotent | src/sync.rs:1123-1124 | lowercasing twice is lowercasing once, so a key lowered before caching is found again |
| Strings.JoinLayout | src/sync.rs:1097 | in `join`, part i sits at its offset, the separator follows every part but the last, and the last part ends the text |
| Strings.JoinOffsetOrdered | src/sync.rs:1097 | in `join`, a later part starts after an earlier part and its separator |
| Strings.Split | src/config.rs:77 | `split('/')` yields one more part than separators, none containing the separator, and joining them gives back the input |
| Strings.Lines | src/ticket.rs:260 | `str::lines` yields lines free of newlines, and none for empty text |
| Strings.Trim | src/ticket.rs:91 | `trim` removes exactly the leading and trailing whitespace and keeps the middle |
| Strings.TrimStartMatches | src/ticket.rs:96 | `trim_start_matches` removes every leading copy of the prefix and no more |
| Strings.DebugList | src/sync.rs:1146-1149 | the `{:?}` rendering of the available names in an error message; an empty list is `[]` |
| Numerals.NatToString | src/sync.rs:1091 | decimal rendering without leading zeros |
| Numerals.DigitsValueOfNatToString | src/sync.rs:1091 | the decimal rendering of `n` denotes `n` |
| Numerals.NatToStringInjective | src/sync.rs:1091 | different numbers render differently, so `#n` references and aliases are unambiguous |
| Numerals.ParseU64 | src/ticket.rs:250-251 | `u64` parsing accepts exactly an optional leading `+` followed by a non-empty digit string whose value is below 2^64, and yields that value |
| Numerals.DigitsValueLeadingZero | src/ticket.rs:250-251 | a leading zero leaves the value of a digit string unchanged |
| Numerals.ParseU64Padded | src/ticket.rs:250-251 | zero-padded and `+`-signed numerals parse to their value |
| Numerals.ParseU64OfNatToString | src/ticket.rs:248-253 | a rendered issue number parses back to itself |
| Numerals.ParseU64RejectsNonDigit | src/ticket.rs:559-570 | a reference with a non-digit after the prefix has no issue number |
| Numerals.Hex2 | src/github/issues.rs:873 | `{:02x}` renders a byte as two lower-case hex digits denoting it |
| Json.Get | src/github/issues.rs:344-345 | a field is found exactly when the value is an object holding that key |
| Json.AsU64 | src/github/issues.rs:348 | `as_u64` succeeds exactly on numbers in the `u64` range |
| Batch.AliasInjective | src/github/issues.rs:292-300 | two items of one batch never share an alias |
| Batch.Variables | src/github/issues.rs:315-335 | the variables object binds `input_i` to the i-th input and holds nothing else |
| Batch.Plan | src/github/issues.rs:281-313 | an empty batch sends no request; otherwise one aliased field per item in input order |
| Batch.PlanAliasesDistinct | src/github/issues.rs:341-343 | the aliases of one request are pairwise distinct, so every item's result can be read back |
| Config.DefaultLabels | src/config.rs:57-64 | label syncing and label creation both default to on |
| Config.DefaultMapping | src/config.rs:38-45 | the type field defaults to `Type` with an empty type map |
| Config.RepoParts | src/config.rs:76-82 | `owner/repo` splits exactly when it has one slash, the parts rejoin to the input, and otherwise the error names the input |
| Config.RepoPartsOfJoined | src/config.rs:76-82 | slash-free owner and name joined with `/` split back into themselves |
| Config.RepoPartsExample | src/config.rs:153-172 | `owner/repo` splits into `owner` and `repo`; `invalid` is rejected |
| Config.RepoPartsUnique | src/config.rs:76-82 | two slash-free pairs that join to the same text are equal |
| Tickets.FirstTitleLine | src/ticket.rs:93-96 | the first line starting with `# `, and none exactly when no line does |
| Tickets.ExtractTitle | src/ticket.rs:93-98 | the title is the first `# ` line without its leading markers, or `Untitled` when there is none |
| Tickets.OutsideNotes | src/ticket.rs:266-280 | the lines kept are those not inside a `## Notes` section |
| Tickets.DropTitles | src/ticket.rs:262-265 | only the `# ` lines before the first kept line are dropped |
| Tickets.DropTitlesSnoc | src/ticket.rs:262-265 | dropping titles line by line agrees with dropping them from the whole list |
| Tickets.TitleIsNotSection | src/ticket.rs:262-276 | a title line is neither a `## Notes` heading nor a section heading |
| Tickets.InNotesStep | src/ticket.rs:266-276 | a line is inside the notes exactly when it follows a notes heading, or continues the notes without a new `## ` heading |
| Tickets.NextBodyStateCorrect | src/ticket.rs:260-280 | one step of the line loop keeps its state equal to the section-wise reference |
| Tickets.ExtractBody | src/ticket.rs:257-286 | the loop computes the reference body: titles before the first kept line dropped, the Notes section dropped, the rest joined and trimmed |
| Tickets.KeepBodyLines | src/ticket.rs:260-280 | the loop keeps exactly the reference's lines |
| Tickets.SectionAfterNotesKept | src/ticket.rs:524-541 | a `## ` heading that is not Notes ends the notes, so the section after them is kept |
| Tickets.Parse | src/ticket.rs:77-119 | a ticket carries its frontmatter fields with their defaults, the extracted title and the extracted body of the trimmed markdown |
| Tickets.MinimalFrontmatterDefaults | src/ticket.rs:63-73 | a ticket with only an id gets status `open`, type `task` and priority 2 |
| Tickets.GithubIssueNumber | src/ticket.rs:248-253 | a number is found only for a synced reference, and for every synced reference the result is exactly what the text after `gh-` parses to |
| Tickets.PaddedGithubRef | src/ticket.rs:248-253 | the zero-padded reference `gh-007` names issue 7 |
| Tickets.GithubIssueNumberOfRef | src/ticket.rs:546-557 | a ticket with reference `gh-n` is synced with issue number `n` |
| Tickets.ForeignRefNotSynced | src/ticket.rs:559-570 | a reference without the `gh-` prefix is not synced and has no issue number |
| Tickets.MalformedGithubRef | src/ticket.rs:241-253 | a `gh-` reference whose rest is not a number is synced yet has no issue number |
| Tickets.FenceFrom | src/ticket.rs:163-170 | the first `---` line at or after a position, and none exactly when there is none |
| Tickets.CloseFence | src/ticket.rs:206-216 | the closing fence of the frontmatter lies after the opening one |
| Tickets.ReplaceRefLines | src/ticket.rs:179-200 | replacing the reference keeps the number of lines |
| Tickets.ReplaceKeepsOutside | src/ticket.rs:186-197 | every line outside the frontmatter, and every frontmatter line not starting `external-ref:`, is left unchanged |
| Tickets.InsertRefLine | src/ticket.rs:201-224 | without a closing fence the lines are left as they are |
| Tickets.InsertedLineInFrontmatter | src/ticket.rs:201-224 | the inserted reference line sits inside the frontmatter, just before its closing fence, and every other line keeps its order |
| Tickets.EnsureNewline | src/ticket.rs:226-231 | the content ends with a newline, adding one only when it is missing |
| Tickets.RewrittenContent | src/ticket.rs:226-231 | a rewritten ticket file always ends with a newline |
| Tickets.ScanForRef | src/ticket.rs:158-177 | the scanning loop finds a reference exactly when the frontmatter holds an `external-ref:` line |
| Tickets.ReplaceInFrontmatter | src/ticket.rs:179-200 | the line-mapping loop equals the reference replacement |
| Tickets.RewriteContent | src/ticket.rs:158-231 | the new file content replaces the reference when the frontmatter has one and inserts it otherwise |
| Tickets.WriteExternalRef | src/ticket.rs:154-238 | a read failure writes nothing; the ticket gains the reference exactly when the read and the write succeed; each failure carries its message |
| Tickets.WriteBackSyncs | src/ticket.rs:154-253 | after writing `gh-n` back, the ticket is synced with issue number `n` |
| Codec.FormatDependenciesSection | src/sync.rs:1085-1098 | the section opens with `**Depends on:** ` and is only that heading when there are no dependencies |
| Codec.SectionLayout | src/sync.rs:1085-1098 | each dependency's reference sits at its offset, the first right after the heading; every reference but the last is followed by `, ` and then the next one; the last ends the section |
| Codec.DependencyMentioned | src/sync.rs:1088-1094 | every dependency is mentioned: as `#n` when it has issue n, otherwise as its id marked not synced |
| Codec.RefsInOrder | src/sync.rs:1085-1098 | the references appear in dependency order, each separated from the next by `, ` |
| Codec.FormatIssueBodyWithDeps | src/sync.rs:1064-1082 | the body opens with the marker and ends with the footer; the dependency section appears exactly when there are dependencies |
| Codec.FormatIssueBody | src/sync.rs:1059-1061 | the body without dependencies is marker, ticket body and footer |
| Codec.ExtractTicketMarker | src/sync.rs:1101-1106 | an id is found exactly when there is an opening marker and a ` -->` after the first one; the id is the text between them |
| Codec.FirstCloseAfterId | src/sync.rs:1104 | in `id -->` the first ` -->` is the one after the id when the id has none |
| Codec.ExtractLeadingMarker | src/sync.rs:1101-1106 | a body opening with an id's marker yields that id |
| Codec.MarkerRoundTrip | src/sync.rs:1191-1197 | the marker written into a body reads back as the ticket id |
| Codec.FormattedBodyHasMarker | src/sync.rs:1067 | a rendered body contains its ticket's marker |
| Codec.NoMarkerWithoutAngle | src/sync.rs:1102 | text without `<` yields no marker |
| Codec.NoMarkerExample | src/sync.rs:1185-1188 | the marker-less test body yields none |
| Codec.DepRefExamples | src/sync.rs:1088-1094 | synced dependencies render `#10` and `#20`; an unsynced one is marked `(not synced)` |
| Codec.DependenciesSectionExample | src/sync.rs:1246-1256 | the three-dependency test section renders as the test expects |
| Codec.NoDepsNoSection | src/sync.rs:1072-1076 | without dependencies no `Depends on` section is rendered |
| Issues.CreateInput | src/github/issues.rs:317-335 | a create input carries repository, title and body, labels exactly when there are some, and assignees exactly when there are some |
| Issues.ReadIssueInfo | src/github/issues.rs:344-358 | an issue is read only from an object whose `issue` has a string id, a `u64` number and a string url |
| Issues.ReadIssuePayload | src/github/issues.rs:344-358 | the payload of an issue reads back as that issue |
| Issues.CreateRequest | src/github/issues.rs:291-335 | no request for no creates; otherwise alias `create_i` per item, with `input_i` bound to that item's create input |
| Issues.CreateIssuesBatch | src/github/issues.rs:281-363 | no request for no creates; item i is sent as `input_i` under alias `create_i`; a failed request fails the call; on a reply, result i is the issue read from alias `create_i`, or fails naming index i when that alias has no id, number and url |
| Issues.CreateRoundTrip | src/github/issues.rs:341-363 | a batched create whose reply holds every created issue under its alias yields exactly those issues |
| Issues.CreateMissingAliasFails | src/github/issues.rs:360 | in a batched create, an alias missing from the reply fails that item with its index |
| Issues.UpdateInput | src/github/issues.rs:557-567 | an update input carries exactly id, title and body |
| Issues.DemuxUpdates | src/github/issues.rs:573-599 | one entry per issue id; a repeated id keeps its last item's result |
| Issues.UpdateRequest | src/github/issues.rs:532-567 | no request for no updates; otherwise alias `update_i` per item, with `input_i` bound to that item's update input |
| Issues.UpdateIssuesBatch | src/github/issues.rs:524-601 | no request for no updates; item i is sent as `input_i` under alias `update_i`; a failed request fails the call; on a reply, one entry per issue id, holding what the alias of the last item with that id carries |
| Issues.UpdateEntryPerItem | src/github/issues.rs:574-599 | the entry of an id is the result of the last item with that id |
| Issues.ReadExisting | src/github/issues.rs:451-473 | an issue is read only from a non-null alias, and carries the requested number |
| Issues.CollectExisting | src/github/issues.rs:449-476 | the map holds exactly the requested numbers whose issue reads, with what was read |
| Issues.GetIssuesBatch | src/github/issues.rs:413-478 | no request for no numbers; a failed query fails the call; a reply without `repository` gives no issues; otherwise exactly the requested numbers whose alias reads as an issue, each with what was read |
| Issues.StateRequest | src/github/issues.rs:610-633 | no request for no ids; otherwise alias `<prefix>_i` per id, with `input_i` bound to `{issueId: ids[i]}` |
| Issues.StateBatch | src/github/issues.rs:605-681 | close and reopen send nothing for no ids, otherwise the request closing or reopening exactly those ids, and succeed exactly when the request does, passing its error on |
| Issues.HashFold | src/github/issues.rs:866 | the label hash stays a 32-bit value |
| Issues.Channel | src/github/issues.rs:869-871 | each colour channel lies in 40..219 |
| Issues.GenerateLabelColor | src/github/issues.rs:864-874 | a colour is six lower-case hex digits whose three channels lie in 40..219 |
| Issues.BytesOfAscii | src/github/issues.rs:866 | an ASCII name's bytes are its character codes |
| Issues.BugHash | src/github/issues.rs:866 | the wrapping hash of `bug` |
| Issues.FeatureHash | src/github/issues.rs:866 | the wrapping hash of `feature`, which overflows 32 bits |
| Issues.BugColor | src/github/issues.rs:881-889 | `bug` gets colour `567834` |
| Issues.FeatureChannels | src/github/issues.rs:869-873 | the hash of `feature` gives channels `d4 57 3e` |
| Issues.FeatureColor | src/github/issues.rs:881-889 | `feature` gets colour `d4573e` |
| Issues.BugAndFeatureColorsDiffer | src/github/issues.rs:881-889 | the test's two labels get different colours |
| Issues.FindLabel | src/github/issues.rs:846 | the first label whose name matches ignoring ASCII case, and none exactly when no label matches |
| Issues.GetOrCreateLabel | src/github/issues.rs:836-860 | an existing label is reused; a missing one is created with its generated colour only when creation is allowed, and then the new label's id is returned, or the creation's error |
| Projects.FirstWithNumber | src/github/projects.rs:408 | the first project with the number, and none exactly when there is none |
| Projects.FirstWithTitle | src/github/projects.rs:419-423 | the first project whose lowercased title matches, and none exactly when there is none |
| Projects.FindMatchingProject | src/github/projects.rs:400-425 | a number match wins; otherwise the first case-insensitive title match |
| Projects.NumberPreferredExample | src/github/projects.rs:501-521 | a number match beats a title match, as in the test |
| Projects.NumberBeatsTitle | src/github/projects.rs:406-416 | whenever some project has the number, the one found has it |
| Projects.TitleMatchIgnoresCase | src/github/projects.rs:419-423 | the title lookup does not depend on the case of the name |
| Projects.TitleMatchesSame | src/github/projects.rs:419-423 | names with the same lowercase find the same project |
| Projects.IsOrganization | src/github/projects.rs:254-258 | an owner is an organization exactly when its type name is `Organization` |
| Projects.FindProject | src/github/projects.rs:103-126 | repo projects are searched first; only when none matches is the owner queried, then exactly one of the organization or user searches |
| Projects.RepoMatchShortCircuits | src/github/projects.rs:113-116 | a repo-level match makes the owner-level replies irrelevant |
| Projects.AddInput | src/github/projects.rs:349-357 | an add input carries exactly the project and content ids |
| Projects.AddItem | src/github/projects.rs:366-382 | an item's result is its item id, or the missing-response or missing-id error |
| Projects.AddRequest | src/github/projects.rs:323-357 | no request for no issues; otherwise alias `add_i` per issue, with `input_i` bound to the project and that issue's content id |
| Projects.AddBatchItem | src/github/projects.rs:359-396 | on a reply, item i of a batched add is what alias `add_i` carries |
| Projects.AddIssuesToProjectBatch | src/github/projects.rs:314-396 | no request for no issues; one result per issue; an already-added error makes every item succeed with an empty id |
| Projects.AddRoundTrip | src/github/projects.rs:364-384 | a reply holding every item id under its alias yields exactly those ids |
| Projects.AlreadyAddedAnyCase | src/github/projects.rs:387-389 | the already-added phrases are recognised in any ASCII case |
| Projects.AddIssueToProject | src/github/projects.rs:263-310 | the single add returns the item id, fails without one, and turns an already-added error into an empty item id |
| Projects.SingleAndBatchAgree | src/github/projects.rs:295-297 | the single and the batched add classify an error alike |
| SubIssues.LinkInput | src/github/subissues.rs:118-127 | a link input carries exactly the parent and the child |
| SubIssues.LinkItem | src/github/subissues.rs:136-147 | an item fails exactly when its alias is present without `subIssue`; a missing alias counts as linked |
| SubIssues.LinkRequest | src/github/subissues.rs:94-127 | no request for no links; otherwise alias `link_i` per link, with `input_i` bound to that link's parent and child |
| SubIssues.AddSubIssuesBatch | src/github/subissues.rs:85-166 | no request for no links; one result per link; an already-linked error makes every link succeed |
| SubIssues.EmptyResponseAllLinked | src/github/subissues.rs:144-147 | an empty reply marks every link as linked |
| SubIssues.NullAliasFails | src/github/subissues.rs:138-143 | a null entry under an alias fails that link |
| SubIssues.AddSubIssue | src/github/subissues.rs:39-78 | the single link succeeds on success and on an already-linked error, and otherwise fails with the error |
| SubIssues.SingleAndBatchAgree | src/github/subissues.rs:66-72 | the single and the batched link classify an error alike |
| SubIssues.PhraseRecognised | src/github/subissues.rs:154-158 | an error carrying one of the five phrases is recognised |
| IssueTypes.ResolveIssueType | src/sync.rs:1110-1125 | a type id is found exactly when the repository has types, the ticket type is mapped and the lowercased mapping is known |
| IssueTypes.FirstDangling | src/sync.rs:1143-1151 | the first mapping, in iteration order, whose target type is unknown |
| IssueTypes.ValidateIssueTypeMappings | src/sync.rs:1129-1154 | validation fails exactly when the repository has types and some mapping's target is unknown |
| IssueTypes.ValidatedMappingResolves | src/sync.rs:1110-1154 | after validation passes, every mapped ticket type resolves to its cached id |
| IssueTypes.ResolveIgnoresCase | src/sync.rs:1124 | only the lowercase of the mapped name matters |
| IssueTypes.ResolveExamples | src/sync.rs:1260-1327 | the resolution cases of the tests |
| IssueTypes.ValidateMissingTypeExample | src/sync.rs:1343-1359 | an `epic` mapped to an unknown `Epic` fails with an error naming both |
| ProjectFields.FirstNamed | src/sync.rs:931-932 | the first element whose name matches ignoring case, and none exactly when there is none |
| ProjectFields.OptionFor | src/sync.rs:961-962 | the id of the first option whose name matches ignoring case, present exactly when some option matches |
| ProjectFields.StatusMap | src/sync.rs:960-980 | the status map succeeds exactly when every configured option exists; every key is some lowercased status mapped to the id of its first matching option, and the last status inserted under a key decides its entry |
| ProjectFields.StatusMapCoversTable | src/sync.rs:960-984 | a successful map covers every configured status |
| ProjectFields.StatusMapFailsOnMissing | src/sync.rs:969-978 | a configured option that does not exist fails the setup |
| ProjectFields.LastInsertWins | src/sync.rs:960-966 | after each insert, the last status with a given lowercased key has its first matching option's id under that key |
| ProjectFields.UniqueKeysAreLast | src/sync.rs:960-966 | a status whose lowercased key no other status shares is the last insert under that key, in any iteration order |
| ProjectFields.SetupStatusField | src/sync.rs:927-985 | a missing or non-select field skips status sync; otherwise the cache holds the field id, a key for every lowercased status, and under it the id of the first option matching that status's configured name (the last insert winning when two statuses lowercase alike) |
| ProjectFields.SetupIterationField | src/sync.rs:987-1055 | a missing or non-iteration field skips; `@current` takes the first active iteration; a named one must be active or the setup fails |
| ProjectFields.CurrentIsFirstActive | src/sync.rs:1017-1026 | `@current` resolves to the first active iteration, or skips when none is active |
| ProjectFields.NamedIterationActiveOnly | src/sync.rs:1027-1043 | a named iteration resolves only among active iterations, and fails when none matches |
| ProjectFields.CompletedIterationsIgnored | src/sync.rs:1006-1007 | completed iterations never affect the setup |
| ProjectFields.SetupProjectFields | src/sync.rs:889-925 | no status or iteration settings means no fetch; a failed fetch fails; a failed status set-up, and then a failed iteration set-up, fails with its own error; otherwise the cache holds exactly what the two set-ups produced and exists exactly when one of them produced something |
| Reconcile.CheckUpdateNeeded | src/sync.rs:576-619 | an invalid reference or missing marker is a conflict, a missing issue an error, no changes exactly when title, body and state agree, and otherwise the update that restores them |
| Reconcile.UpdateThenNoChanges | src/sync.rs:600-618 | after applying the update the check asks for, the check finds no changes |
| Reconcile.CreatedIssueNextCheck | src/sync.rs:600-618 | an issue just created from a ticket needs nothing next time unless the ticket is closed, in which case only a close |
| Reconcile.UpdatesOf | src/sync.rs:626-634 | one content update per pending update, in order |
| Reconcile.StateIds | src/sync.rs:664-668 | the ids to close (or reopen) are exactly those of the items asking for it |
| Reconcile.ItemUpdatedIff | src/sync.rs:637-701 | an item is updated exactly when its content update succeeded and neither state change it asked for failed |
| Reconcile.AfterStateChanges | src/sync.rs:663-701 | each item's result after the close and reopen requests |
| Reconcile.BatchUpdate | src/sync.rs:622-704 | one result per pending update; a failed request fails them all and sends no state change; each result is a failure or the update of that item's issue |
| Reconcile.StateFailureIsolated | src/sync.rs:670-701 | a failed close or reopen does not touch items that did not ask for it |
| Reconcile.CreatesOf | src/sync.rs:712-720 | one create per pending create, with its title, body and labels |
| Reconcile.CreateResult | src/sync.rs:729-736 | a created issue becomes `Created` with its id, number and url; an error becomes `Failed` |
| Reconcile.BatchCreate | src/sync.rs:707-745 | no creates gives no results; a failed request fails every item; otherwise one result per item |
| Reconcile.CreateResultPerItem | src/sync.rs:707-745 | composed with the batched call, the create phase has exactly one result per pending item |
| Reconcile.Tally | src/sync.rs:290-317 | the summary counts every result exactly once |
| Reconcile.TallyCounts | src/sync.rs:290-317 | each summary counter equals the number of results of its own kind, counted independently |
| Reconcile.TallyZeroes | src/sync.rs:290-317 | no creation is counted exactly when no result is a creation, and likewise for failures |
| Reconcile.TallyAppend | src/sync.rs:290-317 | counting two runs of results adds their counts |
| Reconcile.TallyAllSkipped | src/sync.rs:308-311 | results that are all skips count only as skipped |
| Ordering.InsertAdds | src/sync.rs:288 | inserting adds the entry and nothing else |
| Ordering.InsertSorted | src/sync.rs:288 | inserting into a sorted list keeps it sorted by index |
| Ordering.SortByIndex | src/sync.rs:288 | the sort by ticket index is sorted and a permutation of its input |
| Ordering.SortedIndicesAreRange | src/sync.rs:288 | sorted entries whose indices are each of `0..n` once sit at their own index |
| Engine.TicketToIssue | src/sync.rs:184-187 | the lookup holds exactly the ids of tickets with an issue number, each with such a ticket's number |
| Engine.TicketNumbers | src/sync.rs:191-194 | the numbers of exactly the tickets that have one |
| Engine.AddParents | src/sync.rs:197-205 | every parent with an issue number is appended once and nothing else is added |
| Engine.IssueNumbers | src/sync.rs:191-205 | the numbers fetched are the tickets' own and their parents', nothing else |
| Engine.ResolveTags | src/sync.rs:753-779 | at most one id per tag, each found in the updated cache, which keeps every cached entry and adds only lowercased tags |
| Engine.ResolveLabelIds | src/sync.rs:747-782 | with tag syncing off no label is resolved and the cache is unchanged |
| Engine.CachedTagsNeedNoLookup | src/sync.rs:757-761 | tags that are all cached resolve to their cached ids, in order, whatever the label replies |
| Engine.DirectResult | src/sync.rs:224-232 | no changes and conflicts are skips, errors are failures |
| Engine.Classify | src/sync.rs:220-258 | every ticket goes to exactly one of direct results, creates and updates, as its synced state and its check decide |
| Engine.ClassifiedAddDirect | src/sync.rs:224-232 | adding a direct result for the next ticket keeps the classification invariant |
| Engine.ClassifiedAddCreate | src/sync.rs:246-257 | queueing the next, unsynced ticket for creation keeps the classification invariant |
| Engine.ClassifiedAddUpdate | src/sync.rs:233-244 | queueing the next ticket for update keeps the classification invariant |
| Engine.RecordCreate | src/sync.rs:265-275 | a created issue is recorded in the ticket exactly when the write-back succeeds; otherwise the ticket is unchanged and the result a failure |
| Engine.RecordCreates | src/sync.rs:261-277 | each create's result is recorded for its ticket, and tickets not created are unchanged |
| Engine.CreatePhase | src/sync.rs:260-277 | one entry per create with its ticket's index, created or failed, and only created tickets gain a reference |
| Engine.UpdateOutcomes | src/sync.rs:622-704 | one outcome per queued update, each a failure or that issue's update |
| Engine.UpdatePhase | src/sync.rs:279-285 | one entry per update with its ticket's index, each a failure or that issue's update |
| Engine.FetchExisting | src/sync.rs:207-214 | no numbers means no fetch; a failed fetch gives no issues; otherwise exactly the fetched issues, each under its own number |
| Engine.RunPhases | src/sync.rs:259-288 | one entry per ticket, at its own index after sorting, each what its ticket calls for |
| Engine.Sync | src/sync.rs:178-317 | the mapping comes from every ticket, only referenced issues are fetched, every ticket is classified, one result and one final ticket per input ticket, and the summary is the tally of the outcomes |
| Engine.SyncEntries | src/sync.rs:178-317 | the i-th result belongs to the i-th ticket and is what that ticket called for (skip, create, update, or a recorded error), and the summary counts every ticket |
| Engine.SortedResults | src/sync.rs:287-288 | after sorting, result `i` is ticket `i`'s entry |
| Engine.EntriesCoverTickets | src/sync.rs:220-285 | the three phases together hold every ticket index exactly once |
| Engine.EntriesOk | src/sync.rs:220-285 | every entry the phases produce is what its ticket calls for |
| Engine.SyncedNotCreated | src/sync.rs:220-257 | a synced ticket is never queued for creation |
| Engine.SyncOnlyRecordsRefs | src/sync.rs:261-277 | a run creates issues only for unsynced tickets and changes a ticket only by recording its new reference |
| Engine.EntryOkRecordsRef | src/sync.rs:265-275 | a well-formed entry records a reference exactly for a created issue |
| Engine.InSyncRunSkipsAll | src/sync.rs:220-226 | a run over tickets that are all in sync skips every one and changes nothing |
| Engine.InSyncEntriesSkip | src/sync.rs:224-225 | entries of in-sync tickets are all `no changes` skips |
| Advisory.FilterMap | src/sync.rs:536-543 | every value the selector yields is selected, and nothing else is |
| Advisory.FilterMapKeepsInOrder | src/sync.rs:399-407 | selecting from two parts selects from each in turn |
| Advisory.ExistingNodeIds | src/sync.rs:808-815 | every ticket whose issue was fetched maps to that issue's node id |
| Advisory.CreatedNodeIds | src/sync.rs:817-823 | tickets created in this run map to their new node ids, overriding fetched ones |
| Advisory.NodeIds | src/sync.rs:805-823 | the node-id lookup covers fetched and created issues and holds nothing else |
| Advisory.LinkOf | src/sync.rs:828-851 | a ticket yields a link exactly when it has a parent and both have node ids |
| Advisory.LinkSubIssues | src/sync.rs:798-886 | exactly the links of tickets whose parent and self have node ids |
| Advisory.FilterMapOrder | src/sync.rs:828-843 | two selected items keep the order of the items they came from |
| Advisory.LinksInTicketOrder | src/sync.rs:828-843 | an earlier ticket's link is sent before a later ticket's |
| Advisory.LinksHaveParents | src/sync.rs:828-843 | every link sent is the link of one ticket with a parent, its parent's issue over its own, and every ticket whose two issues are known has its link sent |
| Advisory.CreatedIssue | src/sync.rs:341-346 | only created results are added, with their ticket's status |
| Advisory.AddedItem | src/sync.rs:367-379 | only items added with a non-empty item id keep their status |
| Advisory.CreatedIssues | src/sync.rs:338-346 | every created issue is collected with its ticket's status, and nothing else |
| Advisory.AddToProject | src/sync.rs:332-387 | without a project nothing is added; otherwise exactly the created issues are sent, in result order; on a reply, the item added at position i with a non-empty id is kept with the status of the issue sent at position i, and every kept item is such an item |
| Advisory.AddCreated | src/sync.rs:348-379 | one batched add of the created issues; each returned item id is paired with the status sent at its position, and nothing else is kept |
| Advisory.ProjectItems | src/sync.rs:367-379 | the items kept are exactly the non-empty item ids, each with the status at its own position |
| Advisory.IssueIdsFromCreated | src/sync.rs:353 | the ids sent are exactly those of the issues created |
| Advisory.ItemsFromCreated | src/sync.rs:362-379 | every item kept has a non-empty id and comes from a created issue; the item at position i is kept with the status at position i, and every kept item is one of these |
| Advisory.StatusValue | src/sync.rs:399-407 | an item gets a status value exactly when its lowercased status is mapped |
| Advisory.SetProjectFieldValues | src/sync.rs:390-461 | status values for mapped items and the iteration for every item, each only when its cache exists |
| Advisory.StatusTarget | src/sync.rs:490-510 | a ticket is a status target exactly when its issue was fetched and its status is mapped |
| Advisory.InProject | src/sync.rs:535-543 | only targets already in the project are updated, with their item id |
| Advisory.SyncProjectStatus | src/sync.rs:465-573 | nothing without a project or status cache; the fetched tickets with mapped statuses are looked up; on a reply, exactly those in the project are updated to their option |
| Advisory.TargetIds | src/sync.rs:517-520 | the ids looked up are exactly those of status targets |
| Advisory.TargetUpdates | src/sync.rs:536-543 | every update is a target's option on its project item, and every target in the project is updated |
| Advisory.Advise | src/sync.rs:319-326 | each link is one ticket's parent-over-child link and every linkable ticket's link is sent; added issues were created in this run for unsynced tickets; without a project nothing is sent |
| Advisory.Push | src/sync.rs:178-329 | the summary counts every ticket, and the project receives only issues created in this run for tickets that had none |
| Advisory.AddedWereUnsynced | src/sync.rs:341-353 | every issue added to the project was created for a ticket that had no issue |
| Advisory.AdvisoryLeavesSummary | src/sync.rs:319-328 | the summary does not depend on the project setup or the advisory replies |

## Left out

- I/O: HTTP transport, authentication, file reading, the YAML frontmatter decoding and directory walking are not modelled. Their results are parameters: `Files.read`/`Files.write`, every `Replies` and `AdvisoryReplies` field, the `Frontmatter` given to `Tickets.Parse`.
- Printing: every `println!`/`eprintln!` is left out. That includes the outcome reports of the advisory phases, which are only printed, so those phases are modelled as the requests they send.
- Async execution and concurrency: the model is sequential, in the order the source awaits.
- `SyncEngine::new` (src/sync.rs:103-176): its lookups of repository id, assignee id, issue types and project are network calls. The engine state it builds is the `Engine.EngineState` parameter. The field setup it calls is modelled as `ProjectFields.SetupProjectFields`.
- `Ticket::load_all` and `find_tickets_dir`: they walk the file system.
- HashMap iteration order (the type map in validation and the status table in the field setup) is an explicit `order` parameter. The parameter lists the keys, because Rust leaves the order unspecified. Only the first error reported depends on it.
- Unicode `to_lowercase` is modelled as ASCII lowercasing. `eq_ignore_ascii_case` is modelled exactly.
- Strings.DebugList: `{:?}` escaping of quotes and control characters inside names is not modelled. Only the bracketed, comma-separated shape is.
- Engine.ResolveTags: `get_or_create_label` is called per tag. The model takes its reply from a fixed function of the tag (`LabelEnv`), so two lookups of the same uncached tag in one run get the same reply.
- The GraphQL document text of every query and mutation (its selection sets and argument lists) is not modelled. Only the aliases, variables and the reading of replies are.
- The issue type id: the `IssueCreate`/`IssueUpdate` structs (src/github/issues.rs:27-39) and the create input built at src/github/issues.rs:317-333 have no issue-type field, although src/sync.rs:718 sets one. The model resolves the id and carries it on each pending create and update and on its `IssueCreate`/`IssueUpdate` records, but never puts it in the request variables.
- The batched project-field mutations (`set_project_items_single_select_batch`, `set_project_items_iteration_batch`) and `get_project_item_ids_batch` live in client code that is not part of this model. The model states which (item, value) pairs are sent; the item-id map is a reply parameter.
- Counters (`u32` summary fields, `usize` indices) are unbounded naturals. No run reaches 2^32 tickets. The `u32` wrap-around that matters, in the label colour hash, is modelled exactly.

=== FILE: advisory.dfy ===
/** The phases `sync` runs after counting its results (src/sync.rs): linking
    sub-issues, adding new issues to the project with their Status and
    Iteration values, and bringing the project Status of already-synced
    tickets in line. Their outcomes are only logged, so what is modelled is
    which items each phase sends; the summary is settled before any of them
    runs. */
module Advisory {
  import opened Wrappers
  import opened Strings
  import Json
  import Tickets
  import Issues
  import Projects
  import SubIssues
  import ProjectFields
  import opened Reconcile
  import Engine
  import Ordering

  // ---------------------------------------------------------------------
  // Selecting items

  /** The items `f` keeps, transformed as it says, in order: the shape of
      every `filter_map` of the advisory phases. */
  function FilterMap<T, U>(xs: seq<T>, f: T -> Option<U>): (r: seq<U>)
    ensures |r| <= |xs|
    ensures forall i :: 0 <= i < |xs| && f(xs[i]).Some? ==> f(xs[i]).value in r
    ensures forall y :: y in r ==> exists i :: 0 <= i < |xs| && f(xs[i]) == Some(y)
  {
    if |xs| == 0 then []
    else
      var rest := FilterMap(xs[1..], f);
      assert forall i :: 1 <= i < |xs| ==> xs[i] == xs[1..][i - 1];
      var fx := f(xs[0]);
      if fx.Some? then [fx.value] + rest else rest
  }

  /** A ticket kept by `FilterMap` is kept whatever precedes it. */
  lemma FilterMapKeepsInOrder<T, U>(xs: seq<T>, f: T -> Option<U>, ys: seq<T>)
    ensures FilterMap(xs + ys, f) == FilterMap(xs, f) + FilterMap(ys, f)
  {
    if |xs| > 0 {
      assert (xs + ys)[1..] == xs[1..] + ys;
      FilterMapKeepsInOrder(xs[1..], f, ys);
    } else {
      assert xs + ys == ys;
    }
  }

  /** Two kept items appear in the order of the items they came from. */
  lemma FilterMapOrder<T, U>(xs: seq<T>, f: T -> Option<U>, i: nat, j: nat)
    requires i < j < |xs| && f(xs[i]).Some? && f(xs[j]).Some?
    ensures var r := FilterMap(xs, f);
            exists p, q :: 0 <= p < q < |r| && r[p] == f(xs[i]).value && r[q] == f(xs[j]).value
  {
    assert xs[..j] + xs[j..] == xs;
    assert xs[..j][i] == xs[i] && xs[j..][0] == xs[j];
    var r := FilterMap(xs, f);
    var front, back := FilterMap(xs[..j], f), FilterMap(xs[j..], f);
    FilterMapKeepsInOrder(xs[..j], f, xs[j..]);
    var p :| 0 <= p < |front| && front[p] == f(xs[i]).value;
    assert back[0] == f(xs[j]).value;
    assert r[p] == f(xs[i]).value && r[|front|] == f(xs[j]).value;
  }

  // ---------------------------------------------------------------------
  // Phase 4: sub-issue links

  /** The ticket's issue was among the fetched issues. */
  predicate KnownIssue(t: Tickets.Ticket, existing: map<nat, Issues.ExistingIssue>) {
    Tickets.GithubIssueNumber(t).Some? && Tickets.GithubIssueNumber(t).value in existing
  }

  /** The node id of a ticket's fetched issue. */
  function ExistingNodeId(t: Tickets.Ticket, existing: map<nat, Issues.ExistingIssue>): string
    requires KnownIssue(t, existing)
  {
    existing[Tickets.GithubIssueNumber(t).value].id
  }

  /** Some ticket of `all[..k]` with this id has a fetched issue with
      this node id. */
  ghost predicate FetchedNode(all: seq<Tickets.Ticket>, existing: map<nat, Issues.ExistingIssue>, k: nat,
                              id: string, node: string)
    requires k <= |all|
  {
    exists i :: 0 <= i < k && all[i].id == id && KnownIssue(all[i], existing) && ExistingNodeId(all[i], existing) == node
  }

  /** Ticket id -> issue node id over the fetched issues of `all[..k]`. */
  function ExistingNodeIds(all: seq<Tickets.Ticket>, existing: map<nat, Issues.ExistingIssue>, k: nat)
    : (m: map<string, string>)
    requires k <= |all|
    ensures forall i :: 0 <= i < k && KnownIssue(all[i], existing) ==> all[i].id in m
    ensures forall id :: id in m ==> FetchedNode(all, existing, k, id, m[id])
  {
    if k == 0 then map[]
    else
      var prev := ExistingNodeIds(all, existing, k - 1);
      var t := all[k - 1];
      var m := if KnownIssue(t, existing) then prev[t.id := ExistingNodeId(t, existing)] else prev;
      forall id | id in m ensures FetchedNode(all, existing, k, id, m[id]) {
        if KnownIssue(t, existing) && id == t.id {
          assert all[k - 1].id == id && ExistingNodeId(all[k - 1], existing) == m[id];
        } else {
          FetchedNodeGrows(all, existing, k, id, prev[id]);
        }
      }
      m
  }

  /** A node found among `all[..k-1]` is found among `all[..k]`. */
  lemma FetchedNodeGrows(all: seq<Tickets.Ticket>, existing: map<nat, Issues.ExistingIssue>, k: nat,
                         id: string, node: string)
    requires 0 < k <= |all| && FetchedNode(all, existing, k - 1, id, node)
    ensures FetchedNode(all, existing, k, id, node)
  {
    var i :| 0 <= i < k - 1 && all[i].id == id && KnownIssue(all[i], existing) && ExistingNodeId(all[i], existing) == node;
    assert 0 <= i < k;
  }

  /** Some result of `results[..k]` created an issue for a ticket with
      this id. */
  ghost predicate CreatedFor(results: seq<(nat, SyncResult)>, tickets: seq<Tickets.Ticket>, k: nat, id: string)
    requires k <= |results| && forall j :: 0 <= j < |results| ==> results[j].0 < |tickets|
  {
    exists j :: 0 <= j < k && results[j].1.Created? && tickets[results[j].0].id == id
  }

  /** ... and that issue has this node id. */
  ghost predicate CreatedNode(results: seq<(nat, SyncResult)>, tickets: seq<Tickets.Ticket>, k: nat, id: string,
                              node: string)
    requires k <= |results| && forall j :: 0 <= j < |results| ==> results[j].0 < |tickets|
  {
    exists j :: 0 <= j < k && results[j].1.Created? && tickets[results[j].0].id == id && results[j].1.issueId == node
  }

  /** Adds the node ids of the issues created by `results[..k]` to `base`:
      a ticket with a new issue takes its new node id. */
  function CreatedNodeIds(results: seq<(nat, SyncResult)>, tickets: seq<Tickets.Ticket>, base: map<string, string>,
                          k: nat)
    : (m: map<string, string>)
    requires k <= |results| && forall j :: 0 <= j < |results| ==> results[j].0 < |tickets|
    ensures forall id :: id in m <==> id in base || CreatedFor(results, tickets, k, id)
    ensures forall id :: id in m && CreatedFor(results, tickets, k, id) ==> CreatedNode(results, tickets, k, id, m[id])
    ensures forall id :: id in m && !CreatedFor(results, tickets, k, id) ==> m[id] == base[id]
  {
    if k == 0 then base
    else
      var prev := CreatedNodeIds(results, tickets, base, k - 1);
      var e := results[k - 1];
      assert forall id :: CreatedFor(results, tickets, k, id) <==>
        CreatedFor(results, tickets, k - 1, id) || (e.1.Created? && tickets[e.0].id == id);
      assert forall id, node :: CreatedNode(results, tickets, k - 1, id, node) ==> CreatedNode(results, tickets, k, id, node);
      if e.1.Created? then
        assert CreatedNode(results, tickets, k, tickets[e.0].id, e.1.issueId);
        prev[tickets[e.0].id := e.1.issueId]
      else prev
  }

  /** `link_sub_issues`' lookup: the fetched issues of all tickets, then
      the issues this run created, which take precedence. */
  function NodeIds(all: seq<Tickets.Ticket>, existing: map<nat, Issues.ExistingIssue>,
                   results: seq<(nat, SyncResult)>, tickets: seq<Tickets.Ticket>)
    : (m: map<string, string>)
    requires forall j :: 0 <= j < |results| ==> results[j].0 < |tickets|
    ensures forall i :: 0 <= i < |all| && KnownIssue(all[i], existing) ==> all[i].id in m
    ensures forall j :: 0 <= j < |results| && results[j].1.Created? ==> tickets[results[j].0].id in m
    ensures forall id :: id in m ==>
      if CreatedFor(results, tickets, |results|, id) then CreatedNode(results, tickets, |results|, id, m[id])
      else FetchedNode(all, existing, |all|, id, m[id])
  {
    var base := ExistingNodeIds(all, existing, |all|);
    var m := CreatedNodeIds(results, tickets, base, |results|);
    assert forall j :: 0 <= j < |results| && results[j].1.Created? ==> CreatedFor(results, tickets, |results|, tickets[results[j].0].id);
    m
  }

  /** Both ends of the ticket's parent link have an issue. */
  predicate Linkable(t: Tickets.Ticket, nodeIds: map<string, string>) {
    t.parent.Some? && t.parent.value in nodeIds && t.id in nodeIds
  }

  /** The link a ticket asks for: its parent's issue over its own, when
      both are known. */
  function LinkOf(t: Tickets.Ticket, nodeIds: map<string, string>): (l: Option<SubIssues.SubIssueLink>)
    ensures l.Some? <==> Linkable(t, nodeIds)
    ensures l.Some? ==> l.value == SubIssues.SubIssueLink(nodeIds[t.parent.value], nodeIds[t.id])
  {
    if Linkable(t, nodeIds) then Some(SubIssues.SubIssueLink(nodeIds[t.parent.value], nodeIds[t.id])) else None
  }

  /** Phase 4: the links sent in one batch, in ticket order. A ticket
      whose parent has no issue yet is linked by a later run. */
  function LinkSubIssues(tickets: seq<Tickets.Ticket>, all: seq<Tickets.Ticket>, results: seq<(nat, SyncResult)>,
                         existing: map<nat, Issues.ExistingIssue>)
    : (sent: seq<SubIssues.SubIssueLink>)
    requires forall j :: 0 <= j < |results| ==> results[j].0 < |tickets|
    ensures |sent| <= |tickets|
    ensures var m := NodeIds(all, existing, results, tickets);
            forall i :: 0 <= i < |tickets| && Linkable(tickets[i], m) ==>
              SubIssues.SubIssueLink(m[tickets[i].parent.value], m[tickets[i].id]) in sent
    ensures var m := NodeIds(all, existing, results, tickets);
            forall l :: l in sent ==>
              exists i :: 0 <= i < |tickets| && Linkable(tickets[i], m)
                          && l == SubIssues.SubIssueLink(m[tickets[i].parent.value], m[tickets[i].id])
  {
    var m := NodeIds(all, existing, results, tickets);
    FilterMap(tickets, t => LinkOf(t, m))
  }

  /** The links go out in ticket order: an earlier ticket's link is sent
      before a later ticket's. */
  lemma LinksInTicketOrder(tickets: seq<Tickets.Ticket>, all: seq<Tickets.Ticket>, results: seq<(nat, SyncResult)>,
                           existing: map<nat, Issues.ExistingIssue>, i: nat, j: nat)
    requires forall k :: 0 <= k < |results| ==> results[k].0 < |tickets|
    requires i < j < |tickets|
    requires var m := NodeIds(all, existing, results, tickets);
             LinkOf(tickets[i], m).Some? && LinkOf(tickets[j], m).Some?
    ensures var m := NodeIds(all, existing, results, tickets);
            var sent := LinkSubIssues(tickets, all, results, existing);
            exists p, q :: 0 <= p < q < |sent| && sent[p] == LinkOf(tickets[i], m).value
                           && sent[q] == LinkOf(tickets[j], m).value
  {
    var m := NodeIds(all, existing, results, tickets);
    var f := t => LinkOf(t, m);
    var sent := LinkSubIssues(tickets, all, results, existing);
    assert sent == FilterMap(tickets, f);
    assert f(tickets[i]) == LinkOf(tickets[i], m) && f(tickets[j]) == LinkOf(tickets[j], m);
    FilterMapOrder(tickets, f, i, j);
  }

  // ---------------------------------------------------------------------
  // Phase 5: new issues into the project

  /** `(issue id, ticket status)` of a created result. */
  function CreatedIssue(e: (nat, SyncResult), tickets: seq<Tickets.Ticket>): (r: Option<(string, string)>)
    ensures r.Some? <==> e.1.Created? && e.0 < |tickets|
    ensures r.Some? ==> r.value == (e.1.issueId, tickets[e.0].status)
  {
    if e.1.Created? && e.0 < |tickets| then Some((e.1.issueId, tickets[e.0].status)) else None
  }

  /** `(item id, ticket status)` of an item added with a non-empty item id. */
  function AddedItem(x: ((string, string), Result<string>)): (r: Option<(string, string)>)
    ensures r.Some? <==> x.1.Ok? && x.1.value != ""
    ensures r.Some? ==> r.value == (x.1.value, x.0.1)
  {
    if x.1.Ok? && x.1.value != "" then Some((x.1.value, x.0.1)) else None
  }

  /** An add that came back with a non-empty item id put that id, paired
      with `status`, among `items`. */
  predicate ItemKept(items: seq<(string, string)>, status: string, added: Result<string>) {
    added.Ok? && added.value != "" ==> (added.value, status) in items
  }

  /** What phase 5 sends: the issue ids added to the project, and the
      `(item id, ticket status)` of the items then given field values. */
  datatype ProjectAdds = ProjectAdds(issueIds: seq<string>, items: seq<(string, string)>)

  /** The created issues of a run, in result order. */
  function CreatedIssues(results: seq<(nat, SyncResult)>, tickets: seq<Tickets.Ticket>): (info: seq<(string, string)>)
    requires forall j :: 0 <= j < |results| ==> results[j].0 < |tickets|
    ensures forall j :: 0 <= j < |results| && results[j].1.Created? ==>
      (results[j].1.issueId, tickets[results[j].0].status) in info
    ensures forall x :: x in info ==>
      exists j :: 0 <= j < |results| && results[j].1.Created? && x == (results[j].1.issueId, tickets[results[j].0].status)
  {
    FilterMap(results, e => CreatedIssue(e, tickets))
  }

  /** `add_to_project`: only created issues are sent; a failed batch leaves
      nothing to set; items that came back without an item id (the
      "already in the project" case) get no field values. */
  function AddToProject(project: Option<Projects.ProjectInfo>, results: seq<(nat, SyncResult)>,
                        tickets: seq<Tickets.Ticket>, reply: Result<Json.Response>)
    : (r: ProjectAdds)
    requires forall j :: 0 <= j < |results| ==> results[j].0 < |tickets|
    ensures project.None? ==> r == ProjectAdds([], [])
    ensures forall x :: x in r.issueIds ==>
      exists j :: 0 <= j < |results| && results[j].1.Created? && x == results[j].1.issueId
    ensures project.Some? ==> forall j :: 0 <= j < |results| && results[j].1.Created? ==> results[j].1.issueId in r.issueIds
    ensures forall x :: x in r.items ==> x.0 != ""
    ensures forall x :: x in r.items ==>
      exists j :: 0 <= j < |results| && results[j].1.Created? && x.1 == tickets[results[j].0].status
    ensures project.Some? ==> r.issueIds == Ordering.Firsts(CreatedIssues(results, tickets))
    ensures project.Some? && reply.Ok? ==>
      forall i {:trigger ItemKept(r.items, CreatedIssues(results, tickets)[i].1, Projects.AddItem(reply.value, i))} ::
        0 <= i < |r.issueIds| ==> ItemKept(r.items, CreatedIssues(results, tickets)[i].1, Projects.AddItem(reply.value, i))
    ensures project.Some? && reply.Ok? ==> forall x :: x in r.items ==>
      exists i :: 0 <= i < |r.issueIds| && Projects.AddItem(reply.value, i) == Ok(x.0)
                  && x.1 == CreatedIssues(results, tickets)[i].1
  {
    if project.None? then ProjectAdds([], [])
    else
      var info := CreatedIssues(results, tickets);
      var ids := Ordering.Firsts(info);
      IssueIdsFromCreated(results, tickets, info, ids);
      if |info| == 0 then ProjectAdds([], [])
      else AddCreated(project.value.id, results, tickets, info, reply)
  }

  /** One batched add of the created issues `info`, and the items then
      given field values: item ids paired with the status sent at their
      position. */
  function AddCreated(projectId: string, results: seq<(nat, SyncResult)>, tickets: seq<Tickets.Ticket>,
                      info: seq<(string, string)>, reply: Result<Json.Response>)
    : (r: ProjectAdds)
    requires forall j :: 0 <= j < |results| ==> results[j].0 < |tickets|
    requires info == CreatedIssues(results, tickets)
    ensures r.issueIds == Ordering.Firsts(info)
    ensures forall x :: x in r.items ==> x.0 != ""
    ensures forall x :: x in r.items ==>
      exists j :: 0 <= j < |results| && results[j].1.Created? && x.1 == tickets[results[j].0].status
    ensures reply.Ok? ==> forall i {:trigger ItemKept(r.items, info[i].1, Projects.AddItem(reply.value, i))} ::
      0 <= i < |info| ==> ItemKept(r.items, info[i].1, Projects.AddItem(reply.value, i))
    ensures reply.Ok? ==> forall x :: x in r.items ==>
      exists i :: 0 <= i < |info| && Projects.AddItem(reply.value, i) == Ok(x.0) && x.1 == info[i].1
  {
    var ids := Ordering.Firsts(info);
    var added := Projects.AddIssuesToProjectBatch(projectId, ids, reply).result;
    if added.Err? then ProjectAdds(ids, [])
    else
      var items := ProjectItems(results, tickets, info, added.value);
      forall x | reply.Ok? && x in items
        ensures exists i :: 0 <= i < |info| && Projects.AddItem(reply.value, i) == Ok(x.0) && x.1 == info[i].1
      {
        var i :| 0 <= i < |added.value| && added.value[i] == Ok(x.0) && x.1 == info[i].1;
        Projects.AddBatchItem(projectId, ids, reply, i);
      }
      forall i | reply.Ok? && 0 <= i < |info| ensures ItemKept(items, info[i].1, Projects.AddItem(reply.value, i)) {
        Projects.AddBatchItem(projectId, ids, reply, i);
        assert ItemKept(items, info[i].1, added.value[i]);
      }
      ProjectAdds(ids, items)
  }

  /** The `(item id, ticket status)` pairs of the items added with an item
      id, each with the status of the issue sent at its position. */
  function ProjectItems(results: seq<(nat, SyncResult)>, tickets: seq<Tickets.Ticket>, info: seq<(string, string)>,
                        added: seq<Result<string>>)
    : (items: seq<(string, string)>)
    requires forall j :: 0 <= j < |results| ==> results[j].0 < |tickets|
    requires info == CreatedIssues(results, tickets) && |added| == |info|
    ensures forall x :: x in items ==> x.0 != ""
    ensures forall x :: x in items ==>
      exists j :: 0 <= j < |results| && results[j].1.Created? && x.1 == tickets[results[j].0].status
    ensures forall i {:trigger ItemKept(items, info[i].1, added[i])} :: 0 <= i < |added| ==>
      ItemKept(items, info[i].1, added[i])
    ensures forall x :: x in items ==> exists i :: 0 <= i < |added| && added[i] == Ok(x.0) && x.1 == info[i].1
  {
    var items := FilterMap(Ordering.Zip(info, added), AddedItem);
    ItemsFromCreated(results, tickets, info, added, items);
    items
  }

  lemma IssueIdsFromCreated(results: seq<(nat, SyncResult)>, tickets: seq<Tickets.Ticket>, info: seq<(string, string)>,
                            ids: seq<string>)
    requires forall j :: 0 <= j < |results| ==> results[j].0 < |tickets|
    requires info == CreatedIssues(results, tickets) && ids == Ordering.Firsts(info)
    ensures forall x :: x in ids ==> exists j :: 0 <= j < |results| && results[j].1.Created? && x == results[j].1.issueId
    ensures forall j :: 0 <= j < |results| && results[j].1.Created? ==> results[j].1.issueId in ids
  {
    forall x | x in ids ensures exists j :: 0 <= j < |results| && results[j].1.Created? && x == results[j].1.issueId {
      var i :| 0 <= i < |ids| && ids[i] == x;
      assert info[i] in info;
    }
    forall j | 0 <= j < |results| && results[j].1.Created? ensures results[j].1.issueId in ids {
      var x := (results[j].1.issueId, tickets[results[j].0].status);
      assert x in info;
      var i :| 0 <= i < |info| && info[i] == x;
      assert ids[i] == x.0;
    }
  }

  lemma ItemsFromCreated(results: seq<(nat, SyncResult)>, tickets: seq<Tickets.Ticket>, info: seq<(string, string)>,
                         added: seq<Result<string>>, items: seq<(string, string)>)
    requires forall j :: 0 <= j < |results| ==> results[j].0 < |tickets|
    requires info == CreatedIssues(results, tickets) && |added| == |info|
    requires items == FilterMap(Ordering.Zip(info, added), AddedItem)
    ensures forall x :: x in items ==> x.0 != ""
    ensures forall x :: x in items ==>
      exists j :: 0 <= j < |results| && results[j].1.Created? && x.1 == tickets[results[j].0].status
    ensures forall i :: 0 <= i < |added| && added[i].Ok? && added[i].value != "" ==>
      exists x :: x in items && x.0 == added[i].value
    ensures forall i {:trigger ItemKept(items, info[i].1, added[i])} :: 0 <= i < |added| ==>
      ItemKept(items, info[i].1, added[i])
    ensures forall x :: x in items ==> exists i :: 0 <= i < |added| && added[i] == Ok(x.0) && x.1 == info[i].1
  {
    var z := Ordering.Zip(info, added);
    assert forall i :: 0 <= i < |z| ==> z[i] == (info[i], added[i]);
    forall x | x in items
      ensures x.0 != ""
      ensures exists j :: 0 <= j < |results| && results[j].1.Created? && x.1 == tickets[results[j].0].status
      ensures exists i :: 0 <= i < |added| && added[i] == Ok(x.0) && x.1 == info[i].1
    {
      var i :| 0 <= i < |z| && AddedItem(z[i]) == Some(x);
      assert info[i] in info;
    }
    forall i | 0 <= i < |added| ensures ItemKept(items, info[i].1, added[i]) {
      if added[i].Ok? && added[i].value != "" {
        assert AddedItem(z[i]) == Some((added[i].value, info[i].1));
      }
    }
  }

  /** `(item id, option id)` of an added item whose lowercased status has
      a configured option. */
  function StatusValue(item: (string, string), statusToOption: map<string, string>): (r: Option<(string, string)>)
    ensures r.Some? <==> Lower(item.1) in statusToOption
    ensures r.Some? ==> r.value == (item.0, statusToOption[Lower(item.1)])
  {
    if Lower(item.1) in statusToOption then Some((item.0, statusToOption[Lower(item.1)])) else None
  }

  /** What `set_project_field_values` sends: the Status pairs (when a
      Status field is set up) and the items given the iteration (when an
      Iteration field is set up; every added item gets the same one). */
  datatype FieldValues = FieldValues(status: seq<(string, string)>, iterationItems: seq<string>)

  function SetProjectFieldValues(fieldsCache: Option<ProjectFields.FieldsCache>, items: seq<(string, string)>)
    : (r: FieldValues)
    ensures |items| == 0 || fieldsCache.None? ==> r == FieldValues([], [])
    ensures fieldsCache.Some? && fieldsCache.value.status.None? ==> r.status == []
    ensures fieldsCache.Some? && fieldsCache.value.status.Some? ==>
      var options := fieldsCache.value.status.value.statusToOption;
      && (forall i :: 0 <= i < |items| && Lower(items[i].1) in options ==> (items[i].0, options[Lower(items[i].1)]) in r.status)
      && (forall x :: x in r.status ==>
            exists i :: 0 <= i < |items| && Lower(items[i].1) in options && x == (items[i].0, options[Lower(items[i].1)]))
    ensures fieldsCache.Some? && fieldsCache.value.iteration.Some? ==> r.iterationItems == Ordering.Firsts(items)
    ensures fieldsCache.Some? && fieldsCache.value.iteration.None? ==> r.iterationItems == []
  {
    if |items| == 0 || fieldsCache.None? then FieldValues([], [])
    else
      var c := fieldsCache.value;
      var status := if c.status.Some? then FilterMap(items, x => StatusValue(x, c.status.value.statusToOption)) else [];
      FieldValues(status, if c.iteration.Some? then Ordering.Firsts(items) else [])
  }

  // ---------------------------------------------------------------------
  // Phase 6: project Status of synced tickets

  /** `(issue node id, option id)` of a ticket whose issue was fetched and
      whose lowercased status has an option. */
  function StatusTarget(t: Tickets.Ticket, existing: map<nat, Issues.ExistingIssue>, statusToOption: map<string, string>)
    : (r: Option<(string, string)>)
    ensures r.Some? <==> KnownIssue(t, existing) && Lower(t.status) in statusToOption
    ensures r.Some? ==> r.value == (ExistingNodeId(t, existing), statusToOption[Lower(t.status)])
  {
    if KnownIssue(t, existing) && Lower(t.status) in statusToOption then
      Some((ExistingNodeId(t, existing), statusToOption[Lower(t.status)]))
    else None
  }

  /** `(item id, option id)` of a target whose issue is in the project. */
  function InProject(target: (string, string), itemIds: map<string, string>): (r: Option<(string, string)>)
    ensures r.Some? <==> target.0 in itemIds
    ensures r.Some? ==> r.value == (itemIds[target.0], target.1)
  {
    if target.0 in itemIds then Some((itemIds[target.0], target.1)) else None
  }

  /** What `sync_project_status` sends: the issue ids whose project items
      are looked up, and the Status pairs then set. */
  datatype StatusSync = StatusSync(lookedUp: seq<string>, updates: seq<(string, string)>)

  function SyncProjectStatus(project: Option<Projects.ProjectInfo>, fieldsCache: Option<ProjectFields.FieldsCache>,
                             tickets: seq<Tickets.Ticket>, existing: map<nat, Issues.ExistingIssue>,
                             itemIdsReply: Result<map<string, string>>)
    : (r: StatusSync)
    ensures project.None? || fieldsCache.None? || fieldsCache.value.status.None? ==> r == StatusSync([], [])
    ensures itemIdsReply.Err? ==> r.updates == []
    ensures forall x :: x in r.lookedUp ==>
      exists i :: 0 <= i < |tickets| && KnownIssue(tickets[i], existing) && x == ExistingNodeId(tickets[i], existing)
    ensures project.Some? && fieldsCache.Some? && fieldsCache.value.status.Some? ==>
      var options := fieldsCache.value.status.value.statusToOption;
      forall i :: 0 <= i < |tickets| && KnownIssue(tickets[i], existing) && Lower(tickets[i].status) in options ==>
        ExistingNodeId(tickets[i], existing) in r.lookedUp
    ensures itemIdsReply.Ok? && fieldsCache.Some? && fieldsCache.value.status.Some? ==>
      var options := fieldsCache.value.status.value.statusToOption;
      forall x :: x in r.updates ==>
        exists i :: 0 <= i < |tickets| && KnownIssue(tickets[i], existing) && Lower(tickets[i].status) in options
                    && ExistingNodeId(tickets[i], existing) in itemIdsReply.value
                    && x == (itemIdsReply.value[ExistingNodeId(tickets[i], existing)], options[Lower(tickets[i].status)])
    ensures project.Some? && itemIdsReply.Ok? && fieldsCache.Some? && fieldsCache.value.status.Some? ==>
      var options := fieldsCache.value.status.value.statusToOption;
      forall i :: 0 <= i < |tickets| && KnownIssue(tickets[i], existing) && Lower(tickets[i].status) in options
                  && ExistingNodeId(tickets[i], existing) in itemIdsReply.value ==>
        (itemIdsReply.value[ExistingNodeId(tickets[i], existing)], options[Lower(tickets[i].status)]) in r.updates
  {
    if project.None? || fieldsCache.None? || fieldsCache.value.status.None? then StatusSync([], [])
    else
      var options := fieldsCache.value.status.value.statusToOption;
      var targets := FilterMap(tickets, t => StatusTarget(t, existing, options));
      var ids := Ordering.Firsts(targets);
      TargetIds(tickets, existing, options, targets, ids);
      if |targets| == 0 then StatusSync([], [])
      else if itemIdsReply.Err? then StatusSync(ids, [])
      else
        var updates := FilterMap(targets, x => InProject(x, itemIdsReply.value));
        TargetUpdates(tickets, existing, options, targets, itemIdsReply.value, updates);
        StatusSync(ids, updates)
  }

  lemma TargetIds(tickets: seq<Tickets.Ticket>, existing: map<nat, Issues.ExistingIssue>, options: map<string, string>,
                  targets: seq<(string, string)>, ids: seq<string>)
    requires targets == FilterMap(tickets, t => StatusTarget(t, existing, options)) && ids == Ordering.Firsts(targets)
    ensures forall x :: x in ids ==>
      exists i :: 0 <= i < |tickets| && KnownIssue(tickets[i], existing) && x == ExistingNodeId(tickets[i], existing)
    ensures forall i :: 0 <= i < |tickets| && KnownIssue(tickets[i], existing) && Lower(tickets[i].status) in options ==>
      ExistingNodeId(tickets[i], existing) in ids
  {
    forall x | x in ids
      ensures exists i :: 0 <= i < |tickets| && KnownIssue(tickets[i], existing) && x == ExistingNodeId(tickets[i], existing)
    {
      var k :| 0 <= k < |ids| && ids[k] == x;
      assert targets[k] in targets;
    }
    forall i | 0 <= i < |tickets| && KnownIssue(tickets[i], existing) && Lower(tickets[i].status) in options
      ensures ExistingNodeId(tickets[i], existing) in ids
    {
      var y := StatusTarget(tickets[i], existing, options).value;
      assert y in targets;
      var k :| 0 <= k < |targets| && targets[k] == y;
      assert ids[k] == y.0;
    }
  }

  lemma TargetUpdates(tickets: seq<Tickets.Ticket>, existing: map<nat, Issues.ExistingIssue>,
                      options: map<string, string>, targets: seq<(string, string)>, itemIds: map<string, string>,
                      updates: seq<(string, string)>)
    requires targets == FilterMap(tickets, t => StatusTarget(t, existing, options))
    requires updates == FilterMap(targets, x => InProject(x, itemIds))
    ensures forall x :: x in updates ==>
      exists i :: 0 <= i < |tickets| && KnownIssue(tickets[i], existing) && Lower(tickets[i].status) in options
                  && ExistingNodeId(tickets[i], existing) in itemIds
                  && x == (itemIds[ExistingNodeId(tickets[i], existing)], options[Lower(tickets[i].status)])
    ensures forall i :: 0 <= i < |tickets| && KnownIssue(tickets[i], existing) && Lower(tickets[i].status) in options
                        && ExistingNodeId(tickets[i], existing) in itemIds ==>
      (itemIds[ExistingNodeId(tickets[i], existing)], options[Lower(tickets[i].status)]) in updates
  {
    forall i | 0 <= i < |tickets| && KnownIssue(tickets[i], existing) && Lower(tickets[i].status) in options
               && ExistingNodeId(tickets[i], existing) in itemIds
      ensures (itemIds[ExistingNodeId(tickets[i], existing)], options[Lower(tickets[i].status)]) in updates
    {
      var y := StatusTarget(tickets[i], existing, options).value;
      assert y in targets;
      assert InProject(y, itemIds).Some?;
    }
    forall x | x in updates
      ensures exists i :: 0 <= i < |tickets| && KnownIssue(tickets[i], existing) && Lower(tickets[i].status) in options
                          && ExistingNodeId(tickets[i], existing) in itemIds
                          && x == (itemIds[ExistingNodeId(tickets[i], existing)], options[Lower(tickets[i].status)])
    {
      var k :| 0 <= k < |targets| && InProject(targets[k], itemIds) == Some(x);
      assert targets[k] in targets;
      var i :| 0 <= i < |tickets| && StatusTarget(tickets[i], existing, options) == Some(targets[k]);
    }
  }

  // ---------------------------------------------------------------------
  // A whole push

  /** The replies only the advisory phases consult. */
  datatype AdvisoryReplies = AdvisoryReplies(add: Result<Json.Response>, itemIds: Result<map<string, string>>)

  /** Everything the advisory phases send. */
  datatype Advice = Advice(links: seq<SubIssues.SubIssueLink>, project: ProjectAdds, fields: FieldValues,
                           status: StatusSync)

  /** The engine's project settings, fixed when it was set up. */
  datatype ProjectSetup = ProjectSetup(project: Option<Projects.ProjectInfo>,
                                       fieldsCache: Option<ProjectFields.FieldsCache>)

  /** The advisory phases on a finished run: `written` are the tickets as
      rewritten by the create phase, `results` the run's sorted results. */
  function Advise(setup: ProjectSetup, tickets: seq<Tickets.Ticket>, all: seq<Tickets.Ticket>,
                  written: seq<Tickets.Ticket>, results: seq<(nat, SyncResult)>,
                  existing: map<nat, Issues.ExistingIssue>, advisory: AdvisoryReplies)
    : (a: Advice)
    requires |results| == |tickets| && |written| == |tickets|
    requires forall i :: 0 <= i < |tickets| ==> results[i].0 == i
    requires forall i :: 0 <= i < |tickets| ==>
      && (results[i].1.Created? ==> !Tickets.IsSynced(tickets[i]))
      && written[i] == (if results[i].1.Created?
                        then tickets[i].(externalRef := Some(Engine.IssueRef(results[i].1.issueNumber)))
                        else tickets[i])
    ensures var m := NodeIds(all, existing, results, written);
            forall l :: l in a.links ==>
              exists i :: 0 <= i < |tickets| && tickets[i].parent.Some? && LinkOf(tickets[i], m) == Some(l)
    ensures var m := NodeIds(all, existing, results, written);
            forall i :: 0 <= i < |tickets| && LinkOf(tickets[i], m).Some? ==> LinkOf(tickets[i], m).value in a.links
    ensures forall x :: x in a.project.issueIds ==>
      exists i :: 0 <= i < |tickets| && results[i].1.Created? && x == results[i].1.issueId
                  && !Tickets.IsSynced(tickets[i])
    ensures setup.project.None? ==> a.project == ProjectAdds([], []) && a.fields == FieldValues([], [])
                                    && a.status == StatusSync([], [])
  {
    var links := LinkSubIssues(written, all, results, existing);
    var adds := AddToProject(setup.project, results, written, advisory.add);
    var fields := if setup.project.Some? then SetProjectFieldValues(setup.fieldsCache, adds.items)
                  else FieldValues([], []);
    var status := SyncProjectStatus(setup.project, setup.fieldsCache, written, existing, advisory.itemIds);
    assert forall i :: 0 <= i < |tickets| ==> written[i].parent == tickets[i].parent && written[i].id == tickets[i].id;
    LinksHaveParents(tickets, all, written, results, existing);
    AddedWereUnsynced(tickets, written, results, setup.project, advisory.add);
    Advice(links, adds, fields, status)
  }

  /** `sync` followed by its advisory phases. */
  function Push(engine: Engine.EngineState, setup: ProjectSetup, tickets: seq<Tickets.Ticket>,
                all: seq<Tickets.Ticket>, replies: Engine.Replies, advisory: AdvisoryReplies)
    : (r: (Engine.SyncRun, Advice))
    ensures Total(r.0.summary) == |tickets| && |r.0.results| == |tickets|
    ensures forall x :: x in r.1.project.issueIds ==>
      exists i :: 0 <= i < |tickets| && r.0.results[i].1.Created? && x == r.0.results[i].1.issueId
                  && !Tickets.IsSynced(tickets[i])
  {
    var run := Engine.Sync(engine, tickets, all, replies);
    Engine.SyncEntries(engine, tickets, all, replies);
    Engine.SyncOnlyRecordsRefs(engine, tickets, all, replies);
    (run, Advise(setup, tickets, all, run.tickets, run.results, run.existing, advisory))
  }

  /** Every link sent is the link of one ticket with a parent (its
      parent's issue over its own), and every ticket whose two issues are
      known has its link sent. Recording a reference changes neither the
      ticket's id nor its parent. */
  lemma LinksHaveParents(tickets: seq<Tickets.Ticket>, all: seq<Tickets.Ticket>, written: seq<Tickets.Ticket>,
                         results: seq<(nat, SyncResult)>, existing: map<nat, Issues.ExistingIssue>)
    requires |results| == |tickets| && |written| == |tickets|
    requires forall i :: 0 <= i < |tickets| ==>
      results[i].0 < |tickets| && written[i].parent == tickets[i].parent && written[i].id == tickets[i].id
    ensures var m := NodeIds(all, existing, results, written);
            forall l :: l in LinkSubIssues(written, all, results, existing) ==>
              exists i :: 0 <= i < |tickets| && tickets[i].parent.Some? && LinkOf(tickets[i], m) == Some(l)
    ensures var m := NodeIds(all, existing, results, written);
            forall i :: 0 <= i < |tickets| && LinkOf(tickets[i], m).Some? ==>
              LinkOf(tickets[i], m).value in LinkSubIssues(written, all, results, existing)
  {
    var links := LinkSubIssues(written, all, results, existing);
    var m := NodeIds(all, existing, results, written);
    forall l | l in links ensures exists i :: 0 <= i < |tickets| && tickets[i].parent.Some? && LinkOf(tickets[i], m) == Some(l) {
      var i :| 0 <= i < |written| && Linkable(written[i], m)
               && l == SubIssues.SubIssueLink(m[written[i].parent.value], m[written[i].id]);
      assert LinkOf(tickets[i], m) == Some(l);
    }
  }

  /** Only issues this run created, hence only tickets that had no issue,
      are added to the project. */
  lemma AddedWereUnsynced(tickets: seq<Tickets.Ticket>, written: seq<Tickets.Ticket>, results: seq<(nat, SyncResult)>,
                          project: Option<Projects.ProjectInfo>, addReply: Result<Json.Response>)
    requires |results| == |tickets| && |written| == |tickets|
    requires forall i :: 0 <= i < |tickets| ==> results[i].0 < |tickets|
    requires forall i :: 0 <= i < |tickets| ==> results[i].1.Created? ==> !Tickets.IsSynced(tickets[i])
    ensures forall x :: x in AddToProject(project, results, written, addReply).issueIds ==>
      exists i :: 0 <= i < |tickets| && results[i].1.Created? && x == results[i].1.issueId
                  && !Tickets.IsSynced(tickets[i])
  {
  }

  /** The advisory phases never change the counted results: two pushes
      that differ only in the advisory replies and project settings report
      the same summary and results. */
  lemma AdvisoryLeavesSummary(engine: Engine.EngineState, s1: ProjectSetup, s2: ProjectSetup,
                              tickets: seq<Tickets.Ticket>, all: seq<Tickets.Ticket>, replies: Engine.Replies,
                              a1: AdvisoryReplies, a2: AdvisoryReplies)
    ensures Push(engine, s1, tickets, all, replies, a1).0 == Push(engine, s2, tickets, all, replies, a2).0
  {
  }
}

=== FILE: batch.dfy ===
/** The shared shape of the batched GraphQL mutations: N aliased copies of
    one operation, `<prefix>_<i>: <field>(input: $input_<i>) { ... }`, each
    bound to its own variable `input_<i>`, sent as one request. The
    document text itself is not modelled; its aliases and variables are. */
module Batch {
  import opened Wrappers
  import opened Numerals
  import Json

  /** The alias of item `i`: `create_0`, `update_3`, `link_1`, ... */
  function Alias(prefix: string, i: nat): string {
    prefix + "_" + NatToString(i)
  }

  /** The variable bound to item `i`: `input_<i>`. */
  function VarName(i: nat): string {
    Alias("input", i)
  }

  /** Two items of one batch never share an alias. */
  lemma AliasInjective(prefix: string, i: nat, j: nat)
    requires Alias(prefix, i) == Alias(prefix, j)
    ensures i == j
  {
    var a := Alias(prefix, i);
    assert NatToString(i) == a[|prefix| + 1..] == NatToString(j);
    NatToStringInjective(i, j);
  }

  /** One batched request: the mutation field used for every item, the
      alias of each item in input order, and the variables object. */
  datatype Request = Request(field: string, aliases: seq<string>, variables: map<string, Json.Value>)

  /** The request a batched call sends (`None` when it sends nothing) and
      what the call returns. */
  datatype Call<T> = Call(request: Option<Request>, result: Result<T>)

  /** The aliases of an `n`-item batch. */
  function Aliases(prefix: string, n: nat): (r: seq<string>)
    ensures |r| == n
    ensures forall i :: 0 <= i < n ==> r[i] == Alias(prefix, i)
  {
    seq(n, i requires 0 <= i < n => Alias(prefix, i))
  }

  /** The variables object of a batch: `input_<i>` -> the i-th input. */
  function Variables(inputs: seq<Json.Value>): (v: map<string, Json.Value>)
    ensures forall i :: 0 <= i < |inputs| ==> VarName(i) in v && v[VarName(i)] == inputs[i]
    ensures forall k :: k in v ==> exists i :: 0 <= i < |inputs| && k == VarName(i)
  {
    forall i, j | 0 <= i < |inputs| && 0 <= j < |inputs| && VarName(i) == VarName(j)
      ensures i == j
    {
      AliasInjective("input", i, j);
    }
    map i | 0 <= i < |inputs| :: VarName(i) := inputs[i]
  }

  /** The request for a batch, or `None` when there is nothing to send:
      every batched operation returns an empty success for empty input
      without contacting the server. */
  function Plan(prefix: string, field: string, inputs: seq<Json.Value>): (r: Option<Request>)
    ensures r.None? <==> |inputs| == 0
    ensures r.Some? ==> r.value.field == field && r.value.aliases == Aliases(prefix, |inputs|)
    ensures r.Some? ==> r.value.variables == Variables(inputs)
  {
    if |inputs| == 0 then None else Some(Request(field, Aliases(prefix, |inputs|), Variables(inputs)))
  }

  /** Within one request the aliases are pairwise distinct, so each item's
      sub-result can be read back unambiguously. */
  lemma PlanAliasesDistinct(prefix: string, field: string, inputs: seq<Json.Value>)
    requires |inputs| > 0
    ensures var r := Plan(prefix, field, inputs).value;
            forall i, j :: 0 <= i < j < |r.aliases| ==> r.aliases[i] != r.aliases[j]
  {
    var r := Plan(prefix, field, inputs).value;
    forall i, j | 0 <= i < j < |r.aliases| ensures r.aliases[i] != r.aliases[j] {
      if r.aliases[i] == r.aliases[j] {
        AliasInjective(prefix, i, j);
      }
    }
  }
}

=== FILE: codec.dfy ===
/** The issue body a ticket is rendered to (src/sync.rs): a leading
    `<!-- ticket:ID -->` marker, the ticket body, an optional
    `**Depends on:**` section and a footer, and the extraction of the
    marker from an issue body. The marker is how a later sync recognises
    its own issues. */
module Codec {
  import opened Wrappers
  import opened Strings
  import opened Numerals

  const MARKER_OPEN: string := "<!-- ticket:"
  const MARKER_CLOSE: string := " -->"
  const RULE: string := "\n\n---\n"

  /** The marker identifying the ticket an issue was synced from. */
  function Marker(id: string): string {
    MARKER_OPEN + id + MARKER_CLOSE
  }

  /** The footer closing every synced issue body. */
  function Footer(id: string): string {
    RULE + "<sub>Synced from ticket `" + id + "`</sub>"
  }

  /** How one dependency is referenced: `#n` when the ticket has an issue,
      otherwise its id in backquotes marked as not synced. */
  function DepRef(dep: string, ticketToIssue: map<string, nat>): string {
    if dep in ticketToIssue then "#" + NatToString(ticketToIssue[dep]) else "`" + dep + "` (not synced)"
  }

  const SECTION_HEAD: string := "**Depends on:** "

  /** The references of a dependency list, in dependency order. */
  function Refs(deps: seq<string>, ticketToIssue: map<string, nat>): (refs: seq<string>)
    ensures |refs| == |deps| && forall i :: 0 <= i < |deps| ==> refs[i] == DepRef(deps[i], ticketToIssue)
  {
    seq(|deps|, i requires 0 <= i < |deps| => DepRef(deps[i], ticketToIssue))
  }

  /** Where the reference of dependency `i` starts in the section. */
  function RefOffset(deps: seq<string>, ticketToIssue: map<string, nat>, i: nat): nat
    requires i < |deps|
  {
    |SECTION_HEAD| + JoinOffset(Refs(deps, ticketToIssue), ", ", i)
  }

  /** `format_dependencies_section`: `**Depends on:** ` and the
      references of the dependencies joined with `, ` (their layout is
      `SectionLayout`). */
  function FormatDependenciesSection(deps: seq<string>, ticketToIssue: map<string, nat>): (r: string)
    ensures StartsWith(r, SECTION_HEAD)
    ensures |deps| == 0 ==> r == SECTION_HEAD
  {
    SECTION_HEAD + Join(Refs(deps, ticketToIssue), ", ")
  }

  /** The layout of the section: the reference of dependency `i` sits at
      its offset, the first right after the heading; every reference but
      the last is followed by `, ` and then the next one; the last ends the
      section. */
  lemma SectionLayout(deps: seq<string>, ticketToIssue: map<string, nat>, i: nat)
    requires i < |deps|
    ensures var r := FormatDependenciesSection(deps, ticketToIssue);
            var start := RefOffset(deps, ticketToIssue, i);
            var end := start + |DepRef(deps[i], ticketToIssue)|;
            && (i == 0 ==> start == |SECTION_HEAD|)
            && OccursAt(r, DepRef(deps[i], ticketToIssue), start)
            && (i + 1 < |deps| ==> OccursAt(r, ", ", end) && RefOffset(deps, ticketToIssue, i + 1) == end + 2)
            && (i + 1 == |deps| ==> |r| == end)
  {
    SectionRefAt(deps, ticketToIssue, i);
    if i + 1 < |deps| {
      SectionSepAt(deps, ticketToIssue, i);
      NextRefOffset(deps, ticketToIssue, i);
    } else {
      SectionEnd(deps, ticketToIssue);
    }
  }

  /** The reference of dependency `i` at its offset. */
  lemma SectionRefAt(deps: seq<string>, ticketToIssue: map<string, nat>, i: nat)
    requires i < |deps|
    ensures i == 0 ==> RefOffset(deps, ticketToIssue, i) == |SECTION_HEAD|
    ensures OccursAt(FormatDependenciesSection(deps, ticketToIssue), DepRef(deps[i], ticketToIssue),
                     RefOffset(deps, ticketToIssue, i))
  {
    JoinLayoutAfter(SECTION_HEAD, Refs(deps, ticketToIssue), ", ", i);
  }

  /** The `, ` after a reference that is not the last. */
  lemma SectionSepAt(deps: seq<string>, ticketToIssue: map<string, nat>, i: nat)
    requires i + 1 < |deps|
    ensures OccursAt(FormatDependenciesSection(deps, ticketToIssue), ", ",
                     RefOffset(deps, ticketToIssue, i) + |DepRef(deps[i], ticketToIssue)|)
  {
    var refs := Refs(deps, ticketToIssue);
    JoinSepAfter(SECTION_HEAD, refs, ", ", i);
    assert refs[i] == DepRef(deps[i], ticketToIssue);
  }

  /** The next reference starts right after that `, `. */
  lemma NextRefOffset(deps: seq<string>, ticketToIssue: map<string, nat>, i: nat)
    requires i + 1 < |deps|
    ensures RefOffset(deps, ticketToIssue, i + 1)
            == RefOffset(deps, ticketToIssue, i) + |DepRef(deps[i], ticketToIssue)| + 2
  {
    JoinOffsetStep(Refs(deps, ticketToIssue), ", ", i);
  }

  /** The last reference ends the section. */
  lemma SectionEnd(deps: seq<string>, ticketToIssue: map<string, nat>)
    requires |deps| > 0
    ensures |FormatDependenciesSection(deps, ticketToIssue)|
            == RefOffset(deps, ticketToIssue, |deps| - 1) + |DepRef(deps[|deps| - 1], ticketToIssue)|
  {
    JoinLayoutAfter(SECTION_HEAD, Refs(deps, ticketToIssue), ", ", |deps| - 1);
  }

  /** Every dependency is mentioned: by issue number when it has an
      issue, otherwise by its id marked as not synced. */
  lemma DependencyMentioned(deps: seq<string>, ticketToIssue: map<string, nat>, i: nat)
    requires i < |deps|
    ensures deps[i] in ticketToIssue ==>
      Contains(FormatDependenciesSection(deps, ticketToIssue), "#" + NatToString(ticketToIssue[deps[i]]))
    ensures deps[i] !in ticketToIssue ==>
      Contains(FormatDependenciesSection(deps, ticketToIssue), "`" + deps[i] + "` (not synced)")
  {
    var r := FormatDependenciesSection(deps, ticketToIssue);
    var k := RefOffset(deps, ticketToIssue, i);
    SectionLayout(deps, ticketToIssue, i);
    assert k <= |r| - |DepRef(deps[i], ticketToIssue)|;
  }

  /** The references appear in dependency order: a later dependency's
      reference starts after an earlier one's and its `, ` end. */
  lemma RefsInOrder(deps: seq<string>, ticketToIssue: map<string, nat>, i: nat, j: nat)
    requires i < j < |deps|
    ensures RefOffset(deps, ticketToIssue, i) + |DepRef(deps[i], ticketToIssue)| + 2 <= RefOffset(deps, ticketToIssue, j)
  {
    JoinOffsetOrdered(Refs(deps, ticketToIssue), ", ", i, j);
  }

  /** `format_issue_body_with_deps`: marker, a blank line, the body, the
      dependency section after a rule when there are dependencies, and the
      footer. */
  function FormatIssueBodyWithDeps(id: string, body: string, deps: seq<string>, ticketToIssue: map<string, nat>)
    : (r: string)
    ensures StartsWith(r, Marker(id) + "\n\n")
    ensures |r| >= |Footer(id)| && r[|r| - |Footer(id)|..] == Footer(id)
    ensures |deps| == 0 ==> r == Marker(id) + "\n\n" + body + Footer(id)
    ensures |deps| > 0 ==>
      r == Marker(id) + "\n\n" + body + RULE + FormatDependenciesSection(deps, ticketToIssue) + Footer(id)
  {
    var head := Marker(id) + "\n\n" + body;
    var withDeps := if |deps| == 0 then head else head + RULE + FormatDependenciesSection(deps, ticketToIssue);
    withDeps + Footer(id)
  }

  /** `format_issue_body`: the same without dependencies. */
  function FormatIssueBody(id: string, body: string): (r: string)
    ensures r == Marker(id) + "\n\n" + body + Footer(id)
  {
    FormatIssueBodyWithDeps(id, body, [], map[])
  }

  /** `extract_ticket_marker`: the text between the first `<!-- ticket:`
      and the first ` -->` after it. */
  function ExtractTicketMarker(body: string): (r: Option<string>)
    ensures !Contains(body, MARKER_OPEN) ==> r.None?
    ensures Contains(body, MARKER_OPEN) ==>
      (r.Some? <==> Contains(body[Find(body, MARKER_OPEN).value + |MARKER_OPEN|..], MARKER_CLOSE))
    ensures r.Some? ==>
      var start := Find(body, MARKER_OPEN).value;
      OccursAt(body, MARKER_OPEN + r.value + MARKER_CLOSE, start)
      && !Contains(r.value, MARKER_CLOSE)
  {
    var start := Find(body, MARKER_OPEN);
    if start.None? then None
    else
      var after := body[start.value + 12..];
      var end := Find(after, MARKER_CLOSE);
      if end.None? then None
      else
        var id := after[..end.value];
        NoCloseBefore(after, end.value);
        MarkerAt(body, start.value, id);
        Some(id)
  }

  lemma SliceOfSuffix(s: string, a: nat, b: nat, c: nat)
    requires a <= |s| && b <= c <= |s| - a
    ensures s[a..][b..c] == s[a + b..a + c]
  {
  }

  /** Text that ends before the first ` -->` contains none. */
  lemma NoCloseBefore(after: string, n: nat)
    requires n + 4 <= |after| && forall j :: 0 <= j < n ==> !OccursAt(after, MARKER_CLOSE, j)
    ensures !Contains(after[..n], MARKER_CLOSE)
  {
    var id := after[..n];
    forall j | 0 <= j <= |id| - 4 ensures !OccursAt(id, MARKER_CLOSE, j) {
      assert !OccursAt(after, MARKER_CLOSE, j);
      assert id[j..j + 4] == after[j..j + 4];
    }
  }

  /** An opening marker at `a` followed by `id` and a closing marker is
      the whole marker of `id` at `a`. */
  lemma MarkerAt(body: string, a: nat, id: string)
    requires OccursAt(body, MARKER_OPEN, a)
    requires OccursAt(body[a + 12..], MARKER_CLOSE, |id|) && body[a + 12..][..|id|] == id
    ensures OccursAt(body, MARKER_OPEN + id + MARKER_CLOSE, a)
  {
    var n := |id|;
    SliceOfSuffix(body, a + 12, 0, n);
    SliceOfSuffix(body, a + 12, n, n + 4);
    assert body[a..a + 16 + n] == body[a..a + 12] + body[a + 12..a + 12 + n] + body[a + 12 + n..a + 16 + n];
  }

  /** In `id + " -->" + rest`, the first ` -->` follows `id` when `id` has
      none: the closing pattern cannot straddle the end of `id`, since no
      proper suffix of it is a prefix of it. */
  lemma FirstCloseAfterId(id: string, rest: string)
    requires !Contains(id, MARKER_CLOSE)
    ensures Find(id + MARKER_CLOSE + rest, MARKER_CLOSE) == Some(|id|)
  {
    var s := id + MARKER_CLOSE + rest;
    assert OccursAt(s, MARKER_CLOSE, |id|);
    forall j | 0 <= j < |id| ensures !OccursAt(s, MARKER_CLOSE, j) {
      if j + 4 <= |id| {
        assert s[j..j + 4] == id[j..j + 4];
        assert !OccursAt(id, MARKER_CLOSE, j);
      } else {
        var k := |id| - j;
        assert s[j..j + 4][k] == s[|id|] == ' ' != MARKER_CLOSE[k];
      }
    }
  }

  /** A body that opens with the marker of an id free of ` -->` yields
      that id. */
  lemma ExtractLeadingMarker(s: string, id: string)
    requires StartsWith(s, Marker(id)) && !Contains(id, MARKER_CLOSE)
    ensures ExtractTicketMarker(s) == Some(id)
  {
    var m := Marker(id);
    var rest := s[|m|..];
    assert s == m + rest;
    assert s[..12] == MARKER_OPEN;
    FindPrefix(s, MARKER_OPEN);
    var after := s[12..];
    assert after == id + MARKER_CLOSE + rest;
    FirstCloseAfterId(id, rest);
    assert after[..|id|] == id;
  }

  /** The marker written into a body is read back, provided the ticket id
      does not itself contain ` -->`. */
  lemma MarkerRoundTrip(id: string, body: string, deps: seq<string>, ticketToIssue: map<string, nat>)
    requires !Contains(id, MARKER_CLOSE)
    ensures ExtractTicketMarker(FormatIssueBodyWithDeps(id, body, deps, ticketToIssue)) == Some(id)
  {
    var r := FormatIssueBodyWithDeps(id, body, deps, ticketToIssue);
    assert StartsWith(r, Marker(id) + "\n\n");
    assert (Marker(id) + "\n\n")[..|Marker(id)|] == Marker(id);
    ExtractLeadingMarker(r, id);
  }

  /** A rendered body carries its ticket's marker, so a sync never takes
      an issue it rendered itself for one modified elsewhere. */
  lemma FormattedBodyHasMarker(id: string, body: string, deps: seq<string>, ticketToIssue: map<string, nat>)
    ensures Contains(FormatIssueBodyWithDeps(id, body, deps, ticketToIssue), Marker(id))
  {
    assert OccursAt(FormatIssueBodyWithDeps(id, body, deps, ticketToIssue), Marker(id), 0);
  }

  /** Text without a `<` has no marker. */
  lemma NoMarkerWithoutAngle(s: string)
    requires forall i :: 0 <= i < |s| ==> s[i] != '<'
    ensures ExtractTicketMarker(s) == None
  {
    forall i | 0 <= i <= |s| - 12 ensures !OccursAt(s, MARKER_OPEN, i) {
      assert s[i..i + 12][0] == s[i] != '<';
    }
  }

  /** The marker-less body of the extraction tests. */
  lemma NoMarkerExample()
    ensures ExtractTicketMarker("Some content without marker") == None
  {
    NoMarkerWithoutAngle("Some content without marker");
  }

  /** The three references of the formatting tests' dependency list. */
  lemma DepRefExamples(lookup: map<string, nat>)
    requires lookup == map["dep-1" := 10, "dep-2" := 20]
    ensures DepRef("dep-1", lookup) == "#10"
    ensures DepRef("dep-2", lookup) == "#20"
    ensures DepRef("dep-3", lookup) == "`dep-3` (not synced)"
  {
    NatToStringSmall(10);
    NatToStringSmall(20);
    assert "dep-3"[4] == '3';
    assert "dep-3" !in lookup;
  }

  /** Two-digit numbers print as their two digits. */
  lemma NatToStringSmall(n: nat)
    requires n == 10 || n == 20
    ensures NatToString(n) == [DigitChar(n / 10), '0']
  {
  }

  /** Three parts joined with `, `. */
  lemma JoinThree(a: string, b: string, c: string)
    ensures Join([a, b, c], ", ") == a + ", " + b + ", " + c
  {
    assert [a, b, c][1..] == [b, c];
    assert [b, c][1..] == [c];
    assert Join([b, c], ", ") == b + ", " + c;
    assert Join([a, b, c], ", ") == a + ", " + (b + ", " + c);
  }

  /** A three-dependency section lists the three references in order. */
  lemma SectionOfThree(x: string, y: string, z: string, lookup: map<string, nat>)
    ensures FormatDependenciesSection([x, y, z], lookup)
            == "**Depends on:** " + DepRef(x, lookup) + ", " + DepRef(y, lookup) + ", " + DepRef(z, lookup)
  {
    var deps := [x, y, z];
    var refs := seq(|deps|, i requires 0 <= i < |deps| => DepRef(deps[i], lookup));
    assert refs == [DepRef(x, lookup), DepRef(y, lookup), DepRef(z, lookup)];
    JoinThree(DepRef(x, lookup), DepRef(y, lookup), DepRef(z, lookup));
  }

  /** The dependency section of the formatting tests: two synced
      dependencies and one that is not. */
  lemma DependenciesSectionExample()
    ensures FormatDependenciesSection(["dep-1", "dep-2", "dep-3"], map["dep-1" := 10, "dep-2" := 20])
            == "**Depends on:** " + "#10" + ", " + "#20" + ", " + "`dep-3` (not synced)"
  {
    var lookup := map["dep-1" := 10, "dep-2" := 20];
    DepRefExamples(lookup);
    SectionOfThree("dep-1", "dep-2", "dep-3", lookup);
  }

  /** Without dependencies no `Depends on` section is rendered: the body
      between the marker and the footer is the ticket body verbatim. */
  lemma NoDepsNoSection(id: string, body: string, ticketToIssue: map<string, nat>)
    ensures FormatIssueBodyWithDeps(id, body, [], ticketToIssue) == FormatIssueBody(id, body)
  {
  }
}

=== FILE: config.dfy ===
/** Configuration records read from `sync.toml` and the `owner/repo`
    split (src/config.rs). Loading the file is not modelled. */
module Config {
  import opened Wrappers
  import opened Strings

  /** `[labels]`: whether tags become labels and whether missing labels are created. */
  datatype LabelsConfig = LabelsConfig(syncTags: bool, createMissing: bool)

  /** `[mapping]`: the project field name for the ticket type, and the
      ticket type -> GitHub issue type table. */
  datatype MappingConfig = MappingConfig(typeField: string, typeMap: map<string, string>)

  /** `[github]`. */
  datatype GitHubConfig = GitHubConfig(repo: string, project: Option<string>, assignee: Option<string>)

  /** The project field settings the sync engine reads (`config.project`):
      ticket status -> option name, the Status field name, the iteration
      setting (a name or `@current`) and the Iteration field name. */
  datatype ProjectConfig = ProjectConfig(
    status: map<string, string>,
    statusField: string,
    iteration: Option<string>,
    iterationField: string)

  /** Defaults applied when `[labels]` is absent or a key is missing. */
  function DefaultLabels(): (c: LabelsConfig)
    ensures c.syncTags && c.createMissing
  {
    LabelsConfig(true, true)
  }

  /** Defaults applied when `[mapping]` is absent or a key is missing. */
  function DefaultMapping(): (c: MappingConfig)
    ensures c.typeField == "Type" && |c.typeMap| == 0
  {
    MappingConfig("Type", map[])
  }

  /** `GitHubConfig::repo_parts`: split `repo` at `/`; exactly two pieces are
      required. */
  function RepoParts(repo: string): (r: Result<(string, string)>)
    ensures r.Ok? <==> CountChar(repo, '/') == 1
    ensures r.Ok? ==> '/' !in r.value.0 && '/' !in r.value.1
    ensures r.Ok? ==> r.value.0 + "/" + r.value.1 == repo
    ensures r.Err? ==> r.error == "Invalid repo format '" + repo + "'. Expected 'owner/repo'"
  {
    var parts := Split(repo, '/');
    if |parts| != 2 then Err("Invalid repo format '" + repo + "'. Expected 'owner/repo'")
    else
      assert Join(parts, "/") == parts[0] + "/" + Join(parts[1..], "/");
      Ok((parts[0], parts[1]))
  }

  /** Splitting a joined pair of slash-free names gives the pair back. */
  lemma RepoPartsOfJoined(owner: string, name: string)
    requires '/' !in owner && '/' !in name
    ensures RepoParts(owner + "/" + name) == Ok((owner, name))
  {
    var repo := owner + "/" + name;
    CountCharAppend(owner + "/", name, '/');
    CountCharAppend(owner, "/", '/');
    CountCharAbsent(owner, '/');
    CountCharAbsent(name, '/');
    var r := RepoParts(repo);
    RepoPartsUnique(r.value.0, r.value.1, owner, name);
  }

  /** The owner/repo examples of the configuration tests. */
  lemma RepoPartsExample()
    ensures RepoParts("owner/repo") == Ok(("owner", "repo"))
    ensures RepoParts("invalid").Err?
  {
    RepoPartsOfJoined("owner", "repo");
    assert "owner" + "/" + "repo" == "owner/repo";
    CountCharAbsent("invalid", '/');
  }

  /** Two slash-free splits of the same string agree. */
  lemma RepoPartsUnique(a: string, b: string, c: string, d: string)
    requires '/' !in a && '/' !in b && '/' !in c && '/' !in d
    requires a + "/" + b == c + "/" + d
    ensures a == c && b == d
  {
    var s := a + "/" + b;
    FirstSlash(a, b);
    FirstSlash(c, d);
    assert a == s[..|a|] == c;
    assert b == s[|a| + 1..] == d;
  }

  /** In `x/y` with a slash-free `x`, the first slash follows `x`. */
  lemma FirstSlash(x: string, y: string)
    requires '/' !in x
    ensures Find(x + "/" + y, "/") == Some(|x|)
  {
    var s := x + "/" + y;
    assert OccursAt(s, "/", |x|);
    forall j | 0 <= j < |x| ensures !OccursAt(s, "/", j) {
      assert s[j] == x[j];
    }
  }
}

=== FILE: engine.dfy ===
/** The sync run (`SyncEngine::sync`, src/sync.rs): build the dependency
    lookup, fetch the existing issues of the tickets and their parents,
    classify every ticket, create and update issues in batches, record
    the new references in the ticket files, and count the results in
    ticket order. Every network reply and file access is a parameter. */
module Engine {
  import opened Wrappers
  import opened Strings
  import opened Numerals
  import Json
  import Config
  import Tickets
  import Issues
  import IssueTypes
  import Ordering
  import opened Reconcile

  // ---------------------------------------------------------------------
  // Lookups built before classifying

  /** Ticket id -> issue number over `all[..k]`; a later ticket with the
      same id overwrites an earlier one. */
  function TicketToIssue(all: seq<Tickets.Ticket>, k: nat): (m: map<string, nat>)
    requires k <= |all|
    ensures forall id :: id in m <==> exists i :: 0 <= i < k && all[i].id == id && Tickets.GithubIssueNumber(all[i]).Some?
    ensures forall id :: id in m ==>
      exists i :: 0 <= i < k && all[i].id == id && Tickets.GithubIssueNumber(all[i]) == Some(m[id])
  {
    if k == 0 then map[]
    else
      var prev := TicketToIssue(all, k - 1);
      var n := Tickets.GithubIssueNumber(all[k - 1]);
      if n.Some? then prev[all[k - 1].id := n.value] else prev
  }

  /** The numbers of the tickets' own issues, in ticket order. */
  function TicketNumbers(tickets: seq<Tickets.Ticket>): (ns: seq<nat>)
    ensures forall n :: n in ns <==> exists i :: 0 <= i < |tickets| && Tickets.GithubIssueNumber(tickets[i]) == Some(n)
  {
    if |tickets| == 0 then []
    else
      var rest := TicketNumbers(tickets[1..]);
      assert forall i :: 1 <= i < |tickets| ==> tickets[i] == tickets[1..][i - 1];
      var n := Tickets.GithubIssueNumber(tickets[0]);
      if n.Some? then [n.value] + rest else rest
  }

  /** The issue number of a ticket's parent, when the parent has one. */
  function ParentNumber(t: Tickets.Ticket, ticketToIssue: map<string, nat>): Option<nat> {
    if t.parent.Some? && t.parent.value in ticketToIssue then Some(ticketToIssue[t.parent.value]) else None
  }

  /** Appends the parent numbers of `tickets[..k]` not already listed. */
  function AddParents(tickets: seq<Tickets.Ticket>, ticketToIssue: map<string, nat>, numbers: seq<nat>, k: nat)
    : (ns: seq<nat>)
    requires k <= |tickets|
    ensures numbers <= ns
    ensures forall i :: 0 <= i < k && ParentNumber(tickets[i], ticketToIssue).Some? ==>
      ParentNumber(tickets[i], ticketToIssue).value in ns
    ensures forall n :: n in ns ==> n in numbers || exists i :: 0 <= i < k && ParentNumber(tickets[i], ticketToIssue) == Some(n)
    ensures forall j :: |numbers| <= j < |ns| ==> ns[j] !in ns[..j]
  {
    if k == 0 then numbers
    else
      var prev := AddParents(tickets, ticketToIssue, numbers, k - 1);
      var p := ParentNumber(tickets[k - 1], ticketToIssue);
      if p.Some? && p.value !in prev then prev + [p.value] else prev
  }

  /** The numbers `sync` fetches: its tickets' issues, then the parents'
      issues that are not among them (needed to link sub-issues). */
  function IssueNumbers(tickets: seq<Tickets.Ticket>, ticketToIssue: map<string, nat>): (ns: seq<nat>)
    ensures forall i :: 0 <= i < |tickets| && Tickets.GithubIssueNumber(tickets[i]).Some? ==>
      Tickets.GithubIssueNumber(tickets[i]).value in ns
    ensures forall i :: 0 <= i < |tickets| && ParentNumber(tickets[i], ticketToIssue).Some? ==>
      ParentNumber(tickets[i], ticketToIssue).value in ns
    ensures forall n :: n in ns ==>
      exists i :: 0 <= i < |tickets| && (Tickets.GithubIssueNumber(tickets[i]) == Some(n)
                                         || ParentNumber(tickets[i], ticketToIssue) == Some(n))
  {
    var own := TicketNumbers(tickets);
    AddParents(tickets, ticketToIssue, own, |tickets|)
  }

  // ---------------------------------------------------------------------
  // Labels

  /** What `get_or_create_label` consults: the repository's labels, and
      the reply to creating a label of a given name. */
  datatype LabelEnv = LabelEnv(labels: Result<seq<Issues.LabelInfo>>, createLabel: string -> Result<Issues.LabelInfo>)

  function LabelReply(env: LabelEnv, tag: string, createMissing: bool): Result<Option<string>> {
    Issues.GetOrCreateLabel(env.labels, tag, createMissing, env.createLabel(tag)).result
  }

  /** The label ids of `tags`, consulting the cache (keyed by lowercased
      name) first and remembering every label found or created. A tag whose
      label cannot be had is dropped. */
  function ResolveTags(tags: seq<string>, cache: map<string, string>, createMissing: bool, env: LabelEnv)
    : (r: (seq<string>, map<string, string>))
    ensures |r.0| <= |tags|
    ensures forall key :: key in cache ==> key in r.1 && r.1[key] == cache[key]
    ensures forall key :: key in r.1 ==> key in cache || exists i :: 0 <= i < |tags| && key == Lower(tags[i])
    ensures forall j :: 0 <= j < |r.0| ==> r.0[j] in r.1.Values
  {
    if |tags| == 0 then ([], cache)
    else
      var key := Lower(tags[0]);
      assert forall i :: 1 <= i < |tags| ==> tags[i] == tags[1..][i - 1];
      if key in cache then
        var rest := ResolveTags(tags[1..], cache, createMissing, env);
        assert key in rest.1 && rest.1[key] == cache[key];
        ([cache[key]] + rest.0, rest.1)
      else
        var reply := LabelReply(env, tags[0], createMissing);
        if reply.Ok? && reply.value.Some? then
          var rest := ResolveTags(tags[1..], cache[key := reply.value.value], createMissing, env);
          assert key in rest.1 && rest.1[key] == reply.value.value;
          ([reply.value.value] + rest.0, rest.1)
        else ResolveTags(tags[1..], cache, createMissing, env)
  }

  /** `resolve_label_ids`: no labels at all unless tags are synced. */
  function ResolveLabelIds(labels: Config.LabelsConfig, tags: seq<string>, cache: map<string, string>, env: LabelEnv)
    : (r: (seq<string>, map<string, string>))
    ensures !labels.syncTags ==> r == ([], cache)
    ensures labels.syncTags ==> r == ResolveTags(tags, cache, labels.createMissing, env)
  {
    if !labels.syncTags then ([], cache) else ResolveTags(tags, cache, labels.createMissing, env)
  }

  /** A tag already in the cache costs no request: with every tag cached
      the ids are the cached ones in tag order. */
  lemma CachedTagsNeedNoLookup(labels: Config.LabelsConfig, tags: seq<string>, cache: map<string, string>, env: LabelEnv)
    requires labels.syncTags && forall i :: 0 <= i < |tags| ==> Lower(tags[i]) in cache
    ensures ResolveLabelIds(labels, tags, cache, env).0 == seq(|tags|, i requires 0 <= i < |tags| => cache[Lower(tags[i])])
  {
    AllCachedResolve(tags, cache, labels.createMissing, env);
  }

  /** With every tag cached, resolving leaves the cache alone and returns
      the cached ids in tag order. */
  lemma {:induction false} AllCachedResolve(tags: seq<string>, cache: map<string, string>, createMissing: bool, env: LabelEnv)
    requires forall i :: 0 <= i < |tags| ==> Lower(tags[i]) in cache
    ensures ResolveTags(tags, cache, createMissing, env)
            == (seq(|tags|, i requires 0 <= i < |tags| => cache[Lower(tags[i])]), cache)
  {
    var ids := seq(|tags|, i requires 0 <= i < |tags| => cache[Lower(tags[i])]);
    if |tags| > 0 {
      var tail := tags[1..];
      assert forall i :: 0 <= i < |tail| ==> tail[i] == tags[i + 1];
      AllCachedResolve(tail, cache, createMissing, env);
      assert ids == [cache[Lower(tags[0])]] + seq(|tail|, i requires 0 <= i < |tail| => cache[Lower(tail[i])]);
      assert Lower(tags[0]) in cache;
      var rest := ResolveTags(tail, cache, createMissing, env);
      assert ResolveTags(tags, cache, createMissing, env) == ([cache[Lower(tags[0])]] + rest.0, rest.1);
    } else {
      assert ids == [];
    }
  }

  // ---------------------------------------------------------------------
  // Phase 1: classifying the tickets

  /** What classifying a ticket reads: the label settings, the issue-type
      table and cache, the dependency lookup, the fetched issues and the
      label replies. */
  datatype Context = Context(labels: Config.LabelsConfig, typeMap: map<string, string>, typeCache: map<string, string>,
                             ticketToIssue: map<string, nat>, existing: map<nat, Issues.ExistingIssue>,
                             labelEnv: LabelEnv)

  /** The result a synced ticket gets at once when it needs no update. */
  function DirectResult(c: UpdateCheck): (r: SyncResult)
    requires !c.NeedsUpdate?
    ensures r.Skipped? <==> c.NoChanges? || c.Conflict?
    ensures c.Conflict? ==> r == Skipped(c.reason)
    ensures c.Error? ==> r == Failed(c.message)
  {
    match c
    case NoChanges => Skipped("no changes")
    case Conflict(reason) => Skipped(reason)
    case Error(e) => Failed(e)
  }

  /** The update queued for a synced ticket whose issue differs. */
  function PendingUpdateOf(ctx: Context, t: Tickets.Ticket, idx: nat, c: UpdateCheck): PendingUpdate
    requires c.NeedsUpdate?
  {
    PendingUpdate(idx, c.issueId, c.issueNumber, c.title, c.body, c.needsClose, c.needsReopen,
                  IssueTypes.ResolveIssueType(t.ticketType, ctx.typeMap, ctx.typeCache))
  }

  /** The create queued for an unsynced ticket. */
  function PendingCreateOf(ctx: Context, t: Tickets.Ticket, idx: nat, labelIds: seq<string>): PendingCreate {
    PendingCreate(idx, t.title, RenderedBody(t, ctx.ticketToIssue), labelIds,
                  IssueTypes.ResolveIssueType(t.ticketType, ctx.typeMap, ctx.typeCache))
  }

  /** Phase 1's output: results known at once, queued creates and updates,
      and the label cache after the lookups. */
  datatype Phase1 = Phase1(direct: seq<(nat, SyncResult)>, creates: seq<PendingCreate>, updates: seq<PendingUpdate>,
                           labelCache: map<string, string>)

  function CreateIdx(c: PendingCreate): nat { c.ticketIdx }
  function UpdateIdx(u: PendingUpdate): nat { u.ticketIdx }

  /** The ticket indices of the queued creates and updates, in queue
      order. */
  function CreateIndices(cs: seq<PendingCreate>): seq<nat> { Ordering.Project(cs, CreateIdx) }
  function UpdateIndices(us: seq<PendingUpdate>): seq<nat> { Ordering.Project(us, UpdateIdx) }

  /** Every ticket index below `k` is in exactly one of the three lists,
      once. */
  ghost predicate Partitioned(p: Phase1, k: nat) {
    multiset(Ordering.Firsts(p.direct)) + multiset(CreateIndices(p.creates)) + multiset(UpdateIndices(p.updates))
      == multiset(Ordering.Range(k))
  }

  /** A direct entry: a synced ticket that needs no update, with the
      result its check decides. */
  ghost predicate DirectOk(ctx: Context, tickets: seq<Tickets.Ticket>, e: (nat, SyncResult)) {
    && e.0 < |tickets| && Tickets.IsSynced(tickets[e.0])
    && var c := CheckUpdateNeeded(tickets[e.0], ctx.existing, ctx.ticketToIssue);
       !c.NeedsUpdate? && e.1 == DirectResult(c)
  }

  /** A queued create: an unsynced ticket, its title and rendered body. */
  ghost predicate CreateOk(ctx: Context, tickets: seq<Tickets.Ticket>, c: PendingCreate) {
    && c.ticketIdx < |tickets| && !Tickets.IsSynced(tickets[c.ticketIdx])
    && c.title == tickets[c.ticketIdx].title
    && c.body == RenderedBody(tickets[c.ticketIdx], ctx.ticketToIssue)
    && c.issueTypeId == IssueTypes.ResolveIssueType(tickets[c.ticketIdx].ticketType, ctx.typeMap, ctx.typeCache)
  }

  /** A queued update: a synced ticket whose check asks for exactly this
      update. */
  ghost predicate UpdateOk(ctx: Context, tickets: seq<Tickets.Ticket>, u: PendingUpdate) {
    && u.ticketIdx < |tickets| && Tickets.IsSynced(tickets[u.ticketIdx])
    && var c := CheckUpdateNeeded(tickets[u.ticketIdx], ctx.existing, ctx.ticketToIssue);
       c.NeedsUpdate? && u == PendingUpdateOf(ctx, tickets[u.ticketIdx], u.ticketIdx, c)
  }

  /** What phase 1 promises about `tickets[..k]`: the three lists cover
      every index once, each entry is what its ticket calls for, and the
      creates are in ticket order. */
  ghost predicate Classified(ctx: Context, tickets: seq<Tickets.Ticket>, p: Phase1, k: nat) {
    && Partitioned(p, k)
    && (forall j :: 0 <= j < |p.direct| ==> p.direct[j].0 < k && DirectOk(ctx, tickets, p.direct[j]))
    && (forall j :: 0 <= j < |p.creates| ==> p.creates[j].ticketIdx < k && CreateOk(ctx, tickets, p.creates[j]))
    && (forall j :: 0 <= j < |p.updates| ==> p.updates[j].ticketIdx < k && UpdateOk(ctx, tickets, p.updates[j]))
    && (forall a, b :: 0 <= a < b < |p.creates| ==> p.creates[a].ticketIdx < p.creates[b].ticketIdx)
  }

  /** Phase 1 over `tickets[..k]`, in ticket order, threading the label
      cache through the label lookups of the unsynced tickets. */
  function Classify(ctx: Context, tickets: seq<Tickets.Ticket>, cache: map<string, string>, k: nat): (p: Phase1)
    requires k <= |tickets|
    ensures Classified(ctx, tickets, p, k)
    ensures forall key :: key in cache ==> key in p.labelCache && p.labelCache[key] == cache[key]
  {
    if k == 0 then Phase1([], [], [], cache)
    else
      var prev := Classify(ctx, tickets, cache, k - 1);
      var idx: nat := k - 1;
      var t := tickets[idx];
      if Tickets.IsSynced(t) then
        var c := CheckUpdateNeeded(t, ctx.existing, ctx.ticketToIssue);
        if c.NeedsUpdate? then
          var u := PendingUpdateOf(ctx, t, idx, c);
          ClassifiedAddUpdate(ctx, tickets, prev, u, k);
          prev.(updates := prev.updates + [u])
        else
          var e: (nat, SyncResult) := (idx, DirectResult(c));
          ClassifiedAddDirect(ctx, tickets, prev, e, k);
          prev.(direct := prev.direct + [e])
      else
        var labels := ResolveLabelIds(ctx.labels, t.tags, prev.labelCache, ctx.labelEnv);
        var cr := PendingCreateOf(ctx, t, idx, labels.0);
        ClassifiedAddCreate(ctx, tickets, prev, cr, labels.1, k);
        Phase1(prev.direct, prev.creates + [cr], prev.updates, labels.1)
  }

  lemma ClassifiedAddDirect(ctx: Context, tickets: seq<Tickets.Ticket>, prev: Phase1, e: (nat, SyncResult), k: nat)
    requires 0 < k <= |tickets| && Classified(ctx, tickets, prev, k - 1)
    requires e.0 == k - 1 && DirectOk(ctx, tickets, e)
    ensures Classified(ctx, tickets, prev.(direct := prev.direct + [e]), k)
  {
    var p := prev.(direct := prev.direct + [e]);
    PartitionedAddDirect(prev, e, k);
    forall j | 0 <= j < |p.direct| ensures p.direct[j].0 < k && DirectOk(ctx, tickets, p.direct[j]) {
      if j < |prev.direct| {
        assert p.direct[j] == prev.direct[j];
      }
    }
  }

  /** A direct entry for the next index extends the partition. */
  lemma PartitionedAddDirect(prev: Phase1, e: (nat, SyncResult), k: nat)
    requires 0 < k && Partitioned(prev, k - 1) && e.0 == k - 1
    ensures Partitioned(prev.(direct := prev.direct + [e]), k)
  {
    RangeSnoc(k);
    Ordering.FirstsAppend(prev.direct, [e]);
    var last: nat := k - 1;
    assert multiset(Ordering.Firsts(prev.direct + [e])) == multiset(Ordering.Firsts(prev.direct)) + multiset{last};
    assert multiset(Ordering.Range(k)) == multiset(Ordering.Range(k - 1)) + multiset{last};
  }

  lemma ClassifiedAddCreate(ctx: Context, tickets: seq<Tickets.Ticket>, prev: Phase1, c: PendingCreate,
                            cache: map<string, string>, k: nat)
    requires 0 < k <= |tickets| && Classified(ctx, tickets, prev, k - 1)
    requires c.ticketIdx == k - 1 && CreateOk(ctx, tickets, c)
    ensures Classified(ctx, tickets, Phase1(prev.direct, prev.creates + [c], prev.updates, cache), k)
  {
    var p := Phase1(prev.direct, prev.creates + [c], prev.updates, cache);
    RangeSnoc(k);
    Ordering.ProjectSnoc(prev.creates, c, CreateIdx);
    assert CreateIndices(p.creates) == CreateIndices(prev.creates) + [k - 1];
    assert Partitioned(p, k);
    CreatesSnocOk(ctx, tickets, prev.creates, c, k);
  }

  /** Queuing the create of ticket `k - 1` after creates of earlier
      tickets keeps every create valid and the queue in ticket order. */
  lemma CreatesSnocOk(ctx: Context, tickets: seq<Tickets.Ticket>, creates: seq<PendingCreate>, c: PendingCreate, k: nat)
    requires forall j :: 0 <= j < |creates| ==> creates[j].ticketIdx < k - 1 && CreateOk(ctx, tickets, creates[j])
    requires forall a, b :: 0 <= a < b < |creates| ==> creates[a].ticketIdx < creates[b].ticketIdx
    requires c.ticketIdx == k - 1 && CreateOk(ctx, tickets, c)
    ensures var cs := creates + [c];
            forall j :: 0 <= j < |cs| ==> cs[j].ticketIdx < k && CreateOk(ctx, tickets, cs[j])
    ensures var cs := creates + [c];
            forall a, b :: 0 <= a < b < |cs| ==> cs[a].ticketIdx < cs[b].ticketIdx
  {
    var cs := creates + [c];
    forall j | 0 <= j < |cs| ensures cs[j].ticketIdx < k && CreateOk(ctx, tickets, cs[j]) {
      if j < |creates| {
        assert cs[j] == creates[j];
      }
    }
    forall a, b | 0 <= a < b < |cs| ensures cs[a].ticketIdx < cs[b].ticketIdx {
      assert cs[a] == creates[a];
      if b < |creates| {
        assert cs[b] == creates[b];
      }
    }
  }

  lemma ClassifiedAddUpdate(ctx: Context, tickets: seq<Tickets.Ticket>, prev: Phase1, u: PendingUpdate, k: nat)
    requires 0 < k <= |tickets| && Classified(ctx, tickets, prev, k - 1)
    requires u.ticketIdx == k - 1 && UpdateOk(ctx, tickets, u)
    ensures Classified(ctx, tickets, prev.(updates := prev.updates + [u]), k)
  {
    RangeSnoc(k);
    Ordering.ProjectSnoc(prev.updates, u, UpdateIdx);
    assert UpdateIndices(prev.updates + [u]) == UpdateIndices(prev.updates) + [k - 1];
    UpdatesSnocOk(ctx, tickets, prev.updates, u, k);
  }

  /** Queuing the update of ticket `k - 1` keeps every update valid. */
  lemma UpdatesSnocOk(ctx: Context, tickets: seq<Tickets.Ticket>, updates: seq<PendingUpdate>, u: PendingUpdate, k: nat)
    requires forall j :: 0 <= j < |updates| ==> updates[j].ticketIdx < k - 1 && UpdateOk(ctx, tickets, updates[j])
    requires u.ticketIdx == k - 1 && UpdateOk(ctx, tickets, u)
    ensures var us := updates + [u];
            forall j :: 0 <= j < |us| ==> us[j].ticketIdx < k && UpdateOk(ctx, tickets, us[j])
  {
    var us := updates + [u];
    forall j | 0 <= j < |us| ensures us[j].ticketIdx < k && UpdateOk(ctx, tickets, us[j]) {
      if j < |updates| {
        assert us[j] == updates[j];
      }
    }
  }

  lemma RangeSnoc(k: nat)
    requires k > 0
    ensures Ordering.Range(k) == Ordering.Range(k - 1) + [k - 1]
  {
  }

  // ---------------------------------------------------------------------
  // Phase 2: creates, and the write-back of the new references

  /** The ticket files: the contents read at a path, and the outcome of
      writing a path. */
  datatype Files = Files(read: string -> Result<string>, write: string -> Outcome)

  /** `gh-<n>`, the reference recorded for issue `n`. */
  function IssueRef(n: nat): string {
    Tickets.GH_PREFIX + NatToString(n)
  }

  /** One create's result once its reference is written back: an issue
      that was created but whose reference cannot be recorded counts as a
      failure, and only a recorded reference changes the ticket. */
  function RecordCreate(t: Tickets.Ticket, result: SyncResult, files: Files): (r: (SyncResult, Tickets.Ticket))
    ensures !result.Created? ==> r == (result, t)
    ensures r.0.Created? <==> result.Created? && files.read(t.path).Ok? && files.write(t.path).Pass?
    ensures r.0.Created? ==> r.0 == result && r.1 == t.(externalRef := Some(IssueRef(result.issueNumber)))
    ensures result.Created? && !r.0.Created? ==>
      r.1 == t && r.0.Failed?
      && StartsWith(r.0.error, "Created #" + NatToString(result.issueNumber) + " but failed to write external-ref: ")
  {
    if !result.Created? then (result, t)
    else
      var n := result.issueNumber;
      var w := Tickets.WriteExternalRef(t, IssueRef(n), files.read(t.path), files.write(t.path));
      if w.result.Err? then
        var prefix := "Created #" + NatToString(n) + " but failed to write external-ref: ";
        assert (prefix + w.result.error)[..|prefix|] == prefix;
        (Failed(prefix + w.result.error), t)
      else (result, w.result.value)
  }

  /** Records the first `k` create results in order: one entry per create,
      and the ticket of each create rewritten as `RecordCreate` says. */
  function RecordCreates(tickets: seq<Tickets.Ticket>, creates: seq<PendingCreate>, results: seq<SyncResult>,
                         files: Files, k: nat)
    : (r: (seq<(nat, SyncResult)>, seq<Tickets.Ticket>))
    requires k <= |creates| && k <= |results|
    requires forall j :: 0 <= j < |creates| ==> creates[j].ticketIdx < |tickets|
    requires forall a, b :: 0 <= a < b < |creates| ==> creates[a].ticketIdx < creates[b].ticketIdx
    ensures |r.0| == k && |r.1| == |tickets|
    ensures forall j :: 0 <= j < k ==>
      r.0[j] == (creates[j].ticketIdx, RecordCreate(tickets[creates[j].ticketIdx], results[j], files).0)
    ensures forall j :: 0 <= j < k ==>
      r.1[creates[j].ticketIdx] == RecordCreate(tickets[creates[j].ticketIdx], results[j], files).1
    ensures forall i :: 0 <= i < |tickets| && (forall j :: 0 <= j < k ==> creates[j].ticketIdx != i) ==> r.1[i] == tickets[i]
  {
    if k == 0 then ([], tickets)
    else
      var prev := RecordCreates(tickets, creates, results, files, k - 1);
      var idx := creates[k - 1].ticketIdx;
      var rc := RecordCreate(prev.1[idx], results[k - 1], files);
      var r := (prev.0 + [(idx, rc.0)], prev.1[idx := rc.1]);
      assert prev.1[idx] == tickets[idx] by {
        forall j | 0 <= j < k - 1 ensures creates[j].ticketIdx != idx {
          assert creates[j].ticketIdx < idx;
        }
      }
      assert forall j :: 0 <= j < k - 1 ==> r.0[j] == prev.0[j];
      assert forall j :: 0 <= j < k - 1 ==> r.1[creates[j].ticketIdx] == prev.1[creates[j].ticketIdx];
      r
  }

  /** `batch_create` and the write-back: nothing when there is nothing to
      create, otherwise one entry per create. */
  function CreatePhase(repoId: string, assigneeId: Option<string>, tickets: seq<Tickets.Ticket>,
                       creates: seq<PendingCreate>, reply: Result<Json.Response>, files: Files)
    : (r: (seq<(nat, SyncResult)>, seq<Tickets.Ticket>))
    requires forall j :: 0 <= j < |creates| ==> creates[j].ticketIdx < |tickets|
    requires forall a, b :: 0 <= a < b < |creates| ==> creates[a].ticketIdx < creates[b].ticketIdx
    ensures |r.0| == |creates| && |r.1| == |tickets|
    ensures Ordering.Firsts(r.0) == CreateIndices(creates)
    ensures forall j :: 0 <= j < |creates| ==> r.0[j].1.Created? || r.0[j].1.Failed?
    ensures forall j :: 0 <= j < |creates| ==>
      var i := creates[j].ticketIdx;
      r.1[i] == (if r.0[j].1.Created? then tickets[i].(externalRef := Some(IssueRef(r.0[j].1.issueNumber))) else tickets[i])
    ensures forall i :: 0 <= i < |tickets| && i !in CreateIndices(creates) ==> r.1[i] == tickets[i]
  {
    if |creates| == 0 then ([], tickets)
    else
      var assignees := if assigneeId.Some? then Some([assigneeId.value]) else None;
      var results := BatchCreate(creates, Issues.CreateIssuesBatch(repoId, CreatesOf(creates), assignees, reply).result);
      CreateResultPerItem(creates, repoId, assignees, reply);
      RecordedCreates(tickets, creates, results, files);
      RecordCreates(tickets, creates, results, files, |creates|)
  }

  /** Recording every create result: the entries carry the creates'
      ticket indices, and a ticket gains a reference exactly when its
      issue was created and recorded. */
  lemma RecordedCreates(tickets: seq<Tickets.Ticket>, creates: seq<PendingCreate>, results: seq<SyncResult>,
                        files: Files)
    requires forall j :: 0 <= j < |creates| ==> creates[j].ticketIdx < |tickets|
    requires forall a, b :: 0 <= a < b < |creates| ==> creates[a].ticketIdx < creates[b].ticketIdx
    requires |results| == |creates| && forall j :: 0 <= j < |results| ==> results[j].Created? || results[j].Failed?
    ensures var r := RecordCreates(tickets, creates, results, files, |creates|);
      && Ordering.Firsts(r.0) == CreateIndices(creates)
      && (forall j :: 0 <= j < |creates| ==> r.0[j].1.Created? || r.0[j].1.Failed?)
      && (forall j :: 0 <= j < |creates| ==>
            var i := creates[j].ticketIdx;
            r.1[i] == (if r.0[j].1.Created? then tickets[i].(externalRef := Some(IssueRef(r.0[j].1.issueNumber)))
                       else tickets[i]))
      && (forall i :: 0 <= i < |tickets| && i !in CreateIndices(creates) ==> r.1[i] == tickets[i])
  {
    var r := RecordCreates(tickets, creates, results, files, |creates|);
    forall j | 0 <= j < |creates|
      ensures r.0[j].1.Created? || r.0[j].1.Failed?
      ensures var i := creates[j].ticketIdx;
              r.1[i] == (if r.0[j].1.Created? then tickets[i].(externalRef := Some(IssueRef(r.0[j].1.issueNumber)))
                         else tickets[i])
    {
      assert results[j].Created? || results[j].Failed?;
    }
    forall i | 0 <= i < |tickets| && i !in CreateIndices(creates) ensures r.1[i] == tickets[i] {
      assert forall j :: 0 <= j < |creates| ==> creates[j].ticketIdx == CreateIndices(creates)[j];
    }
  }

  // ---------------------------------------------------------------------
  // Phase 3: updates

  /** `batch_update` on the queued updates, each fed the reply of its
      request; one entry per update. */
  function UpdatePhase(updates: seq<PendingUpdate>, updateReply: Result<Json.Response>, closeReply: Outcome,
                       reopenReply: Outcome)
    : (r: seq<(nat, SyncResult)>)
    ensures Ordering.Firsts(r) == UpdateIndices(updates)
    ensures forall j :: 0 <= j < |updates| ==> r[j].1.Failed? || r[j].1 == Updated(updates[j].issueNumber)
  {
    var results := UpdateOutcomes(updates, updateReply, closeReply, reopenReply);
    Ordering.Zip(UpdateIndices(updates), results)
  }

  /** The outcomes `batch_update` reports, one per queued update. */
  function UpdateOutcomes(updates: seq<PendingUpdate>, updateReply: Result<Json.Response>, closeReply: Outcome,
                          reopenReply: Outcome)
    : (rs: seq<SyncResult>)
    ensures |rs| == |updates|
    ensures forall j :: 0 <= j < |updates| ==> rs[j].Failed? || rs[j] == Updated(updates[j].issueNumber)
  {
    var updated := Issues.UpdateIssuesBatch(UpdatesOf(updates), updateReply).result;
    var closed := Issues.StateBatch("close", "closeIssue", StateIds(updates, true), closeReply).result;
    var reopened := Issues.StateBatch("reopen", "reopenIssue", StateIds(updates, false), reopenReply).result;
    BatchUpdate(updates, updated, closed, reopened).results
  }

  // ---------------------------------------------------------------------
  // The whole sync

  /** The engine's settings and the label cache it carries between runs. */
  datatype EngineState = EngineState(labels: Config.LabelsConfig, typeMap: map<string, string>,
                                     typeCache: map<string, string>, repoId: string, assigneeId: Option<string>,
                                     labelCache: map<string, string>)

  /** Everything `sync` receives from the outside, in the order it asks:
      the fetch of existing issues, the label replies, the create reply,
      the ticket files, and the update, close and reopen replies. */
  datatype Replies = Replies(fetch: Result<Json.Value>, labelEnv: LabelEnv, create: Result<Json.Response>,
                             files: Files, update: Result<Json.Response>, close: Outcome, reopen: Outcome)

  /** A run: the lookups it built, the classification, the results sorted
      by ticket index, the summary, the tickets after the write-backs, and
      the label cache afterwards. */
  datatype SyncRun = SyncRun(ticketToIssue: map<string, nat>, fetched: seq<nat>,
                             existing: map<nat, Issues.ExistingIssue>, phase1: Phase1,
                             results: seq<(nat, SyncResult)>, summary: Summary, tickets: seq<Tickets.Ticket>,
                             labelCache: map<string, string>)

  function Outcomes(results: seq<(nat, SyncResult)>): (rs: seq<SyncResult>)
    ensures |rs| == |results| && forall i :: 0 <= i < |results| ==> rs[i] == results[i].1
  {
    seq(|results|, i requires 0 <= i < |results| => results[i].1)
  }

  /** What a ticket's entry says, given what the check decided for it: a
      synced ticket is left unchanged and is updated, skipped or failed as
      its check says; an unsynced ticket is created (and records the new
      reference) or failed (and is unchanged). */
  ghost predicate EntryOk(ticketToIssue: map<string, nat>, existing: map<nat, Issues.ExistingIssue>,
                          tickets: seq<Tickets.Ticket>, written: seq<Tickets.Ticket>, e: (nat, SyncResult)) {
    && e.0 < |tickets| && |written| == |tickets|
    && var t := tickets[e.0];
       var c := CheckUpdateNeeded(t, existing, ticketToIssue);
       if Tickets.IsSynced(t) then
         && written[e.0] == t
         && (c.NeedsUpdate? ==> e.1.Failed? || e.1 == Updated(c.issueNumber))
         && (!c.NeedsUpdate? ==> e.1 == DirectResult(c))
       else
         && (e.1.Created? || e.1.Failed?)
         && written[e.0] == if e.1.Created? then t.(externalRef := Some(IssueRef(e.1.issueNumber))) else t
  }

  /** `SyncEngine::sync` without its printing and the advisory phases:
      one result per ticket, tallied in the summary; what each result is
      is stated by `SyncEntries`. */
  function Sync(engine: EngineState, tickets: seq<Tickets.Ticket>, all: seq<Tickets.Ticket>, replies: Replies)
    : (run: SyncRun)
    ensures run.ticketToIssue == TicketToIssue(all, |all|)
    ensures run.fetched == IssueNumbers(tickets, run.ticketToIssue)
    ensures |run.fetched| == 0 ==> run.existing == map[]
    ensures forall n :: n in run.existing ==> n in run.fetched && run.existing[n].number == n
    ensures Classified(Context(engine.labels, engine.typeMap, engine.typeCache, run.ticketToIssue, run.existing,
                               replies.labelEnv), tickets, run.phase1, |tickets|)
    ensures |run.results| == |tickets| && |run.tickets| == |tickets|
    ensures run.summary == Tally(Outcomes(run.results))
  {
    var tti := TicketToIssue(all, |all|);
    var numbers := IssueNumbers(tickets, tti);
    var existing := FetchExisting(numbers, replies.fetch);
    var ctx := Context(engine.labels, engine.typeMap, engine.typeCache, tti, existing, replies.labelEnv);
    var p := Classify(ctx, tickets, engine.labelCache, |tickets|);
    var done := RunPhases(engine, ctx, tickets, p, replies);
    SyncRun(tti, numbers, existing, p, done.0, Tally(Outcomes(done.0)), done.1, p.labelCache)
  }

  /** The entries of a run: one per ticket, in ticket order, each what its
      ticket calls for, all counted in the summary. */
  lemma SyncEntries(engine: EngineState, tickets: seq<Tickets.Ticket>, all: seq<Tickets.Ticket>, replies: Replies)
    ensures var run := Sync(engine, tickets, all, replies);
            && |run.results| == |tickets| && |run.tickets| == |tickets|
            && (forall i :: 0 <= i < |tickets| ==> run.results[i].0 == i)
            && (forall i :: 0 <= i < |tickets| ==>
                  EntryOk(run.ticketToIssue, run.existing, tickets, run.tickets, run.results[i]))
            && Total(run.summary) == |tickets|
  {
  }

  /** The issues a run fetches: none without issue numbers to ask for,
      and nothing at all when the fetch fails. */
  function FetchExisting(numbers: seq<nat>, reply: Result<Json.Value>): (m: map<nat, Issues.ExistingIssue>)
    ensures |numbers| == 0 ==> m == map[]
    ensures forall n :: n in m ==> n in numbers && m[n].number == n
    ensures |numbers| > 0 && Issues.GetIssuesBatch(numbers, reply).result.Err? ==> m == map[]
    ensures |numbers| > 0 && Issues.GetIssuesBatch(numbers, reply).result.Ok? ==>
      m == Issues.GetIssuesBatch(numbers, reply).result.value
  {
    if |numbers| == 0 then map[] else Issues.GetIssuesBatch(numbers, reply).result.ToOption().GetOr(map[])
  }

  /** Phases 2 and 3 after the classification, and the sorting of their
      entries: one entry per ticket, at its own index, as its ticket
      calls for, and the tickets after the write-backs. */
  function RunPhases(engine: EngineState, ctx: Context, tickets: seq<Tickets.Ticket>, p: Phase1, replies: Replies)
    : (r: (seq<(nat, SyncResult)>, seq<Tickets.Ticket>))
    requires Classified(ctx, tickets, p, |tickets|)
    ensures |r.0| == |tickets| && |r.1| == |tickets|
    ensures forall i :: 0 <= i < |tickets| ==> r.0[i].0 == i
    ensures forall i :: 0 <= i < |tickets| ==> EntryOk(ctx.ticketToIssue, ctx.existing, tickets, r.1, r.0[i])
  {
    var created := CreatePhase(engine.repoId, engine.assigneeId, tickets, p.creates, replies.create, replies.files);
    var updated := UpdatePhase(p.updates, replies.update, replies.close, replies.reopen);
    var entries := p.direct + created.0 + updated;
    EntriesCoverTickets(p, created.0, updated, |tickets|);
    EntriesOk(ctx, tickets, p, created, updated);
    var results := Ordering.SortByIndex(entries);
    SortedResults(ctx.ticketToIssue, ctx.existing, tickets, created.1, entries, results);
    (results, created.1)
  }

  /** Sorting keeps every entry and puts entry `i` at position `i`. */
  lemma SortedResults(ticketToIssue: map<string, nat>, existing: map<nat, Issues.ExistingIssue>,
                      tickets: seq<Tickets.Ticket>, written: seq<Tickets.Ticket>,
                      entries: seq<(nat, SyncResult)>, results: seq<(nat, SyncResult)>)
    requires multiset(Ordering.Firsts(entries)) == multiset(Ordering.Range(|tickets|))
    requires forall e :: e in entries ==> EntryOk(ticketToIssue, existing, tickets, written, e)
    requires results == Ordering.SortByIndex(entries)
    ensures |results| == |tickets|
    ensures forall i :: 0 <= i < |tickets| ==> results[i].0 == i
    ensures forall i :: 0 <= i < |tickets| ==> EntryOk(ticketToIssue, existing, tickets, written, results[i])
  {
    Ordering.SortedIndicesAreRange(results, |tickets|);
    forall i | 0 <= i < |tickets| ensures EntryOk(ticketToIssue, existing, tickets, written, results[i]) {
      assert results[i] in multiset(entries);
    }
  }

  /** The three phases together hold every ticket index exactly once. */
  lemma EntriesCoverTickets(p: Phase1, created: seq<(nat, SyncResult)>, updated: seq<(nat, SyncResult)>, n: nat)
    requires Partitioned(p, n)
    requires Ordering.Firsts(created) == CreateIndices(p.creates)
    requires Ordering.Firsts(updated) == UpdateIndices(p.updates)
    ensures multiset(Ordering.Firsts(p.direct + created + updated)) == multiset(Ordering.Range(n))
  {
    Ordering.FirstsAppend(p.direct, created);
    Ordering.FirstsAppend(p.direct + created, updated);
  }

  /** Every entry the three phases produce is what its ticket calls for. */
  lemma EntriesOk(ctx: Context, tickets: seq<Tickets.Ticket>, p: Phase1,
                  created: (seq<(nat, SyncResult)>, seq<Tickets.Ticket>), updated: seq<(nat, SyncResult)>)
    requires Classified(ctx, tickets, p, |tickets|)
    requires |created.0| == |p.creates| && |created.1| == |tickets|
    requires Ordering.Firsts(created.0) == CreateIndices(p.creates)
    requires forall j :: 0 <= j < |p.creates| ==> created.0[j].1.Created? || created.0[j].1.Failed?
    requires forall j :: 0 <= j < |p.creates| ==>
      var i := p.creates[j].ticketIdx;
      created.1[i] == (if created.0[j].1.Created? then tickets[i].(externalRef := Some(IssueRef(created.0[j].1.issueNumber)))
                       else tickets[i])
    requires forall i :: 0 <= i < |tickets| && i !in CreateIndices(p.creates) ==> created.1[i] == tickets[i]
    requires Ordering.Firsts(updated) == UpdateIndices(p.updates)
    requires forall j :: 0 <= j < |p.updates| ==> updated[j].1.Failed? || updated[j].1 == Updated(p.updates[j].issueNumber)
    ensures forall e :: e in p.direct + created.0 + updated ==>
      EntryOk(ctx.ticketToIssue, ctx.existing, tickets, created.1, e)
  {
    var entries := p.direct + created.0 + updated;
    forall e | e in entries ensures EntryOk(ctx.ticketToIssue, ctx.existing, tickets, created.1, e) {
      if e in p.direct {
        var j :| 0 <= j < |p.direct| && p.direct[j] == e;
        SyncedNotCreated(ctx, tickets, p, e.0);
      } else if e in created.0 {
        var j :| 0 <= j < |created.0| && created.0[j] == e;
        assert e.0 == CreateIndices(p.creates)[j] == CreateIdx(p.creates[j]);
      } else {
        var j :| 0 <= j < |updated| && updated[j] == e;
        assert e.0 == UpdateIndices(p.updates)[j] == UpdateIdx(p.updates[j]);
        SyncedNotCreated(ctx, tickets, p, e.0);
      }
    }
  }

  /** A synced ticket is never queued for creation. */
  lemma SyncedNotCreated(ctx: Context, tickets: seq<Tickets.Ticket>, p: Phase1, i: nat)
    requires Classified(ctx, tickets, p, |tickets|)
    requires i < |tickets| && Tickets.IsSynced(tickets[i])
    ensures i !in CreateIndices(p.creates)
  {
    forall j | 0 <= j < |p.creates| ensures CreateIndices(p.creates)[j] != i {
      assert CreateOk(ctx, tickets, p.creates[j]);
    }
  }

  /** A run creates issues only for tickets that had none, and the only
      change it makes to a ticket is recording the reference of the issue
      it created for it. */
  lemma SyncOnlyRecordsRefs(engine: EngineState, tickets: seq<Tickets.Ticket>, all: seq<Tickets.Ticket>,
                            replies: Replies)
    ensures var run := Sync(engine, tickets, all, replies);
            forall i :: 0 <= i < |tickets| ==>
              && (run.results[i].1.Created? ==> !Tickets.IsSynced(tickets[i]))
              && run.tickets[i] == (if run.results[i].1.Created?
                                    then tickets[i].(externalRef := Some(IssueRef(run.results[i].1.issueNumber)))
                                    else tickets[i])
  {
    var run := Sync(engine, tickets, all, replies);
    SyncEntries(engine, tickets, all, replies);
    forall i | 0 <= i < |tickets|
      ensures run.results[i].1.Created? ==> !Tickets.IsSynced(tickets[i])
      ensures run.tickets[i] == (if run.results[i].1.Created?
                                 then tickets[i].(externalRef := Some(IssueRef(run.results[i].1.issueNumber)))
                                 else tickets[i])
    {
      EntryOkRecordsRef(run.ticketToIssue, run.existing, tickets, run.tickets, run.results[i]);
    }
  }

  lemma EntryOkRecordsRef(ticketToIssue: map<string, nat>, existing: map<nat, Issues.ExistingIssue>,
                          tickets: seq<Tickets.Ticket>, written: seq<Tickets.Ticket>, e: (nat, SyncResult))
    requires EntryOk(ticketToIssue, existing, tickets, written, e)
    ensures e.1.Created? ==> !Tickets.IsSynced(tickets[e.0])
    ensures written[e.0] == (if e.1.Created? then tickets[e.0].(externalRef := Some(IssueRef(e.1.issueNumber))) else tickets[e.0])
  {
  }

  /** A run that finds every ticket synced and its issue in sync changes
      nothing and reports every ticket as skipped. */
  lemma InSyncRunSkipsAll(engine: EngineState, tickets: seq<Tickets.Ticket>, all: seq<Tickets.Ticket>,
                          replies: Replies)
    requires var run := Sync(engine, tickets, all, replies);
             forall i :: 0 <= i < |tickets| ==>
               Tickets.IsSynced(tickets[i]) && CheckUpdateNeeded(tickets[i], run.existing, run.ticketToIssue).NoChanges?
    ensures var run := Sync(engine, tickets, all, replies);
            run.summary == Summary(0, 0, |tickets|, 0) && run.tickets == tickets
  {
    var run := Sync(engine, tickets, all, replies);
    SyncEntries(engine, tickets, all, replies);
    InSyncEntriesSkip(run.ticketToIssue, run.existing, tickets, run.tickets, run.results);
  }

  /** Entries for tickets that are synced and in sync are all skips, and
      leave every ticket as it was. */
  lemma InSyncEntriesSkip(ticketToIssue: map<string, nat>, existing: map<nat, Issues.ExistingIssue>,
                          tickets: seq<Tickets.Ticket>, written: seq<Tickets.Ticket>, results: seq<(nat, SyncResult)>)
    requires |results| == |tickets| && |written| == |tickets|
    requires forall i :: 0 <= i < |tickets| ==> results[i].0 == i
    requires forall i :: 0 <= i < |tickets| ==> EntryOk(ticketToIssue, existing, tickets, written, results[i])
    requires forall i :: 0 <= i < |tickets| ==>
      Tickets.IsSynced(tickets[i]) && CheckUpdateNeeded(tickets[i], existing, ticketToIssue).NoChanges?
    ensures Tally(Outcomes(results)) == Summary(0, 0, |tickets|, 0) && written == tickets
  {
    forall i | 0 <= i < |tickets| ensures results[i].1 == Skipped("no changes") && written[i] == tickets[i] {
      assert EntryOk(ticketToIssue, existing, tickets, written, results[i]);
    }
    TallyAllSkipped(Outcomes(results));
  }
}

=== FILE: fields.dfy ===
/** The project field cache (src/sync.rs): before syncing, the Status and
    Iteration fields of the configured project are looked up once. A field
    that is missing or of the wrong kind only switches its feature off; a
    configured option or iteration that does not exist stops the sync. */
module ProjectFields {
  import opened Wrappers
  import opened Strings
  import Config

  datatype SelectOption = SelectOption(id: string, name: string)
  datatype IterationInfo = IterationInfo(id: string, title: string)

  /** The kinds of project field the set-up distinguishes. */
  datatype FieldType =
    | SingleSelect(options: seq<SelectOption>)
    | IterationField(active: seq<IterationInfo>, completed: seq<IterationInfo>)
    | OtherField

  datatype FieldInfo = FieldInfo(id: string, name: string, fieldType: FieldType)

  /** The Status field and the option id for each lowercased ticket status. */
  datatype StatusFieldCache = StatusFieldCache(fieldId: string, statusToOption: map<string, string>)

  /** The Iteration field and the iteration every new item is put in. */
  datatype IterationFieldCache = IterationFieldCache(fieldId: string, iterationId: string)

  datatype FieldsCache = FieldsCache(status: Option<StatusFieldCache>, iteration: Option<IterationFieldCache>)

  /** The iteration setting that selects the first active iteration. */
  const CURRENT: string := "@current"

  /** The first element whose name equals `name` ignoring ASCII case. */
  function FirstNamed<T>(xs: seq<T>, nameOf: T -> string, name: string): (r: Option<nat>)
    ensures r.Some? ==> r.value < |xs| && EqIgnoreAsciiCase(nameOf(xs[r.value]), name)
    ensures r.Some? ==> forall j :: 0 <= j < r.value ==> !EqIgnoreAsciiCase(nameOf(xs[j]), name)
    ensures r.None? ==> forall j :: 0 <= j < |xs| ==> !EqIgnoreAsciiCase(nameOf(xs[j]), name)
  {
    if |xs| == 0 then None
    else if Lower(nameOf(xs[0])) == Lower(name) then Some(0)
    else
      var r := FirstNamed(xs[1..], nameOf, name);
      if r.Some? then Some(r.value + 1) else None
  }

  function FieldName(f: FieldInfo): string { f.name }
  function OptionName(o: SelectOption): string { o.name }
  function IterationTitle(i: IterationInfo): string { i.title }

  /** Some option of `options` is named `name`, ignoring case. */
  predicate HasOption(options: seq<SelectOption>, name: string) {
    exists j :: 0 <= j < |options| && EqIgnoreAsciiCase(options[j].name, name)
  }

  /** The id of the first option named `name`, ignoring case, as
      `options.iter().find` picks it. */
  function OptionFor(options: seq<SelectOption>, name: string): (r: Option<string>)
    ensures r.Some? <==> HasOption(options, name)
  {
    var j := FirstNamed(options, OptionName, name);
    if j.Some? then Some(options[j.value].id) else None
  }

  /** No status after position `i` among the first `k` of the order
      lowercases to the same key, so its insert is the one that stays. */
  predicate LastWithKey(order: seq<string>, i: nat, k: nat)
    requires i < k <= |order|
  {
    forall i2 :: i < i2 < k ==> Lower(order[i2]) != Lower(order[i])
  }

  function MissingOptionError(optionName: string, ticketStatus: string, options: seq<SelectOption>): string {
    "Project status option '" + optionName + "' (for ticket status '" + ticketStatus
      + "') not found.\nAvailable options: "
      + DebugList(seq(|options|, i requires 0 <= i < |options| => options[i].name))
  }

  /** The status -> option map after the first `k` statuses of `order`:
      each status's option is found ignoring case and stored under the
      lowercased status; the first status without an option is an error. */
  function StatusMap(order: seq<string>, status: map<string, string>, options: seq<SelectOption>, k: nat)
    : (r: Result<map<string, string>>)
    requires k <= |order| && forall i :: 0 <= i < |order| ==> order[i] in status
    ensures r.Ok? <==> forall i :: 0 <= i < k ==> HasOption(options, status[order[i]])
    ensures r.Ok? ==> r.value.Keys == set i | 0 <= i < k :: Lower(order[i])
    ensures r.Ok? ==> forall key :: key in r.value ==>
      exists i :: 0 <= i < k && key == Lower(order[i]) && OptionFor(options, status[order[i]]) == Some(r.value[key])
    ensures r.Ok? ==> forall i :: 0 <= i < k && LastWithKey(order, i, k) ==>
      OptionFor(options, status[order[i]]) == Some(r.value[Lower(order[i])])
    ensures r.Err? ==> exists i :: 0 <= i < k && !HasOption(options, status[order[i]])
                                   && r.error == MissingOptionError(status[order[i]], order[i], options)
  {
    if k == 0 then Ok(map[])
    else
      var prev := StatusMap(order, status, options, k - 1);
      if prev.Err? then prev
      else
        var ts := order[k - 1];
        var found := FirstNamed(options, OptionName, status[ts]);
        if found.None? then
          assert !HasOption(options, status[ts]);
          Err(MissingOptionError(status[ts], ts, options))
        else
          var r := prev.value[Lower(ts) := options[found.value].id];
          StatusMapStep(order, status, options, k, prev.value, options[found.value].id);
          Ok(r)
  }

  /** Adding the `k`-th status with its option's id keeps every key
      justified by some status and its first option. */
  lemma StatusMapStep(order: seq<string>, status: map<string, string>, options: seq<SelectOption>, k: nat,
                      prev: map<string, string>, id: string)
    requires 0 < k <= |order| && forall i :: 0 <= i < |order| ==> order[i] in status
    requires forall i :: 0 <= i < k - 1 ==> HasOption(options, status[order[i]])
    requires prev.Keys == set i | 0 <= i < k - 1 :: Lower(order[i])
    requires forall key :: key in prev ==>
      exists i :: 0 <= i < k - 1 && key == Lower(order[i]) && OptionFor(options, status[order[i]]) == Some(prev[key])
    requires forall i :: 0 <= i < k - 1 && LastWithKey(order, i, k - 1) ==>
      OptionFor(options, status[order[i]]) == Some(prev[Lower(order[i])])
    requires OptionFor(options, status[order[k - 1]]) == Some(id)
    ensures forall i :: 0 <= i < k ==> HasOption(options, status[order[i]])
    ensures prev[Lower(order[k - 1]) := id].Keys == set i | 0 <= i < k :: Lower(order[i])
    ensures var r := prev[Lower(order[k - 1]) := id];
            forall key :: key in r ==>
              exists i :: 0 <= i < k && key == Lower(order[i]) && OptionFor(options, status[order[i]]) == Some(r[key])
    ensures var r := prev[Lower(order[k - 1]) := id];
            forall i :: 0 <= i < k && LastWithKey(order, i, k) ==>
              OptionFor(options, status[order[i]]) == Some(r[Lower(order[i])])
  {
    LoweredPrefixSnoc(order, k);
    var r := prev[Lower(order[k - 1]) := id];
    forall key | key in r
      ensures exists i :: 0 <= i < k && key == Lower(order[i]) && OptionFor(options, status[order[i]]) == Some(r[key])
    {
      if key == Lower(order[k - 1]) {
        assert r[key] == id;
      } else {
        assert key in prev && r[key] == prev[key];
      }
    }
    LastInsertWins(order, status, options, k, prev, id);
  }

  /** After inserting the `k`-th status, the last status with each key
      still has its first option's id under that key. */
  lemma LastInsertWins(order: seq<string>, status: map<string, string>, options: seq<SelectOption>, k: nat,
                       prev: map<string, string>, id: string)
    requires 0 < k <= |order| && forall i :: 0 <= i < |order| ==> order[i] in status
    requires forall i :: 0 <= i < k - 1 ==> Lower(order[i]) in prev
    requires forall i :: 0 <= i < k - 1 && LastWithKey(order, i, k - 1) ==>
      OptionFor(options, status[order[i]]) == Some(prev[Lower(order[i])])
    requires OptionFor(options, status[order[k - 1]]) == Some(id)
    ensures var r := prev[Lower(order[k - 1]) := id];
            forall i :: 0 <= i < k && LastWithKey(order, i, k) ==>
              OptionFor(options, status[order[i]]) == Some(r[Lower(order[i])])
  {
    var r := prev[Lower(order[k - 1]) := id];
    forall i | 0 <= i < k && LastWithKey(order, i, k)
      ensures OptionFor(options, status[order[i]]) == Some(r[Lower(order[i])])
    {
      if i < k - 1 {
        assert Lower(order[k - 1]) != Lower(order[i]);
        assert LastWithKey(order, i, k - 1);
      }
    }
  }

  /** The lowercased keys of the first `k` entries of the order. */
  lemma LoweredPrefixSnoc(order: seq<string>, k: nat)
    requires 0 < k <= |order|
    ensures (set i | 0 <= i < k :: Lower(order[i])) == (set i | 0 <= i < k - 1 :: Lower(order[i])) + {Lower(order[k - 1])}
  {
  }

  /** Over a full key order, the map has a key for every configured
      status. */
  lemma StatusMapCoversTable(order: seq<string>, status: map<string, string>, options: seq<SelectOption>)
    requires KeyOrder(order, status)
    ensures var m := StatusMap(order, status, options, |order|);
            m.Ok? ==> m.value.Keys == set ts | ts in status :: Lower(ts)
  {
    var keys := set i | 0 <= i < |order| :: Lower(order[i]);
    forall ts | ts in status ensures Lower(ts) in keys {
      var i :| 0 <= i < |order| && order[i] == ts;
    }
    assert keys == set ts | ts in status :: Lower(ts);
  }

  /** Over a full key order, the map fails exactly when some configured
      option is missing. */
  lemma StatusMapFailsOnMissing(order: seq<string>, status: map<string, string>, options: seq<SelectOption>)
    requires KeyOrder(order, status)
    ensures StatusMap(order, status, options, |order|).Err?
            <==> exists ts :: ts in status && !HasOption(options, status[ts])
  {
    if exists ts :: ts in status && !HasOption(options, status[ts]) {
      var ts :| ts in status && !HasOption(options, status[ts]);
      var i :| 0 <= i < |order| && order[i] == ts;
    }
  }

  /** No other configured status lowercases to the same key as `ts`. */
  predicate UniqueLowerKey(status: map<string, string>, ts: string) {
    forall other :: other in status && Lower(other) == Lower(ts) ==> other == ts
  }

  /** Over a full key order, a status whose lowercased key is unique is the
      last one with that key, whatever the order. */
  lemma UniqueKeysAreLast(order: seq<string>, status: map<string, string>)
    requires KeyOrder(order, status)
    ensures forall i :: 0 <= i < |order| && UniqueLowerKey(status, order[i]) ==> LastWithKey(order, i, |order|)
  {
    forall i | 0 <= i < |order| && UniqueLowerKey(status, order[i]) ensures LastWithKey(order, i, |order|) {
      forall i2 | i < i2 < |order| ensures Lower(order[i2]) != Lower(order[i]) {
        assert order[i2] in status && order[i2] != order[i];
      }
    }
  }

  /** `setup_status_field`. `order` is the iteration order of the
      configured status table. */
  function SetupStatusField(fields: seq<FieldInfo>, project: Config.ProjectConfig, order: seq<string>)
    : (r: Result<Option<StatusFieldCache>>)
    requires KeyOrder(order, project.status)
    ensures FirstNamed(fields, FieldName, project.statusField).None? ==> r == Ok(None)
    ensures var f := FirstNamed(fields, FieldName, project.statusField);
            f.Some? && !fields[f.value].fieldType.SingleSelect? ==> r == Ok(None)
    ensures var f := FirstNamed(fields, FieldName, project.statusField);
            f.Some? && fields[f.value].fieldType.SingleSelect? ==>
              (r.Err? <==> exists ts :: ts in project.status
                                       && !HasOption(fields[f.value].fieldType.options, project.status[ts]))
    ensures r.Ok? && r.value.Some? ==>
      var f := FirstNamed(fields, FieldName, project.statusField);
      f.Some? && r.value.value.fieldId == fields[f.value].id
      && r.value.value.statusToOption.Keys == set ts | ts in project.status :: Lower(ts)
    ensures r.Ok? && r.value.Some? ==>
      var f := FirstNamed(fields, FieldName, project.statusField);
      var m := r.value.value.statusToOption;
      && f.Some? && fields[f.value].fieldType.SingleSelect?
      && (forall i :: 0 <= i < |order| && LastWithKey(order, i, |order|) ==>
            OptionFor(fields[f.value].fieldType.options, project.status[order[i]]) == Some(m[Lower(order[i])]))
      && (forall ts :: ts in project.status && UniqueLowerKey(project.status, ts) ==>
            OptionFor(fields[f.value].fieldType.options, project.status[ts]) == Some(m[Lower(ts)]))
  {
    var f := FirstNamed(fields, FieldName, project.statusField);
    if f.None? then Ok(None)
    else
      var field := fields[f.value];
      if !field.fieldType.SingleSelect? then Ok(None)
      else
        var m := StatusMap(order, project.status, field.fieldType.options, |order|);
        StatusMapCoversTable(order, project.status, field.fieldType.options);
        StatusMapFailsOnMissing(order, project.status, field.fieldType.options);
        UniqueKeysAreLast(order, project.status);
        match m
        case Err(e) => Err(e)
        case Ok(statusToOption) => Ok(Some(StatusFieldCache(field.id, statusToOption)))
  }

  function MissingIterationError(setting: string, active: seq<IterationInfo>): string {
    "Iteration '" + setting + "' not found.\nAvailable active iterations: "
      + DebugList(seq(|active|, i requires 0 <= i < |active| => active[i].title))
  }

  /** `setup_iteration_field`: `@current` takes the first active
      iteration; any other setting names an active iteration, ignoring
      case. Completed iterations are never chosen. */
  function SetupIterationField(fields: seq<FieldInfo>, project: Config.ProjectConfig)
    : (r: Result<Option<IterationFieldCache>>)
    ensures project.iteration.None? ==> r == Ok(None)
    ensures FirstNamed(fields, FieldName, project.iterationField).None? ==> r == Ok(None)
    ensures var f := FirstNamed(fields, FieldName, project.iterationField);
            f.Some? && !fields[f.value].fieldType.IterationField? ==> r == Ok(None)
    ensures r.Ok? && r.value.Some? ==>
      var f := FirstNamed(fields, FieldName, project.iterationField);
      && f.Some? && fields[f.value].fieldType.IterationField?
      && r.value.value.fieldId == fields[f.value].id
      && exists i :: 0 <= i < |fields[f.value].fieldType.active|
                     && r.value.value.iterationId == fields[f.value].fieldType.active[i].id
    ensures r.Err? ==> project.iteration.Some? && project.iteration.value != CURRENT
  {
    if project.iteration.None? then Ok(None)
    else
      var setting := project.iteration.value;
      var f := FirstNamed(fields, FieldName, project.iterationField);
      if f.None? then Ok(None)
      else
        var field := fields[f.value];
        if !field.fieldType.IterationField? then Ok(None)
        else
          var active := field.fieldType.active;
          if setting == CURRENT then
            if |active| == 0 then Ok(None) else Ok(Some(IterationFieldCache(field.id, active[0].id)))
          else
            var found := FirstNamed(active, IterationTitle, setting);
            if found.None? then Err(MissingIterationError(setting, active))
            else Ok(Some(IterationFieldCache(field.id, active[found.value].id)))
  }

  /** `@current` picks the first active iteration, or nothing when no
      iteration is active. */
  lemma CurrentIsFirstActive(fields: seq<FieldInfo>, project: Config.ProjectConfig, k: nat)
    requires project.iteration == Some(CURRENT)
    requires FirstNamed(fields, FieldName, project.iterationField) == Some(k)
    requires fields[k].fieldType.IterationField?
    ensures |fields[k].fieldType.active| == 0 ==> SetupIterationField(fields, project) == Ok(None)
    ensures |fields[k].fieldType.active| > 0 ==>
      SetupIterationField(fields, project)
        == Ok(Some(IterationFieldCache(fields[k].id, fields[k].fieldType.active[0].id)))
  {
  }

  /** A named iteration is found among the active ones ignoring case, and
      one that is not active is an error even when a completed iteration
      has that title. */
  lemma NamedIterationActiveOnly(fields: seq<FieldInfo>, project: Config.ProjectConfig, k: nat)
    requires project.iteration.Some? && project.iteration.value != CURRENT
    requires FirstNamed(fields, FieldName, project.iterationField) == Some(k)
    requires fields[k].fieldType.IterationField?
    ensures var active := fields[k].fieldType.active;
            SetupIterationField(fields, project).Err?
            <==> forall i :: 0 <= i < |active| ==> !EqIgnoreAsciiCase(active[i].title, project.iteration.value)
    ensures SetupIterationField(fields, project).Err? ==>
      SetupIterationField(fields, project).error
        == MissingIterationError(project.iteration.value, fields[k].fieldType.active)
  {
  }

  /** Swapping the completed iterations changes nothing. */
  lemma CompletedIterationsIgnored(fields: seq<FieldInfo>, project: Config.ProjectConfig, k: nat,
                                   completed: seq<IterationInfo>)
    requires k < |fields| && fields[k].fieldType.IterationField?
    ensures var other := fields[k := fields[k].(fieldType := fields[k].fieldType.(completed := completed))];
            SetupIterationField(other, project) == SetupIterationField(fields, project)
  {
    var other := fields[k := fields[k].(fieldType := fields[k].fieldType.(completed := completed))];
    FirstNamedSameNames(fields, other, project.iterationField);
  }

  /** Field lookup depends on the names only. */
  lemma {:induction false} FirstNamedSameNames(xs: seq<FieldInfo>, ys: seq<FieldInfo>, name: string)
    requires |xs| == |ys| && forall i :: 0 <= i < |xs| ==> xs[i].name == ys[i].name
    ensures FirstNamed(xs, FieldName, name) == FirstNamed(ys, FieldName, name)
  {
    if |xs| > 0 {
      FirstNamedSameNames(xs[1..], ys[1..], name);
    }
  }

  /** `setup_project_fields`: nothing is fetched when neither a status
      mapping nor an iteration is configured; a failed fetch or a failed
      field set-up stops the sync (status first); a cache is kept only
      when at least one of the two fields is usable. */
  function SetupProjectFields(project: Config.ProjectConfig, fieldsReply: Result<seq<FieldInfo>>, order: seq<string>)
    : (r: Result<Option<FieldsCache>>)
    requires KeyOrder(order, project.status)
    ensures |project.status| == 0 && project.iteration.None? ==> r == Ok(None)
    ensures (|project.status| > 0 || project.iteration.Some?) && fieldsReply.Err? ==> r == Err(fieldsReply.error)
    ensures r.Ok? && r.value.Some? ==>
      var c := r.value.value;
      && (c.status.Some? || c.iteration.Some?)
      && (c.status.Some? ==> |project.status| > 0)
      && (c.iteration.Some? ==> project.iteration.Some?)
    ensures r.Err? && fieldsReply.Ok? && |project.status| > 0 ==>
      SetupStatusField(fieldsReply.value, project, order).Err? || SetupIterationField(fieldsReply.value, project).Err?
    ensures fieldsReply.Ok? && |project.status| > 0 && SetupStatusField(fieldsReply.value, project, order).Err? ==>
      r == Err(SetupStatusField(fieldsReply.value, project, order).error)
    ensures fieldsReply.Ok? && (|project.status| == 0 || SetupStatusField(fieldsReply.value, project, order).Ok?)
            && SetupIterationField(fieldsReply.value, project).Err? ==>
      r == Err(SetupIterationField(fieldsReply.value, project).error)
    ensures r.Ok? && r.value.Some? ==>
      && fieldsReply.Ok?
      && r.value.value.iteration == SetupIterationField(fieldsReply.value, project).value
      && (|project.status| > 0 ==> r.value.value.status == SetupStatusField(fieldsReply.value, project, order).value)
    ensures fieldsReply.Ok? && (|project.status| > 0 ==> SetupStatusField(fieldsReply.value, project, order).Ok?)
            && SetupIterationField(fieldsReply.value, project).Ok? ==>
      && r.Ok?
      && (r.value.Some? <==> (|project.status| > 0 && SetupStatusField(fieldsReply.value, project, order).value.Some?)
                             || SetupIterationField(fieldsReply.value, project).value.Some?)
  {
    if |project.status| == 0 && project.iteration.None? then Ok(None)
    else
      match fieldsReply
      case Err(e) => Err(e)
      case Ok(fields) =>
        var status := if |project.status| > 0 then SetupStatusField(fields, project, order) else Ok(None);
        if status.Err? then Err(status.error)
        else
          var iteration := if project.iteration.Some? then SetupIterationField(fields, project) else Ok(None);
          if iteration.Err? then Err(iteration.error)
          else if status.value.Some? || iteration.value.Some? then Ok(Some(FieldsCache(status.value, iteration.value)))
          else Ok(None)
  }
}

=== FILE: issues.dfy ===
/** Issue operations of the GitHub client (src/github/issues.rs): the
    batched create / update / fetch / close / reopen requests and the
    demultiplexing of their flat alias-keyed responses, label lookup or
    creation, and the label colour hash. Each network reply is a parameter. */
module Issues {
  import opened Wrappers
  import opened Strings
  import opened Numerals
  import Json
  import Batch

  /** What a create or update returns for one issue. */
  datatype IssueInfo = IssueInfo(id: string, number: nat, url: string)

  /** An issue fetched at the start of a sync. `state` is `OPEN` or `CLOSED`. */
  datatype ExistingIssue = ExistingIssue(id: string, number: nat, title: string, body: string, state: string, url: string)

  /** One issue to create. */
  datatype IssueCreate = IssueCreate(title: string, body: string, labelIds: seq<string>, issueTypeId: Option<string>)

  /** One issue to update (by node id). */
  datatype IssueUpdate = IssueUpdate(issueId: string, title: string, body: string, issueTypeId: Option<string>)

  datatype LabelInfo = LabelInfo(id: string, name: string)

  function StrArray(xs: seq<string>): Json.Value {
    Json.Arr(seq(|xs|, i requires 0 <= i < |xs| => Json.Str(xs[i])))
  }

  // ---------------------------------------------------------------------
  // Batched create

  /** The `CreateIssueInput` of one item: repository, title and body always;
      `assigneeIds` only when assignees are given and non-empty; `labelIds`
      only when the item has labels. */
  function CreateInput(repoId: string, c: IssueCreate, assignees: Option<seq<string>>): (v: Json.Value)
    ensures v.Obj?
    ensures v.fields.Keys - {"assigneeIds", "labelIds"} == {"repositoryId", "title", "body"}
    ensures v.fields["repositoryId"] == Json.Str(repoId)
    ensures v.fields["title"] == Json.Str(c.title) && v.fields["body"] == Json.Str(c.body)
    ensures "labelIds" in v.fields <==> |c.labelIds| > 0
    ensures "labelIds" in v.fields ==> v.fields["labelIds"] == StrArray(c.labelIds)
    ensures "assigneeIds" in v.fields <==> assignees.Some? && |assignees.value| > 0
    ensures "assigneeIds" in v.fields ==> v.fields["assigneeIds"] == StrArray(assignees.value)
  {
    var base := map["repositoryId" := Json.Str(repoId), "title" := Json.Str(c.title), "body" := Json.Str(c.body)];
    var withAssignees :=
      if assignees.Some? && |assignees.value| > 0 then base["assigneeIds" := StrArray(assignees.value)] else base;
    var withLabels :=
      if |c.labelIds| > 0 then withAssignees["labelIds" := StrArray(c.labelIds)] else withAssignees;
    Json.Obj(withLabels)
  }

  /** `{ issue { id number url } }` read from one alias of a response. */
  function ReadIssueInfo(data: Option<Json.Value>): (r: Option<IssueInfo>)
    ensures r.Some? <==>
      var issue := Json.Then(data, "issue");
      Json.AsStr(Json.Then(issue, "id")).Some? && Json.AsU64(Json.Then(issue, "number")).Some?
      && Json.AsStr(Json.Then(issue, "url")).Some?
  {
    var issue := Json.Then(data, "issue");
    var id := Json.AsStr(Json.Then(issue, "id"));
    var number := Json.AsU64(Json.Then(issue, "number"));
    var url := Json.AsStr(Json.Then(issue, "url"));
    if id.Some? && number.Some? && url.Some? then Some(IssueInfo(id.value, number.value, url.value)) else None
  }

  /** The sub-result GitHub sends for one created or updated issue. */
  function IssuePayload(info: IssueInfo): Json.Value {
    Json.Obj(map["issue" := Json.Obj(map[
      "id" := Json.Str(info.id), "number" := Json.Num(info.number), "url" := Json.Str(info.url)])])
  }

  lemma ReadIssuePayload(info: IssueInfo)
    requires info.number < U64_LIMIT
    ensures ReadIssueInfo(Some(IssuePayload(info))) == Some(info)
  {
  }

  /** Per-item results of a batched create, read from aliases `create_<i>`:
      `Ok` when the alias carries an issue with id, number and url, else
      `Err("Failed to create issue <i>")`. */
  function DemuxCreates(resp: Json.Response, n: nat): (r: seq<Result<IssueInfo>>)
    ensures |r| == n
  {
    seq(n, i requires 0 <= i < n =>
      var info := ReadIssueInfo(Json.Lookup(resp, Batch.Alias("create", i)));
      if info.Some? then Ok(info.value) else Err("Failed to create issue " + NatToString(i)))
  }

  /** The request of a batched create: alias `create_<i>` and variable
      `input_<i>` bound to the i-th item's input. */
  function CreateRequest(repoId: string, creates: seq<IssueCreate>, assignees: Option<seq<string>>)
    : (r: Option<Batch.Request>)
    ensures r.None? <==> |creates| == 0
    ensures r.Some? ==> r.value.aliases == Batch.Aliases("create", |creates|)
    ensures r.Some? ==> forall i :: 0 <= i < |creates| ==>
      Batch.VarName(i) in r.value.variables
      && r.value.variables[Batch.VarName(i)] == CreateInput(repoId, creates[i], assignees)
  {
    var inputs := seq(|creates|, i requires 0 <= i < |creates| => CreateInput(repoId, creates[i], assignees));
    Batch.Plan("create", "createIssue", inputs)
  }

  /** `create_issues_batch`: empty input sends nothing and returns an empty
      list; otherwise one request with one aliased `createIssue` per item,
      and a whole-request failure is passed on unchanged. */
  function CreateIssuesBatch(repoId: string, creates: seq<IssueCreate>, assignees: Option<seq<string>>,
                             reply: Result<Json.Response>): (c: Batch.Call<seq<Result<IssueInfo>>>)
    ensures |creates| == 0 ==> c == Batch.Call(None, Ok([]))
    ensures c.request == CreateRequest(repoId, creates, assignees)
    ensures |creates| > 0 && reply.Err? ==> c.result == Err(reply.error)
    ensures reply.Ok? ==> c.result.Ok?
    ensures c.result.Ok? ==> |c.result.value| == |creates|
    ensures reply.Ok? ==> forall i {:trigger Batch.Alias("create", i)} :: 0 <= i < |creates| ==>
      var info := ReadIssueInfo(Json.Lookup(reply.value, Batch.Alias("create", i)));
      var item := c.result.value[i];
      (item.Ok? <==> info.Some?)
      && (item.Ok? ==> Some(item.value) == info)
      && (item.Err? ==> item.error == "Failed to create issue " + NatToString(i))
  {
    if |creates| == 0 then Batch.Call(None, Ok([]))
    else
      var request := CreateRequest(repoId, creates, assignees);
      match reply
      case Err(e) => Batch.Call(request, Err(e))
      case Ok(resp) => Batch.Call(request, Ok(DemuxCreates(resp, |creates|)))
  }

  /** When every alias of the response carries its issue, the batch reports
      exactly those issues, in input order. */
  lemma CreateRoundTrip(repoId: string, creates: seq<IssueCreate>, assignees: Option<seq<string>>,
                        infos: seq<IssueInfo>)
    requires |infos| == |creates|
    requires forall k :: 0 <= k < |infos| ==> infos[k].number < U64_LIMIT
    ensures CreateIssuesBatch(repoId, creates, assignees, Ok(ResponseOf("create", infos))).result
            == Ok(seq(|infos|, i requires 0 <= i < |infos| => Ok(infos[i])))
  {
    var resp := ResponseOf("create", infos);
    var c := CreateIssuesBatch(repoId, creates, assignees, Ok(resp));
    forall i | 0 <= i < |infos| ensures c.result.value[i] == Ok(infos[i]) {
      assert Batch.Alias("create", i) in resp;
      ReadIssuePayload(infos[i]);
    }
    assert c.result.value == seq(|infos|, i requires 0 <= i < |infos| => Ok(infos[i]));
  }

  /** An alias-keyed response `<prefix>_<i>` -> the payload of item i. */
  function ResponseOf(prefix: string, infos: seq<IssueInfo>): (resp: Json.Response)
    ensures forall i :: 0 <= i < |infos| ==>
      Batch.Alias(prefix, i) in resp && resp[Batch.Alias(prefix, i)] == IssuePayload(infos[i])
  {
    forall i, j | 0 <= i < |infos| && 0 <= j < |infos| && Batch.Alias(prefix, i) == Batch.Alias(prefix, j)
      ensures i == j
    {
      Batch.AliasInjective(prefix, i, j);
    }
    map i | 0 <= i < |infos| :: Batch.Alias(prefix, i) := IssuePayload(infos[i])
  }

  /** A create whose alias is absent from the response fails alone. */
  lemma CreateMissingAliasFails(repoId: string, creates: seq<IssueCreate>, assignees: Option<seq<string>>,
                                resp: Json.Response, i: nat)
    requires i < |creates| && Batch.Alias("create", i) !in resp
    ensures CreateIssuesBatch(repoId, creates, assignees, Ok(resp)).result.value[i]
            == Err("Failed to create issue " + NatToString(i))
  {
  }

  // ---------------------------------------------------------------------
  // Batched update

  /** The `UpdateIssueInput` of one item. */
  function UpdateInput(u: IssueUpdate): (v: Json.Value)
    ensures v.Obj? && v.fields.Keys == {"id", "title", "body"}
    ensures v.fields["id"] == Json.Str(u.issueId)
  {
    Json.Obj(map["id" := Json.Str(u.issueId), "title" := Json.Str(u.title), "body" := Json.Str(u.body)])
  }

  /** The result for update item `i`, read from alias `update_<i>`. */
  function UpdateItem(resp: Json.Response, updates: seq<IssueUpdate>, i: nat): Result<IssueInfo>
    requires i < |updates|
  {
    var info := ReadIssueInfo(Json.Lookup(resp, Batch.Alias("update", i)));
    if info.Some? then Ok(info.value) else Err("Failed to update issue " + updates[i].issueId)
  }

  /** The index of the last of the first `k` updates that targets `id`. */
  predicate IsLastFor(updates: seq<IssueUpdate>, k: nat, i: nat)
    requires k <= |updates|
  {
    i < k && forall j :: i < j < k ==> updates[j].issueId != updates[i].issueId
  }

  /** The result map after inserting the results of the first `k` updates
      in input order (a later item with the same issue id overwrites). */
  function DemuxUpdates(resp: Json.Response, updates: seq<IssueUpdate>, k: nat): (r: map<string, Result<IssueInfo>>)
    requires k <= |updates|
    ensures r.Keys == set i | 0 <= i < k :: updates[i].issueId
    ensures forall i :: 0 <= i < k && IsLastFor(updates, k, i) ==>
      r[updates[i].issueId] == UpdateItem(resp, updates, i)
  {
    if k == 0 then map[]
    else
      var prev := DemuxUpdates(resp, updates, k - 1);
      var r := prev[updates[k - 1].issueId := UpdateItem(resp, updates, k - 1)];
      assert forall i :: 0 <= i < k - 1 && IsLastFor(updates, k, i) ==> IsLastFor(updates, k - 1, i);
      r
  }

  /** The request of a batched update: alias `update_<i>` and variable
      `input_<i>` bound to the i-th item's input. */
  function UpdateRequest(updates: seq<IssueUpdate>): (r: Option<Batch.Request>)
    ensures r.None? <==> |updates| == 0
    ensures r.Some? ==> r.value.aliases == Batch.Aliases("update", |updates|)
    ensures r.Some? ==> forall i :: 0 <= i < |updates| ==>
      Batch.VarName(i) in r.value.variables && r.value.variables[Batch.VarName(i)] == UpdateInput(updates[i])
  {
    var inputs := seq(|updates|, i requires 0 <= i < |updates| => UpdateInput(updates[i]));
    Batch.Plan("update", "updateIssue", inputs)
  }

  /** `update_issues_batch`: empty input sends nothing and returns an empty
      map; otherwise the map has an entry for every input issue id, holding
      what the alias of the last item with that id carries. */
  function UpdateIssuesBatch(updates: seq<IssueUpdate>, reply: Result<Json.Response>): (c: Batch.Call<map<string, Result<IssueInfo>>>)
    ensures |updates| == 0 ==> c == Batch.Call(None, Ok(map[]))
    ensures |updates| > 0 ==> c.request.Some? && c.request.value.aliases == Batch.Aliases("update", |updates|)
    ensures c.request == UpdateRequest(updates)
    ensures |updates| > 0 && reply.Err? ==> c.result == Err(reply.error)
    ensures |updates| > 0 && reply.Ok? ==> c.result == Ok(DemuxUpdates(reply.value, updates, |updates|))
    ensures c.result.Ok? ==> c.result.value.Keys == set i | 0 <= i < |updates| :: updates[i].issueId
  {
    if |updates| == 0 then Batch.Call(None, Ok(map[]))
    else
      var request := UpdateRequest(updates);
      match reply
      case Err(e) => Batch.Call(request, Err(e))
      case Ok(resp) => Batch.Call(request, Ok(DemuxUpdates(resp, updates, |updates|)))
  }

  /** With distinct issue ids, each id maps to the result of its own alias. */
  lemma UpdateEntryPerItem(resp: Json.Response, updates: seq<IssueUpdate>, i: nat)
    requires i < |updates|
    requires forall a, b :: 0 <= a < b < |updates| ==> updates[a].issueId != updates[b].issueId
    ensures DemuxUpdates(resp, updates, |updates|)[updates[i].issueId] == UpdateItem(resp, updates, i)
  {
    assert IsLastFor(updates, |updates|, i);
  }

  // ---------------------------------------------------------------------
  // Batched fetch

  /** The alias of issue `n` in the batched fetch: the number, not the index. */
  function IssueAlias(n: nat): string {
    "issue_" + NatToString(n)
  }

  /** `issue_<n>` read from the repository object: present only when the
      alias is non-null and all five string fields are there. */
  function ReadExisting(repo: Json.Value, n: nat): (r: Option<ExistingIssue>)
    ensures r.Some? ==> r.value.number == n
    ensures r.Some? ==> Json.Get(repo, IssueAlias(n)).Some? && Json.Get(repo, IssueAlias(n)).value != Json.Null
  {
    var data := Json.Get(repo, IssueAlias(n));
    if data.None? || data.value == Json.Null then None
    else
      var id := Json.AsStr(Json.Then(data, "id"));
      var title := Json.AsStr(Json.Then(data, "title"));
      var body := Json.AsStr(Json.Then(data, "body"));
      var state := Json.AsStr(Json.Then(data, "state"));
      var url := Json.AsStr(Json.Then(data, "url"));
      if id.Some? && title.Some? && body.Some? && state.Some? && url.Some? then
        Some(ExistingIssue(id.value, n, title.value, body.value, state.value, url.value))
      else None
  }

  /** Collects the issues found among `numbers[..k]`. */
  function CollectExisting(repo: Json.Value, numbers: seq<nat>, k: nat): (r: map<nat, ExistingIssue>)
    requires k <= |numbers|
    ensures forall n :: n in r <==> (exists i :: 0 <= i < k && numbers[i] == n) && ReadExisting(repo, n).Some?
    ensures forall n :: n in r ==> r[n] == ReadExisting(repo, n).value
  {
    if k == 0 then map[]
    else
      var prev := CollectExisting(repo, numbers, k - 1);
      var e := ReadExisting(repo, numbers[k - 1]);
      if e.Some? then prev[numbers[k - 1] := e.value] else prev
  }

  /** `get_issues_batch`: one query with an alias per number; the result is
      keyed by the requested numbers, each entry carrying its own number. */
  function GetIssuesBatch(numbers: seq<nat>, reply: Result<Json.Value>): (c: Batch.Call<map<nat, ExistingIssue>>)
    ensures |numbers| == 0 ==> c == Batch.Call(None, Ok(map[]))
    ensures |numbers| > 0 ==>
      (c.request.Some? && c.request.value.aliases == seq(|numbers|, i requires 0 <= i < |numbers| => IssueAlias(numbers[i])))
    ensures |numbers| > 0 && reply.Err? ==> c.result == Err(reply.error)
    ensures c.result.Ok? ==> forall n :: n in c.result.value ==> n in numbers && c.result.value[n].number == n
    ensures |numbers| > 0 && reply.Ok? ==>
      c.result == Ok(if Json.Get(reply.value, "repository").None? then map[]
                     else CollectExisting(Json.Get(reply.value, "repository").value, numbers, |numbers|))
  {
    if |numbers| == 0 then Batch.Call(None, Ok(map[]))
    else
      var request := Batch.Request("issue", seq(|numbers|, i requires 0 <= i < |numbers| => IssueAlias(numbers[i])), map[]);
      match reply
      case Err(e) => Batch.Call(Some(request), Err(e))
      case Ok(data) =>
        var repo := Json.Get(data, "repository");
        if repo.None? then Batch.Call(Some(request), Ok(map[]))
        else Batch.Call(Some(request), Ok(CollectExisting(repo.value, numbers, |numbers|)))
  }

  // ---------------------------------------------------------------------
  // Batched close / reopen

  function IssueIdInput(id: string): Json.Value {
    Json.Obj(map["issueId" := Json.Str(id)])
  }

  /** The request of a batched close or reopen: alias `<prefix>_<i>` and
      variable `input_<i>` bound to `{issueId: ids[i]}`. */
  function StateRequest(prefix: string, field: string, ids: seq<string>): (r: Option<Batch.Request>)
    ensures r.None? <==> |ids| == 0
    ensures r.Some? ==> r.value.field == field && r.value.aliases == Batch.Aliases(prefix, |ids|)
    ensures r.Some? ==> forall i :: 0 <= i < |ids| ==>
      Batch.VarName(i) in r.value.variables && r.value.variables[Batch.VarName(i)] == IssueIdInput(ids[i])
  {
    Batch.Plan(prefix, field, seq(|ids|, i requires 0 <= i < |ids| => IssueIdInput(ids[i])))
  }

  /** `close_issues_batch` (prefix `close`) and `reopen_issues_batch`
      (prefix `reopen`): nothing is sent for an empty list; otherwise the
      whole-request outcome is the result. */
  function StateBatch(prefix: string, field: string, ids: seq<string>, reply: Outcome): (c: Batch.Call<()>)
    ensures |ids| == 0 <==> c.request.None?
    ensures c.request == StateRequest(prefix, field, ids)
    ensures |ids| == 0 ==> c.result == Ok(())
    ensures |ids| > 0 ==> (c.result.Ok? <==> reply.Pass?)
    ensures |ids| > 0 && reply.Fail? ==> c.result.error == reply.error
  {
    if |ids| == 0 then Batch.Call(None, Ok(()))
    else
      var request := StateRequest(prefix, field, ids);
      match reply
      case Pass => Batch.Call(request, Ok(()))
      case Fail(e) => Batch.Call(request, Err(e))
  }

  // ---------------------------------------------------------------------
  // Labels

  type Byte = b: int | 0 <= b < 256

  /** UTF-8 encoding of one scalar value (Rust `str::bytes`). */
  function Utf8(c: char): (bs: seq<Byte>)
    ensures 1 <= |bs| <= 4
    ensures (c as int) < 0x80 ==> bs == [c as int]
  {
    var v := c as int;
    if v < 0x80 then [v]
    else if v < 0x800 then [0xC0 + v / 64, 0x80 + v % 64]
    else if v < 0x10000 then [0xE0 + v / 4096, 0x80 + (v / 64) % 64, 0x80 + v % 64]
    else [0xF0 + v / 262144, 0x80 + (v / 4096) % 64, 0x80 + (v / 64) % 64, 0x80 + v % 64]
  }

  function Bytes(s: string): (bs: seq<Byte>)
    ensures |bs| >= |s|
  {
    if |s| == 0 then [] else Utf8(s[0]) + Bytes(s[1..])
  }

  const U32_LIMIT: nat := 0x1_0000_0000

  /** One step of the fold: `acc.wrapping_add(b).wrapping_mul(31)` on `u32`. */
  function HashStep(acc: nat, b: Byte): (r: nat)
    requires acc < U32_LIMIT
    ensures r < U32_LIMIT
  {
    ((acc + b) % U32_LIMIT * 31) % U32_LIMIT
  }

  function HashFold(acc: nat, bs: seq<Byte>): (r: nat)
    requires acc < U32_LIMIT
    ensures r < U32_LIMIT
    decreases |bs|
  {
    if |bs| == 0 then acc else HashFold(HashStep(acc, bs[0]), bs[1..])
  }

  /** A byte of the hash folded into a muted channel value. */
  function Channel(h: nat, shift: nat): (v: nat)
    requires shift > 0
    ensures 40 <= v < 220
  {
    (h / shift) % 256 % 180 + 40
  }

  /** The colour of a hash value: red, green and blue from its third,
      second and first byte. */
  function ColorOfHash(h: nat): (color: string)
    ensures |color| == 6
    ensures forall i :: 0 <= i < 6 ==> IsLowerHexDigit(color[i])
    ensures forall k :: k in {0, 2, 4} ==> 40 <= HexValue(color[k]) * 16 + HexValue(color[k + 1]) <= 219
  {
    Hex2(Channel(h, 65536)) + Hex2(Channel(h, 256)) + Hex2(Channel(h, 1))
  }

  /** `generate_label_color`: six lowercase hex digits, red, green and blue
      each drawn from one byte of the name hash and kept within [40, 219]. */
  function GenerateLabelColor(name: string): (color: string)
    ensures |color| == 6
    ensures forall i :: 0 <= i < 6 ==> IsLowerHexDigit(color[i])
    ensures forall k :: k in {0, 2, 4} ==> 40 <= HexValue(color[k]) * 16 + HexValue(color[k + 1]) <= 219
  {
    ColorOfHash(HashFold(0, Bytes(name)))
  }

  /** ASCII text hashes its character codes. */
  lemma {:induction false} BytesOfAscii(s: string)
    requires forall i :: 0 <= i < |s| ==> (s[i] as int) < 0x80
    ensures Bytes(s) == seq(|s|, i requires 0 <= i < |s| => s[i] as int)
  {
    if |s| > 0 {
      var tail := s[1..];
      forall i | 0 <= i < |tail| ensures (tail[i] as int) < 0x80 {
        assert tail[i] == s[i + 1];
      }
      BytesOfAscii(tail);
      var codes := seq(|s|, i requires 0 <= i < |s| => s[i] as int);
      assert codes == [s[0] as int] + seq(|tail|, i requires 0 <= i < |tail| => tail[i] as int);
    }
  }

  lemma BugHash()
    ensures HashFold(0, Bytes("bug")) == 3035148
  {
    BytesOfAscii("bug");
    var bs: seq<Byte> := [98, 117, 103];
    assert Bytes("bug") == bs;
    assert HashStep(0, 98) == 3038;
    assert HashStep(3038, 117) == 97805;
    assert HashStep(97805, 103) == 3035148;
    assert HashFold(3035148, bs[3..]) == 3035148;
  }

  lemma FeatureBytes()
    ensures Bytes("feature") == [102, 101, 97, 116, 117, 114, 101]
  {
    BytesOfAscii("feature");
  }

  lemma FeatureHash()
    ensures HashFold(0, Bytes("feature")) == 4004307914
  {
    FeatureBytes();
    var bs: seq<Byte> := [102, 101, 97, 116, 117, 114, 101];
    assert HashStep(0, 102) == 3162;
    assert HashStep(3162, 101) == 101153;
    assert HashStep(101153, 97) == 3138750;
    assert HashStep(3138750, 116) == 97304846;
    assert HashStep(97304846, 117) == 3016453853;
    assert HashStep(3016453853, 114) == 3315759761;
    assert HashStep(3315759761, 101) == 4004307914;
    assert HashFold(4004307914, bs[7..]) == 4004307914;
  }

  lemma BugColor()
    ensures GenerateLabelColor("bug") == "567834"
  {
    BugHash();
    BugChannelValues();
    BugHexPairs();
  }

  lemma BugChannelValues()
    ensures Channel(3035148, 65536) == 86 && Channel(3035148, 256) == 120 && Channel(3035148, 1) == 52
  {
    assert 3035148 / 65536 == 46;
    assert 3035148 / 256 == 11856 && 11856 % 256 == 80;
    assert 3035148 % 256 == 12;
  }

  lemma BugHexPairs()
    ensures Hex2(86) + Hex2(120) + Hex2(52) == "567834"
  {
    assert Hex2(86) == "56" && Hex2(120) == "78" && Hex2(52) == "34";
  }

  lemma FeatureChannelValues()
    ensures Channel(4004307914, 65536) == 212 && Channel(4004307914, 256) == 87 && Channel(4004307914, 1) == 62
  {
    assert 4004307914 / 65536 == 61100 && 61100 % 256 == 172;
    assert 4004307914 / 256 == 15641827 && 15641827 % 256 == 227;
    assert 4004307914 % 256 == 202;
  }

  lemma FeatureHexPairs()
    ensures Hex2(212) + Hex2(87) + Hex2(62) == "d4573e"
  {
    assert Hex2(212) == "d4" && Hex2(87) == "57" && Hex2(62) == "3e";
  }

  lemma FeatureChannels()
    ensures ColorOfHash(4004307914) == "d4573e"
  {
    FeatureChannelValues();
    FeatureHexPairs();
  }

  lemma FeatureColor()
    ensures GenerateLabelColor("feature") == "d4573e"
  {
    FeatureHash();
    FeatureChannels();
  }

  /** The colours the label tests compare: the same name always gets the
      same colour, and `bug` and `feature` get different ones. */
  lemma BugAndFeatureColorsDiffer()
    ensures GenerateLabelColor("bug") != GenerateLabelColor("feature")
  {
    BugColor();
    FeatureColor();
    assert "567834"[0] != "d4573e"[0];
  }

  /** The first label whose name equals `name` ignoring ASCII case. */
  function FindLabel(labels: seq<LabelInfo>, name: string): (r: Option<nat>)
    ensures r.Some? ==> r.value < |labels| && EqIgnoreAsciiCase(labels[r.value].name, name)
    ensures r.Some? ==> forall j :: 0 <= j < r.value ==> !EqIgnoreAsciiCase(labels[j].name, name)
    ensures r.None? ==> forall j :: 0 <= j < |labels| ==> !EqIgnoreAsciiCase(labels[j].name, name)
  {
    if |labels| == 0 then None
    else if EqIgnoreAsciiCase(labels[0].name, name) then Some(0)
    else
      var r := FindLabel(labels[1..], name);
      if r.Some? then Some(r.value + 1) else None
  }

  /** The outcome of `get_or_create_label` with the label creation the
      call performs, if any (`(name, colour)`). */
  datatype LabelLookup = LabelLookup(created: Option<(string, string)>, result: Result<Option<string>>)

  /** `get_or_create_label`: an existing label (matched ignoring ASCII case)
      is returned without creating anything; a missing one is created with
      the generated colour only when `createIfMissing`, else `None`. */
  function GetOrCreateLabel(labelsReply: Result<seq<LabelInfo>>, name: string, createIfMissing: bool,
                            createReply: Result<LabelInfo>): (r: LabelLookup)
    ensures labelsReply.Err? ==> r == LabelLookup(None, Err(labelsReply.error))
    ensures labelsReply.Ok? && FindLabel(labelsReply.value, name).Some? ==>
      r == LabelLookup(None, Ok(Some(labelsReply.value[FindLabel(labelsReply.value, name).value].id)))
    ensures labelsReply.Ok? && FindLabel(labelsReply.value, name).None? && !createIfMissing ==>
      r == LabelLookup(None, Ok(None))
    ensures r.created.Some? <==> labelsReply.Ok? && FindLabel(labelsReply.value, name).None? && createIfMissing
    ensures r.created.Some? ==> r.created.value == (name, GenerateLabelColor(name))
    ensures r.created.Some? ==> (r.result.Ok? <==> createReply.Ok?)
    ensures r.created.Some? && createReply.Ok? ==> r.result == Ok(Some(createReply.value.id))
    ensures r.created.Some? && createReply.Err? ==> r.result == Err(createReply.error)
  {
    match labelsReply
    case Err(e) => LabelLookup(None, Err(e))
    case Ok(labels) =>
      var found := FindLabel(labels, name);
      if found.Some? then LabelLookup(None, Ok(Some(labels[found.value].id)))
      else if !createIfMissing then LabelLookup(None, Ok(None))
      else
        var created := Some((name, GenerateLabelColor(name)));
        match createReply
        case Ok(info) => LabelLookup(created, Ok(Some(info.id)))
        case Err(e) => LabelLookup(created, Err(e))
  }
}

=== FILE: issuetypes.dfy ===
/** Issue types (src/sync.rs): a ticket's type is mapped through the
    configured table to a GitHub issue type, whose id is looked up in the
    repository's issue types. The cache maps each issue type's lowercased
    name to its id and is empty for repositories without issue types
    (personal accounts), which switches the whole feature off. */
module IssueTypes {
  import opened Wrappers
  import opened Strings

  /** `resolve_issue_type`: the id of the issue type `ticketType` maps to,
      compared ignoring case. */
  function ResolveIssueType(ticketType: string, typeMap: map<string, string>, cache: map<string, string>)
    : (r: Option<string>)
    ensures |cache| == 0 ==> r.None?
    ensures ticketType !in typeMap ==> r.None?
    ensures r.Some? <==> |cache| > 0 && ticketType in typeMap && Lower(typeMap[ticketType]) in cache
    ensures r.Some? ==> r.value in cache.Values
  {
    if |cache| == 0 then None
    else if ticketType !in typeMap then None
    else
      var key := Lower(typeMap[ticketType]);
      if key in cache then Some(cache[key]) else None
  }

  /** A mapping whose GitHub type the repository does not have. */
  predicate Dangling(ticketType: string, typeMap: map<string, string>, cache: map<string, string>)
    requires ticketType in typeMap
  {
    Lower(typeMap[ticketType]) !in cache
  }

  /** The message naming a dangling mapping and the available types. */
  function MappingError(ticketType: string, githubType: string, available: seq<string>): string {
    "Issue type mapping error: '" + ticketType + "' -> '" + githubType
      + "' not found.\nAvailable issue types: " + DebugList(available)
  }

  /** The position of the first dangling mapping in `order`. */
  function FirstDangling(order: seq<string>, typeMap: map<string, string>, cache: map<string, string>)
    : (r: Option<nat>)
    ensures r.Some? ==> r.value < |order| && order[r.value] in typeMap && Dangling(order[r.value], typeMap, cache)
    ensures r.Some? ==> forall j :: 0 <= j < r.value && order[j] in typeMap ==> !Dangling(order[j], typeMap, cache)
    ensures r.None? ==> forall j :: 0 <= j < |order| && order[j] in typeMap ==> !Dangling(order[j], typeMap, cache)
  {
    if |order| == 0 then None
    else if order[0] in typeMap && Dangling(order[0], typeMap, cache) then Some(0)
    else
      var r := FirstDangling(order[1..], typeMap, cache);
      if r.Some? then Some(r.value + 1) else None
  }

  /** `validate_issue_type_mappings`: with issue types and mappings both
      present, the first mapping (in the map's iteration order `order`)
      whose type is missing is reported; `available` lists the cache's
      names in its own iteration order. */
  function ValidateIssueTypeMappings(typeMap: map<string, string>, cache: map<string, string>,
                                     order: seq<string>, available: seq<string>): (r: Outcome)
    requires KeyOrder(order, typeMap) && KeyOrder(available, cache)
    ensures |cache| == 0 || |typeMap| == 0 ==> r.Pass?
    ensures r.Fail? <==> |cache| > 0 && exists t :: t in typeMap && Dangling(t, typeMap, cache)
    ensures r.Fail? ==> exists t :: t in typeMap && Dangling(t, typeMap, cache)
                                   && r.error == MappingError(t, typeMap[t], available)
  {
    if |cache| == 0 || |typeMap| == 0 then Pass
    else
      var first := FirstDangling(order, typeMap, cache);
      if first.None? then
        assert forall t :: t in typeMap ==> !Dangling(t, typeMap, cache) by {
          forall t | t in typeMap ensures !Dangling(t, typeMap, cache) {
            var j :| 0 <= j < |order| && order[j] == t;
          }
        }
        Pass
      else
        var t := order[first.value];
        Fail(MappingError(t, typeMap[t], available))
  }

  /** Once validation has passed, every mapped ticket type resolves to the
      id of its issue type. */
  lemma ValidatedMappingResolves(typeMap: map<string, string>, cache: map<string, string>,
                                 order: seq<string>, available: seq<string>, ticketType: string)
    requires KeyOrder(order, typeMap) && KeyOrder(available, cache)
    requires ValidateIssueTypeMappings(typeMap, cache, order, available).Pass?
    requires |cache| > 0 && ticketType in typeMap
    ensures ResolveIssueType(ticketType, typeMap, cache) == Some(cache[Lower(typeMap[ticketType])])
  {
    assert !Dangling(ticketType, typeMap, cache);
  }

  /** Resolution only depends on the mapped name up to ASCII case. */
  lemma ResolveIgnoresCase(ticketType: string, typeMap: map<string, string>, cache: map<string, string>, other: string)
    requires ticketType in typeMap && EqIgnoreAsciiCase(typeMap[ticketType], other)
    ensures ResolveIssueType(ticketType, typeMap, cache) == ResolveIssueType(ticketType, typeMap[ticketType := other], cache)
  {
  }

  /** The resolution tests: a mapped type, a mapping in other case, an
      unmapped ticket type and a repository without issue types. */
  lemma ResolveExamples()
    ensures ResolveIssueType("bug", map["bug" := "Bug", "task" := "Task"],
                             map["bug" := "IT_bug_id", "task" := "IT_task_id"]) == Some("IT_bug_id")
    ensures ResolveIssueType("bug", map["bug" := "BUG"], map["bug" := "IT_bug_id"]) == Some("IT_bug_id")
    ensures ResolveIssueType("epic", map["bug" := "Bug"], map["bug" := "IT_bug_id"]) == None
    ensures ResolveIssueType("bug", map["bug" := "Bug"], map[]) == None
  {
    assert Lower("Bug") == "bug";
    assert Lower("BUG") == "bug";
  }

  /** The validation test with a mapping to the missing type `Epic`: it
      fails naming that mapping, whatever the iteration orders. */
  lemma ValidateMissingTypeExample(order: seq<string>, available: seq<string>)
    requires KeyOrder(order, map["bug" := "Bug", "epic" := "Epic"])
    requires KeyOrder(available, map["bug" := "IT_bug_id", "task" := "IT_task_id"])
    ensures ValidateIssueTypeMappings(map["bug" := "Bug", "epic" := "Epic"],
                                      map["bug" := "IT_bug_id", "task" := "IT_task_id"], order, available)
            == Fail(MappingError("epic", "Epic", available))
  {
    var typeMap := map["bug" := "Bug", "epic" := "Epic"];
    var cache := map["bug" := "IT_bug_id", "task" := "IT_task_id"];
    assert Lower("Bug") == "bug";
    assert Lower("Epic") == "epic";
    assert "epic" != "bug" && "epic" != "task";
    assert Dangling("epic", typeMap, cache);
    assert !Dangling("bug", typeMap, cache);
  }
}

=== FILE: json.dfy ===
/** The shape of a decoded GraphQL `data` payload, with the `serde_json`
    accessors the batch demultiplexers use. A batched response is a flat
    object keyed by alias. */
module Json {
  import opened Wrappers
  import Numerals

  datatype Value =
    | Null
    | Bool(b: bool)
    | Num(n: int)
    | Str(s: string)
    | Arr(items: seq<Value>)
    | Obj(fields: map<string, Value>)

  /** A response object: alias -> sub-result. */
  type Response = map<string, Value>

  /** `serde_json::Value::get(key)`: a field of an object, `None` for
      anything that is not an object or lacks the key. A present key whose
      value is `null` gives `Some(Null)`. */
  function Get(v: Value, key: string): (r: Option<Value>)
    ensures r.Some? <==> v.Obj? && key in v.fields
  {
    if v.Obj? && key in v.fields then Some(v.fields[key]) else None
  }

  /** `response.get(key)` on the top-level response object. */
  function Lookup(resp: Response, key: string): (r: Option<Value>)
    ensures r.Some? <==> key in resp
  {
    if key in resp then Some(resp[key]) else None
  }

  /** `Option<&Value>::and_then(|v| v.as_str())`. */
  function AsStr(v: Option<Value>): (r: Option<string>)
    ensures r.Some? <==> v.Some? && v.value.Str?
  {
    if v.Some? && v.value.Str? then Some(v.value.s) else None
  }

  /** `Option<&Value>::and_then(|v| v.as_u64())`: integral JSON numbers
      within the range of `u64`. */
  function AsU64(v: Option<Value>): (r: Option<nat>)
    ensures r.Some? ==> r.value < Numerals.U64_LIMIT
    ensures r.Some? <==> v.Some? && v.value.Num? && 0 <= v.value.n < Numerals.U64_LIMIT
  {
    if v.Some? && v.value.Num? && 0 <= v.value.n < Numerals.U64_LIMIT then Some(v.value.n) else None
  }

  /** `Option<&Value>::and_then(|v| v.get(key))`. */
  function Then(v: Option<Value>, key: string): (r: Option<Value>)
    ensures r.Some? ==> v.Some?
  {
    if v.Some? then Get(v.value, key) else None
  }
}

=== FILE: numerals.dfy ===
/** Decimal and hexadecimal numerals: Rust's `{}` formatting of unsigned
    integers, `str::parse::<u64>`, and `{:02x}`. */
module Numerals {
  import opened Wrappers

  /** One more than `u64::MAX`. */
  const U64_LIMIT: nat := 0x1_0000_0000_0000_0000

  predicate IsDigit(c: char) {
    '0' <= c <= '9'
  }

  predicate AllDigits(s: string) {
    forall i :: 0 <= i < |s| ==> IsDigit(s[i])
  }

  function DigitChar(d: nat): (c: char)
    requires d < 10
    ensures IsDigit(c)
  {
    ('0' as int + d) as char
  }

  function DigitValue(c: char): (d: nat)
    requires IsDigit(c)
    ensures d < 10
  {
    c as int - '0' as int
  }

  /** The value of a string of decimal digits, most significant first. */
  function DigitsValue(s: string): nat
    requires AllDigits(s)
  {
    if |s| == 0 then 0 else DigitsValue(s[..|s| - 1]) * 10 + DigitValue(s[|s| - 1])
  }

  /** Rust `format!("{}", n)` for an unsigned integer. */
  function NatToString(n: nat): (s: string)
    ensures |s| > 0 && AllDigits(s)
    ensures |s| > 1 ==> s[0] != '0'
  {
    if n < 10 then [DigitChar(n)] else NatToString(n / 10) + [DigitChar(n % 10)]
  }

  /** Reading back a rendered number gives the number. */
  lemma {:induction false} DigitsValueOfNatToString(n: nat)
    ensures DigitsValue(NatToString(n)) == n
  {
    if n >= 10 {
      var s := NatToString(n);
      assert s[..|s| - 1] == NatToString(n / 10);
      DigitsValueOfNatToString(n / 10);
    }
  }

  /** Different numbers render differently. */
  lemma NatToStringInjective(a: nat, b: nat)
    requires NatToString(a) == NatToString(b)
    ensures a == b
  {
    DigitsValueOfNatToString(a);
    DigitsValueOfNatToString(b);
  }

  /** Rust `s.parse::<u64>()`: an optional `+`, then one or more ASCII
      digits whose value fits in 64 bits. */
  function ParseU64(s: string): (r: Option<nat>)
    ensures r.Some? ==> r.value < U64_LIMIT
    ensures var d := if |s| > 0 && s[0] == '+' then s[1..] else s;
            (r.Some? <==> |d| > 0 && AllDigits(d) && DigitsValue(d) < U64_LIMIT)
            && (r.Some? ==> r.value == DigitsValue(d))
  {
    var digits := if |s| > 0 && s[0] == '+' then s[1..] else s;
    if |digits| == 0 || !AllDigits(digits) then None
    else
      var v := DigitsValue(digits);
      if v < U64_LIMIT then Some(v) else None
  }

  /** The numeral written for an issue number parses back to it. */
  lemma ParseU64OfNatToString(n: nat)
    requires n < U64_LIMIT
    ensures ParseU64(NatToString(n)) == Some(n)
  {
    DigitsValueOfNatToString(n);
  }

  /** A leading zero does not change the value of a digit string. */
  lemma {:induction false} DigitsValueLeadingZero(s: string)
    requires AllDigits(s)
    ensures AllDigits("0" + s) && DigitsValue("0" + s) == DigitsValue(s)
  {
    var z := "0" + s;
    if |s| > 0 {
      var init := s[..|s| - 1];
      assert z[..|z| - 1] == "0" + init;
      DigitsValueLeadingZero(init);
    }
  }

  /** Zero-padded numerals, which Rust's parser accepts, read as their
      value, and so does one with a leading `+`. */
  lemma ParseU64Padded(n: nat)
    requires n < U64_LIMIT
    ensures ParseU64("0" + NatToString(n)) == Some(n)
    ensures ParseU64("00" + NatToString(n)) == Some(n)
    ensures ParseU64("+" + NatToString(n)) == Some(n)
  {
    var s := NatToString(n);
    DigitsValueOfNatToString(n);
    DigitsValueLeadingZero(s);
    DigitsValueLeadingZero("0" + s);
    assert "00" + s == "0" + ("0" + s);
    assert ("+" + s)[1..] == s;
  }

  /** Text that is not a (signed-plus) run of digits is rejected. */
  lemma ParseU64RejectsNonDigit(s: string, i: nat)
    requires 0 < i < |s| && !IsDigit(s[i])
    ensures ParseU64(s) == None
  {
  }

  // ---------------------------------------------------------------------
  // Hexadecimal

  function HexDigit(d: nat): (c: char)
    requires d < 16
  {
    if d < 10 then DigitChar(d) else ('a' as int + (d - 10)) as char
  }

  predicate IsLowerHexDigit(c: char) {
    ('0' <= c <= '9') || ('a' <= c <= 'f')
  }

  function HexValue(c: char): (d: nat)
    requires IsLowerHexDigit(c)
    ensures d < 16
  {
    if '0' <= c <= '9' then c as int - '0' as int else c as int - 'a' as int + 10
  }

  /** Rust `format!("{:02x}", v)` for a byte value. */
  function Hex2(v: nat): (s: string)
    requires v < 256
    ensures |s| == 2
    ensures IsLowerHexDigit(s[0]) && IsLowerHexDigit(s[1])
    ensures HexValue(s[0]) * 16 + HexValue(s[1]) == v
  {
    [HexDigit(v / 16), HexDigit(v % 16)]
  }
}

=== FILE: ordering.dfy ===
/** Ordering the per-ticket results (src/sync.rs): `sync` collects
    `(ticket index, result)` pairs phase by phase and sorts them by index
    before printing and counting them. */
module Ordering {

  /** The first components of a list of pairs, in order: for result
      entries, their ticket indices. */
  function Firsts<K, T>(entries: seq<(K, T)>): (ks: seq<K>)
    ensures |ks| == |entries| && forall i :: 0 <= i < |entries| ==> ks[i] == entries[i].0
  {
    seq(|entries|, i requires 0 <= i < |entries| => entries[i].0)
  }

  /** One component of every element, in order. */
  function Project<T, K>(xs: seq<T>, key: T -> K): (ks: seq<K>)
    ensures |ks| == |xs| && forall i :: 0 <= i < |xs| ==> ks[i] == key(xs[i])
  {
    seq(|xs|, i requires 0 <= i < |xs| => key(xs[i]))
  }

  lemma ProjectSnoc<T, K>(xs: seq<T>, x: T, key: T -> K)
    ensures Project(xs + [x], key) == Project(xs, key) + [key(x)]
  {
    assert forall i :: 0 <= i < |xs| ==> (xs + [x])[i] == xs[i];
  }

  /** Pairs each key with the value at the same position. */
  function Zip<K, T>(ks: seq<K>, vs: seq<T>): (entries: seq<(K, T)>)
    requires |ks| == |vs|
    ensures Firsts(entries) == ks
    ensures |entries| == |vs| && forall i :: 0 <= i < |vs| ==> entries[i].1 == vs[i]
  {
    seq(|ks|, i requires 0 <= i < |ks| => (ks[i], vs[i]))
  }

  lemma FirstsAppend<T>(a: seq<(nat, T)>, b: seq<(nat, T)>)
    ensures Firsts(a + b) == Firsts(a) + Firsts(b)
  {
  }

  /** `0, 1, ..., n - 1`. */
  function Range(n: nat): (r: seq<nat>)
    ensures |r| == n && forall i :: 0 <= i < n ==> r[i] == i
  {
    seq(n, i requires 0 <= i < n => i)
  }

  ghost predicate SortedByIndex<T>(s: seq<(nat, T)>) {
    forall i, j :: 0 <= i < j < |s| ==> s[i].0 <= s[j].0
  }

  lemma FirstsCons<T>(x: (nat, T), t: seq<(nat, T)>)
    ensures Firsts([x] + t) == [x.0] + Firsts(t)
  {
  }

  /** Every entry of `s` and `e` is bounded below by `b`, so is every entry
      of anything with the same multiset. */
  lemma BoundedBelow<T>(b: nat, e: (nat, T), s: seq<(nat, T)>, r: seq<(nat, T)>)
    requires b <= e.0 && forall i :: 0 <= i < |s| ==> b <= s[i].0
    requires multiset(r) == multiset(s) + multiset{e}
    ensures forall i :: 0 <= i < |r| ==> b <= r[i].0
  {
    forall i | 0 <= i < |r| ensures b <= r[i].0 {
      assert r[i] in multiset(r);
      if r[i] != e {
        assert r[i] in multiset(s);
      }
    }
  }

  lemma ConsSorted<T>(x: (nat, T), t: seq<(nat, T)>)
    requires SortedByIndex(t) && forall i :: 0 <= i < |t| ==> x.0 <= t[i].0
    ensures SortedByIndex([x] + t)
  {
    var r := [x] + t;
    forall i, j | 0 <= i < j < |r| ensures r[i].0 <= r[j].0 {
      assert r[j] == t[j - 1];
      if i > 0 {
        assert r[i] == t[i - 1];
      }
    }
  }

  /** Inserts `e` after every entry whose index is at most its own, which
      keeps entries with equal indices in arrival order. */
  function InsertByIndex<T>(e: (nat, T), s: seq<(nat, T)>): (r: seq<(nat, T)>)
    ensures |r| == |s| + 1
  {
    if |s| == 0 then [e]
    else if s[0].0 <= e.0 then [s[0]] + InsertByIndex(e, s[1..])
    else [e] + s
  }

  /** Insertion adds `e` and nothing else. */
  lemma InsertAdds<T>(e: (nat, T), s: seq<(nat, T)>)
    ensures multiset(InsertByIndex(e, s)) == multiset(s) + multiset{e}
    ensures multiset(Firsts(InsertByIndex(e, s))) == multiset(Firsts(s)) + multiset{e.0}
  {
    InsertAddsEntry(e, s);
    InsertAddsIndex(e, s);
  }

  lemma {:induction false} InsertAddsEntry<T>(e: (nat, T), s: seq<(nat, T)>)
    ensures multiset(InsertByIndex(e, s)) == multiset(s) + multiset{e}
  {
    if |s| > 0 {
      if s[0].0 <= e.0 {
        var rest := InsertByIndex(e, s[1..]);
        InsertAddsEntry(e, s[1..]);
        assert InsertByIndex(e, s) == [s[0]] + rest;
        assert s == [s[0]] + s[1..];
        assert multiset([s[0]] + rest) == multiset{s[0]} + multiset(rest);
        assert multiset(s) == multiset{s[0]} + multiset(s[1..]);
      } else {
        assert InsertByIndex(e, s) == [e] + s;
      }
    }
  }

  lemma {:induction false} InsertAddsIndex<T>(e: (nat, T), s: seq<(nat, T)>)
    ensures multiset(Firsts(InsertByIndex(e, s))) == multiset(Firsts(s)) + multiset{e.0}
  {
    if |s| > 0 {
      if s[0].0 <= e.0 {
        var rest := InsertByIndex(e, s[1..]);
        InsertAddsIndex(e, s[1..]);
        assert InsertByIndex(e, s) == [s[0]] + rest;
        assert s == [s[0]] + s[1..];
        FirstsCons(s[0], s[1..]);
        FirstsCons(s[0], rest);
        assert multiset([s[0].0] + Firsts(rest)) == multiset{s[0].0} + multiset(Firsts(rest));
        assert multiset([s[0].0] + Firsts(s[1..])) == multiset{s[0].0} + multiset(Firsts(s[1..]));
      } else {
        assert InsertByIndex(e, s) == [e] + s;
        FirstsCons(e, s);
      }
    }
  }

  /** Insertion into a sorted list keeps it sorted. */
  lemma {:induction false} InsertSorted<T>(e: (nat, T), s: seq<(nat, T)>)
    requires SortedByIndex(s)
    ensures SortedByIndex(InsertByIndex(e, s))
  {
    if |s| > 0 {
      if s[0].0 <= e.0 {
        var rest := InsertByIndex(e, s[1..]);
        InsertSorted(e, s[1..]);
        InsertAdds(e, s[1..]);
        BoundedBelow(s[0].0, e, s[1..], rest);
        ConsSorted(s[0], rest);
      } else {
        ConsSorted(e, s);
      }
    }
  }

  /** Rust's `sort_by_key` on the index, as an insertion sort. Stability
      is not stated: the entries of one run have distinct indices
      (`SortedIndicesAreRange`), so no two entries compare equal. */
  function SortByIndex<T>(s: seq<(nat, T)>): (r: seq<(nat, T)>)
    ensures SortedByIndex(r)
    ensures multiset(r) == multiset(s)
    ensures multiset(Firsts(r)) == multiset(Firsts(s))
  {
    if |s| == 0 then []
    else
      var init := s[..|s| - 1];
      assert s == init + [s[|s| - 1]];
      assert Firsts(s) == Firsts(init) + [s[|s| - 1].0];
      var sorted := SortByIndex(init);
      InsertAdds(s[|s| - 1], sorted);
      InsertSorted(s[|s| - 1], sorted);
      InsertByIndex(s[|s| - 1], sorted)
  }

  /** Sorted entries whose indices are `0..n-1`, each once, sit at their
      own index. */
  lemma {:induction false} SortedIndicesAreRange<T>(s: seq<(nat, T)>, n: nat)
    requires SortedByIndex(s)
    requires multiset(Firsts(s)) == multiset(Range(n))
    ensures Firsts(s) == Range(n)
  {
    assert |Firsts(s)| == |multiset(Firsts(s))| == |multiset(Range(n))| == n;
    if n > 0 {
      var ks: seq<nat> := Firsts(s);
      assert ks[n - 1] in multiset(Range(n));
      assert n - 1 in multiset(ks) by {
        assert Range(n)[n - 1] == n - 1;
      }
      var j :| 0 <= j < n && ks[j] == n - 1;
      assert ks[n - 1] == n - 1;
      var init := s[..n - 1];
      var last: nat := n - 1;
      var ki: seq<nat> := Firsts(init);
      assert ks == ki + [last];
      assert Range(n) == Range(n - 1) + [last];
      assert multiset(ks) == multiset(ki) + multiset{last};
      assert multiset(Range(n)) == multiset(Range(n - 1)) + multiset{last};
      var mi, mr := multiset(ki), multiset(Range(n - 1));
      assert mi + multiset{last} == mr + multiset{last};
      forall x: nat ensures mi[x] == mr[x] {
        assert (mi + multiset{last})[x] == (mr + multiset{last})[x];
      }
      assert mi == mr;
      SortedIndicesAreRange(init, n - 1);
    }
  }
}

=== FILE: projects.dfy ===
/** GitHub Projects (v2) lookups and item additions (src/github/projects.rs):
    matching a project by number or title, the repository-then-owner search
    order of `find_project`, and the batched `addProjectV2ItemById` with its
    "already in the project" policy. Each query reply is a parameter. */
module Projects {
  import opened Wrappers
  import opened Strings
  import opened Numerals
  import Json
  import Batch

  /** A project as listed by a `projectsV2` connection. */
  datatype ProjectNode = ProjectNode(id: string, title: string, number: nat)

  /** The project a lookup settles on. */
  datatype ProjectInfo = ProjectInfo(id: string, title: string, number: nat)

  function InfoOf(p: ProjectNode): ProjectInfo {
    ProjectInfo(p.id, p.title, p.number)
  }

  predicate HasNumber(projects: seq<ProjectNode>, n: nat) {
    exists i :: 0 <= i < |projects| && projects[i].number == n
  }

  /** Titles compare after lowercasing both sides (ASCII case folding). */
  predicate TitleMatches(p: ProjectNode, name: string) {
    Lower(p.title) == Lower(name)
  }

  predicate HasTitle(projects: seq<ProjectNode>, name: string) {
    exists i :: 0 <= i < |projects| && TitleMatches(projects[i], name)
  }

  /** Index of the first project numbered `n`. */
  function FirstWithNumber(projects: seq<ProjectNode>, n: nat): (r: Option<nat>)
    ensures r.Some? <==> HasNumber(projects, n)
    ensures r.Some? ==> r.value < |projects| && projects[r.value].number == n
    ensures r.Some? ==> forall j :: 0 <= j < r.value ==> projects[j].number != n
  {
    if |projects| == 0 then None
    else if projects[0].number == n then Some(0)
    else
      var r := FirstWithNumber(projects[1..], n);
      assert HasNumber(projects, n) ==> HasNumber(projects[1..], n) by {
        if HasNumber(projects, n) {
          var i :| 0 <= i < |projects| && projects[i].number == n;
          assert projects[1..][i - 1].number == n;
        }
      }
      if r.Some? then Some(r.value + 1) else None
  }

  /** Index of the first project whose title matches `name`. */
  function FirstWithTitle(projects: seq<ProjectNode>, name: string): (r: Option<nat>)
    ensures r.Some? <==> HasTitle(projects, name)
    ensures r.Some? ==> r.value < |projects| && TitleMatches(projects[r.value], name)
    ensures r.Some? ==> forall j :: 0 <= j < r.value ==> !TitleMatches(projects[j], name)
  {
    if |projects| == 0 then None
    else if TitleMatches(projects[0], name) then Some(0)
    else
      var r := FirstWithTitle(projects[1..], name);
      assert HasTitle(projects, name) ==> HasTitle(projects[1..], name) by {
        if HasTitle(projects, name) {
          var i :| 0 <= i < |projects| && TitleMatches(projects[i], name);
          assert TitleMatches(projects[1..][i - 1], name);
        }
      }
      if r.Some? then Some(r.value + 1) else None
  }

  /** `find_matching_project`: a project carrying the requested number wins;
      otherwise the first project whose title equals `name` ignoring case;
      otherwise nothing. The result copies the matched node. */
  function FindMatchingProject(projects: seq<ProjectNode>, name: string, number: Option<nat>): (r: Option<ProjectInfo>)
    ensures number.Some? && HasNumber(projects, number.value) ==>
      r.Some? && r.value.number == number.value
      && (exists i :: 0 <= i < |projects| && r.value == InfoOf(projects[i])
            && projects[i].number == number.value
            && forall j :: 0 <= j < i ==> projects[j].number != number.value)
    ensures !(number.Some? && HasNumber(projects, number.value)) ==>
      (r.Some? <==> HasTitle(projects, name))
    ensures !(number.Some? && HasNumber(projects, number.value)) && r.Some? ==>
      exists i :: 0 <= i < |projects| && r.value == InfoOf(projects[i])
        && TitleMatches(projects[i], name)
        && forall j :: 0 <= j < i ==> !TitleMatches(projects[j], name)
  {
    var byNumber := if number.Some? then FirstWithNumber(projects, number.value) else None;
    if byNumber.Some? then Some(InfoOf(projects[byNumber.value]))
    else
      var byTitle := FirstWithTitle(projects, name);
      if byTitle.Some? then Some(InfoOf(projects[byTitle.value])) else None
  }

  /** The projects of the "number preferred" example: searching "1" with
      number 1 picks the project numbered 1, not the one titled "1". */
  lemma NumberPreferredExample()
    ensures FindMatchingProject([ProjectNode("P1", "1", 99), ProjectNode("P2", "Other", 1)], "1", Some(1))
            == Some(ProjectInfo("P2", "Other", 1))
  {
    var ps := [ProjectNode("P1", "1", 99), ProjectNode("P2", "Other", 1)];
    assert ps[1].number == 1;
  }

  /** Whatever the titles say, a number match is never displaced by a name
      match: the result carries the requested number. */
  lemma NumberBeatsTitle(projects: seq<ProjectNode>, name: string, n: nat, k: nat)
    requires k < |projects| && projects[k].number == n
    ensures FindMatchingProject(projects, name, Some(n)).Some?
    ensures FindMatchingProject(projects, name, Some(n)).value.number == n
  {
    assert HasNumber(projects, n);
  }

  /** Title matching ignores ASCII case in both directions. */
  lemma TitleMatchIgnoresCase(projects: seq<ProjectNode>, name: string)
    ensures FindMatchingProject(projects, name, None) == FindMatchingProject(projects, Lower(name), None)
  {
    LowerIdempotent(name);
    assert forall p: ProjectNode :: TitleMatches(p, name) == TitleMatches(p, Lower(name));
    assert forall i :: 0 <= i < |projects| ==> TitleMatches(projects[i], name) == TitleMatches(projects[i], Lower(name));
    TitleMatchesSame(projects, name, Lower(name));
  }

  /** Two names matching the same titles select the same project. */
  lemma {:induction false} TitleMatchesSame(projects: seq<ProjectNode>, a: string, b: string)
    requires forall i :: 0 <= i < |projects| ==> TitleMatches(projects[i], a) == TitleMatches(projects[i], b)
    ensures FirstWithTitle(projects, a) == FirstWithTitle(projects, b)
  {
    if |projects| > 0 {
      TitleMatchesSame(projects[1..], a, b);
    }
  }

  // ---------------------------------------------------------------------
  // Search order

  /** The queries `find_project` can issue. */
  datatype Query = RepoProjects | OwnerType | OrgProjects | UserProjects

  /** The queries issued, in order, and the outcome. */
  datatype Search = Search(queries: seq<Query>, result: Result<Option<ProjectInfo>>)

  /** A `projectsV2` reply: the listed nodes, or `None` when the owner or
      its connection is null (read as an empty list). */
  function Listed(reply: Option<seq<ProjectNode>>): seq<ProjectNode> {
    if reply.Some? then reply.value else []
  }

  /** `is_organization`: the owner's `__typename` is `Organization`; a
      missing repository counts as a user. */
  function IsOrganization(typename: Option<string>): (r: bool)
    ensures r <==> typename == Some("Organization")
  {
    typename.Some? && typename.value == "Organization"
  }

  /** `find_project`: `nameOrNumber` is tried as a `u64` project number and
      as a title; repository projects are searched first, and only when
      they yield nothing is the owner's kind queried and its organization
      or user projects searched. Any query failure ends the search. */
  function FindProject(nameOrNumber: string,
                       repoReply: Result<Option<seq<ProjectNode>>>,
                       ownerReply: Result<Option<string>>,
                       orgReply: Result<Option<seq<ProjectNode>>>,
                       userReply: Result<Option<seq<ProjectNode>>>): (s: Search)
    ensures |s.queries| >= 1 && s.queries[0] == RepoProjects
    ensures repoReply.Err? ==> s == Search([RepoProjects], Err(repoReply.error))
    ensures repoReply.Ok? ==>
      var atRepo := FindMatchingProject(Listed(repoReply.value), nameOrNumber, ParseU64(nameOrNumber));
      (atRepo.Some? ==> s == Search([RepoProjects], Ok(atRepo)))
      && (atRepo.None? ==> |s.queries| >= 2 && s.queries[1] == OwnerType)
    ensures OrgProjects in s.queries <==>
      repoReply.Ok? && FindMatchingProject(Listed(repoReply.value), nameOrNumber, ParseU64(nameOrNumber)).None?
      && ownerReply.Ok? && IsOrganization(ownerReply.value)
    ensures OrgProjects in s.queries ==>
      s.result == (if orgReply.Ok? then Ok(FindMatchingProject(Listed(orgReply.value), nameOrNumber, ParseU64(nameOrNumber)))
                   else Err(orgReply.error))
    ensures UserProjects in s.queries <==>
      repoReply.Ok? && FindMatchingProject(Listed(repoReply.value), nameOrNumber, ParseU64(nameOrNumber)).None?
      && ownerReply.Ok? && !IsOrganization(ownerReply.value)
    ensures UserProjects in s.queries ==>
      s.result == (if userReply.Ok? then Ok(FindMatchingProject(Listed(userReply.value), nameOrNumber, ParseU64(nameOrNumber)))
                   else Err(userReply.error))
    ensures !(OrgProjects in s.queries && UserProjects in s.queries)
  {
    var number := ParseU64(nameOrNumber);
    match repoReply
    case Err(e) => Search([RepoProjects], Err(e))
    case Ok(repo) =>
      var atRepo := FindMatchingProject(Listed(repo), nameOrNumber, number);
      if atRepo.Some? then Search([RepoProjects], Ok(atRepo))
      else
        match ownerReply
        case Err(e) => Search([RepoProjects, OwnerType], Err(e))
        case Ok(typename) =>
          if IsOrganization(typename) then
            match orgReply
            case Err(e) => Search([RepoProjects, OwnerType, OrgProjects], Err(e))
            case Ok(org) => Search([RepoProjects, OwnerType, OrgProjects], Ok(FindMatchingProject(Listed(org), nameOrNumber, number)))
          else
            match userReply
            case Err(e) => Search([RepoProjects, OwnerType, UserProjects], Err(e))
            case Ok(user) => Search([RepoProjects, OwnerType, UserProjects], Ok(FindMatchingProject(Listed(user), nameOrNumber, number)))
  }

  /** A repository-level match makes the owner-level replies irrelevant. */
  lemma RepoMatchShortCircuits(nameOrNumber: string, repo: Option<seq<ProjectNode>>,
                               o1: Result<Option<string>>, a1: Result<Option<seq<ProjectNode>>>, u1: Result<Option<seq<ProjectNode>>>,
                               o2: Result<Option<string>>, a2: Result<Option<seq<ProjectNode>>>, u2: Result<Option<seq<ProjectNode>>>)
    requires FindMatchingProject(Listed(repo), nameOrNumber, ParseU64(nameOrNumber)).Some?
    ensures FindProject(nameOrNumber, Ok(repo), o1, a1, u1) == FindProject(nameOrNumber, Ok(repo), o2, a2, u2)
  {
  }

  // ---------------------------------------------------------------------
  // Adding issues to a project

  /** The "already in the project" test applied to a lowercased error. */
  predicate IsAlreadyInProject(err: string) {
    var lower := Lower(err);
    Contains(lower, "already in the project") || Contains(lower, "already added")
  }

  /** The `AddProjectV2ItemByIdInput` of one item. */
  function AddInput(projectId: string, issueId: string): (v: Json.Value)
    ensures v.Obj? && v.fields.Keys == {"projectId", "contentId"}
    ensures v.fields["projectId"] == Json.Str(projectId) && v.fields["contentId"] == Json.Str(issueId)
  {
    Json.Obj(map["projectId" := Json.Str(projectId), "contentId" := Json.Str(issueId)])
  }

  /** The item id read from alias `add_<i>`. */
  function AddItem(resp: Json.Response, i: nat): (r: Result<string>)
    ensures Batch.Alias("add", i) !in resp ==> r == Err("Missing response for item")
    ensures Batch.Alias("add", i) in resp ==>
      var id := Json.AsStr(Json.Then(Json.Get(resp[Batch.Alias("add", i)], "item"), "id"));
      (r.Ok? <==> id.Some?) && (r.Ok? ==> r.value == id.value) && (r.Err? ==> r.error == "No item ID in response")
  {
    var key := Batch.Alias("add", i);
    if key !in resp then Err("Missing response for item")
    else
      var id := Json.AsStr(Json.Then(Json.Get(resp[key], "item"), "id"));
      if id.Some? then Ok(id.value) else Err("No item ID in response")
  }

  /** The request of a batched add: alias `add_<i>` and variable
      `input_<i>` bound to the i-th issue's input. */
  function AddRequest(projectId: string, issueIds: seq<string>): (r: Option<Batch.Request>)
    ensures r.None? <==> |issueIds| == 0
    ensures r.Some? ==> r.value.aliases == Batch.Aliases("add", |issueIds|)
    ensures r.Some? ==> forall i :: 0 <= i < |issueIds| ==>
      Batch.VarName(i) in r.value.variables && r.value.variables[Batch.VarName(i)] == AddInput(projectId, issueIds[i])
  {
    Batch.Plan("add", "addProjectV2ItemById", seq(|issueIds|, i requires 0 <= i < |issueIds| => AddInput(projectId, issueIds[i])))
  }

  /** On a reply, item `i` of a batched add is what alias `add_<i>` says. */
  lemma AddBatchItem(projectId: string, issueIds: seq<string>, reply: Result<Json.Response>, i: nat)
    requires reply.Ok? && i < |issueIds|
    ensures var c := AddIssuesToProjectBatch(projectId, issueIds, reply);
            c.result.Ok? && |c.result.value| == |issueIds| && c.result.value[i] == AddItem(reply.value, i)
  {
  }

  /** `add_issues_to_project_batch`: one `add_<i>` alias per issue; an
      "already in the project" failure of the whole request makes every
      item a success with an empty item id; any other failure propagates. */
  function AddIssuesToProjectBatch(projectId: string, issueIds: seq<string>, reply: Result<Json.Response>)
    : (c: Batch.Call<seq<Result<string>>>)
    ensures |issueIds| == 0 ==> c == Batch.Call(None, Ok([]))
    ensures |issueIds| > 0 ==> c.request.Some? && c.request.value.aliases == Batch.Aliases("add", |issueIds|)
    ensures c.request == AddRequest(projectId, issueIds)
    ensures c.result.Ok? ==> |c.result.value| == |issueIds|
    ensures reply.Ok? ==> c.result.Ok? && forall i :: 0 <= i < |issueIds| ==> c.result.value[i] == AddItem(reply.value, i)
    ensures reply.Err? && |issueIds| > 0 ==>
      (c.result.Ok? <==> IsAlreadyInProject(reply.error))
      && (c.result.Ok? ==> forall i :: 0 <= i < |issueIds| ==> c.result.value[i] == Ok(""))
      && (c.result.Err? ==> c.result.error == reply.error)
  {
    if |issueIds| == 0 then Batch.Call(None, Ok([]))
    else
      var request := AddRequest(projectId, issueIds);
      match reply
      case Ok(resp) => Batch.Call(request, Ok(seq(|issueIds|, i requires 0 <= i < |issueIds| => AddItem(resp, i))))
      case Err(e) =>
        if IsAlreadyInProject(e) then Batch.Call(request, Ok(seq(|issueIds|, _ => Ok(""))))
        else Batch.Call(request, Err(e))
  }

  /** The response GitHub sends when every item was added. */
  function AddedResponse(itemIds: seq<string>): (resp: Json.Response)
    ensures forall i :: 0 <= i < |itemIds| ==>
      (Batch.Alias("add", i) in resp
       && resp[Batch.Alias("add", i)] == Json.Obj(map["item" := Json.Obj(map["id" := Json.Str(itemIds[i])])]))
  {
    forall i, j | 0 <= i < |itemIds| && 0 <= j < |itemIds| && Batch.Alias("add", i) == Batch.Alias("add", j)
      ensures i == j
    {
      Batch.AliasInjective("add", i, j);
    }
    map i | 0 <= i < |itemIds| :: Batch.Alias("add", i) := Json.Obj(map["item" := Json.Obj(map["id" := Json.Str(itemIds[i])])])
  }

  /** Item ids sent back under `add_<i>` come out as the i-th results. */
  lemma AddRoundTrip(projectId: string, issueIds: seq<string>, itemIds: seq<string>)
    requires |itemIds| == |issueIds|
    ensures AddIssuesToProjectBatch(projectId, issueIds, Ok(AddedResponse(itemIds))).result
            == Ok(seq(|issueIds|, i requires 0 <= i < |issueIds| => Ok(itemIds[i])))
  {
    var resp := AddedResponse(itemIds);
    forall i | 0 <= i < |issueIds| ensures AddItem(resp, i) == Ok(itemIds[i]) {
      assert Batch.Alias("add", i) in resp;
    }
    var c := AddIssuesToProjectBatch(projectId, issueIds, Ok(resp));
    assert c.result.value == seq(|issueIds|, i requires 0 <= i < |issueIds| => Ok(itemIds[i]));
  }

  lemma LowerAlreadyAdded()
    ensures Lower("Already Added") == "already added"
  {
  }

  /** The policy matches its phrases in any ASCII case: GitHub's
      "Content already added" error turns into success. */
  lemma AlreadyAddedAnyCase(err: string)
    requires Contains(err, "already added") || Contains(err, "Already Added") || Contains(err, "already in the project")
    ensures IsAlreadyInProject(err)
  {
    if Contains(err, "Already Added") {
      ContainsLowered(err, "Already Added");
      LowerAlreadyAdded();
    } else if Contains(err, "already added") {
      ContainsAfterLower(err, "already added");
    } else {
      ContainsAfterLower(err, "already in the project");
    }
  }

  /** `add_issue_to_project`: `reply` is the decoded item id (`None` when
      the payload or its item is null). The same policy as the batch turns
      an "already in the project" failure into an empty item id. */
  function AddIssueToProject(reply: Result<Option<string>>): (r: Result<string>)
    ensures reply.Ok? && reply.value.Some? ==> r == Ok(reply.value.value)
    ensures reply.Ok? && reply.value.None? ==> r == Err("Failed to add issue to project")
    ensures reply.Err? ==> (r.Ok? <==> IsAlreadyInProject(reply.error))
    ensures reply.Err? && r.Ok? ==> r.value == ""
    ensures reply.Err? && r.Err? ==> r.error == reply.error
  {
    match reply
    case Ok(item) => if item.Some? then Ok(item.value) else Err("Failed to add issue to project")
    case Err(e) => if IsAlreadyInProject(e) then Ok("") else Err(e)
  }

  /** The single and the batched call classify a failure the same way. */
  lemma SingleAndBatchAgree(projectId: string, issueId: string, err: string)
    ensures AddIssueToProject(Err(err)).Ok?
            <==> AddIssuesToProjectBatch(projectId, [issueId], Err(err)).result.Ok?
  {
  }
}

=== FILE: reconcile.dfy ===
/** Per-ticket reconciliation (src/sync.rs): deciding what a synced
    ticket's issue needs, and turning the outcomes of the batched create,
    update, close and reopen requests into exactly one result per pending
    ticket. The client calls are represented by what they return. */
module Reconcile {
  import opened Wrappers
  import opened Strings
  import opened Numerals
  import Tickets
  import Issues
  import Codec

  /** The outcome of syncing one ticket. */
  datatype SyncResult =
    | Created(issueId: string, issueNumber: nat, url: string)
    | Updated(issueNumber: nat)
    | Skipped(reason: string)
    | Failed(error: string)

  /** What `check_update_needed` decides for a synced ticket. */
  datatype UpdateCheck =
    | NoChanges
    | Conflict(reason: string)
    | Error(message: string)
    | NeedsUpdate(issueId: string, issueNumber: nat, title: string, body: string,
                  needsClose: bool, needsReopen: bool)

  /** The issue body a ticket renders to, its dependencies resolved through
      `ticketToIssue`. */
  function RenderedBody(t: Tickets.Ticket, ticketToIssue: map<string, nat>): string {
    Codec.FormatIssueBodyWithDeps(t.id, t.body, t.deps, ticketToIssue)
  }

  /** The ticket asks for a closed issue. The comparison is exact. */
  predicate WantsClosed(t: Tickets.Ticket) {
    t.status == "closed"
  }

  /** The issue is closed, as GitHub reports its state. */
  predicate IsClosed(e: Issues.ExistingIssue) {
    e.state == "CLOSED"
  }

  /** The fetched issue already shows what the ticket would render. */
  predicate InSync(t: Tickets.Ticket, e: Issues.ExistingIssue, ticketToIssue: map<string, nat>) {
    && e.title == t.title
    && e.body == RenderedBody(t, ticketToIssue)
    && (WantsClosed(t) <==> IsClosed(e))
  }

  /** `check_update_needed`: a ticket whose reference does not parse is a
      conflict, a number that was not fetched is an error, an issue whose
      body lacks the ticket's marker was edited elsewhere and is left alone,
      an issue in sync needs nothing, and anything else is updated, closed
      or reopened. */
  function CheckUpdateNeeded(t: Tickets.Ticket, existing: map<nat, Issues.ExistingIssue>,
                             ticketToIssue: map<string, nat>): (r: UpdateCheck)
    ensures Tickets.GithubIssueNumber(t).None? ==> r == Conflict("invalid external-ref")
    ensures var n := Tickets.GithubIssueNumber(t);
            n.Some? && n.value !in existing ==> r == Error("Issue #" + NatToString(n.value) + " not found")
    ensures var n := Tickets.GithubIssueNumber(t);
            (n.Some? && n.value in existing && !Contains(existing[n.value].body, Codec.Marker(t.id)))
            ==> r == Conflict("issue modified outside ttr")
    ensures r.NoChanges? <==>
      var n := Tickets.GithubIssueNumber(t);
      && n.Some? && n.value in existing
      && Contains(existing[n.value].body, Codec.Marker(t.id))
      && InSync(t, existing[n.value], ticketToIssue)
    ensures r.NeedsUpdate? ==>
      var n := Tickets.GithubIssueNumber(t);
      && n.Some? && n.value in existing && r.issueNumber == n.value
      && r.issueId == existing[n.value].id
      && r.title == t.title && r.body == RenderedBody(t, ticketToIssue)
      && !(r.needsClose && r.needsReopen)
      && (r.needsClose <==> WantsClosed(t) && !IsClosed(existing[n.value]))
      && (r.needsReopen <==> !WantsClosed(t) && IsClosed(existing[n.value]))
  {
    var n := Tickets.GithubIssueNumber(t);
    if n.None? then Conflict("invalid external-ref")
    else if n.value !in existing then Error("Issue #" + NatToString(n.value) + " not found")
    else
      var e := existing[n.value];
      if !Contains(e.body, Codec.Marker(t.id)) then Conflict("issue modified outside ttr")
      else
        var newBody := RenderedBody(t, ticketToIssue);
        var titleChanged := e.title != t.title;
        var bodyChanged := e.body != newBody;
        var stateChanged := WantsClosed(t) != IsClosed(e);
        if !titleChanged && !bodyChanged && !stateChanged then NoChanges
        else NeedsUpdate(e.id, n.value, t.title, newBody, stateChanged && WantsClosed(t), stateChanged && !WantsClosed(t))
  }

  /** The issue after an update, and the close or reopen it asked for,
      went through. */
  function ApplyUpdate(e: Issues.ExistingIssue, u: UpdateCheck): Issues.ExistingIssue
    requires u.NeedsUpdate?
  {
    e.(title := u.title, body := u.body,
       state := if u.needsClose then "CLOSED" else if u.needsReopen then "OPEN" else e.state)
  }

  /** Reconciliation converges: once an update has been applied, checking
      the same ticket again finds nothing to do. */
  lemma UpdateThenNoChanges(t: Tickets.Ticket, existing: map<nat, Issues.ExistingIssue>, ticketToIssue: map<string, nat>)
    requires CheckUpdateNeeded(t, existing, ticketToIssue).NeedsUpdate?
    ensures var u := CheckUpdateNeeded(t, existing, ticketToIssue);
            CheckUpdateNeeded(t, existing[u.issueNumber := ApplyUpdate(existing[u.issueNumber], u)], ticketToIssue).NoChanges?
  {
    var u := CheckUpdateNeeded(t, existing, ticketToIssue);
    Codec.FormattedBodyHasMarker(t.id, t.body, t.deps, ticketToIssue);
  }

  /** A ticket whose issue was just created from it (open, with the
      rendered title and body) needs nothing more unless it is closed:
      creation never closes, so a closed ticket's issue is closed by the
      next sync. */
  lemma CreatedIssueNextCheck(t: Tickets.Ticket, id: string, url: string, ticketToIssue: map<string, nat>)
    requires Tickets.GithubIssueNumber(t).Some?
    ensures var n := Tickets.GithubIssueNumber(t).value;
            var e := Issues.ExistingIssue(id, n, t.title, RenderedBody(t, ticketToIssue), "OPEN", url);
            var r := CheckUpdateNeeded(t, map[n := e], ticketToIssue);
            && (WantsClosed(t) ==> r.NeedsUpdate? && r.needsClose && !r.needsReopen)
            && (!WantsClosed(t) ==> r.NoChanges?)
  {
    Codec.FormattedBodyHasMarker(t.id, t.body, t.deps, ticketToIssue);
  }

  // ---------------------------------------------------------------------
  // Batched updates

  datatype PendingUpdate = PendingUpdate(ticketIdx: nat, issueId: string, issueNumber: nat, title: string,
                                         body: string, needsClose: bool, needsReopen: bool,
                                         issueTypeId: Option<string>)

  /** The content update sent for a pending item. */
  function UpdateOf(p: PendingUpdate): Issues.IssueUpdate {
    Issues.IssueUpdate(p.issueId, p.title, p.body, p.issueTypeId)
  }

  function UpdatesOf(pending: seq<PendingUpdate>): (us: seq<Issues.IssueUpdate>)
    ensures |us| == |pending| && forall i :: 0 <= i < |pending| ==> us[i] == UpdateOf(pending[i])
  {
    seq(|pending|, i requires 0 <= i < |pending| => UpdateOf(pending[i]))
  }

  /** The pending item asks for a close (`close`) or a reopen (`!close`). */
  predicate Wants(p: PendingUpdate, close: bool) {
    if close then p.needsClose else p.needsReopen
  }

  /** The issue ids of the items that ask for a close (or a reopen), in order. */
  function StateIds(pending: seq<PendingUpdate>, close: bool): (ids: seq<string>)
    ensures |ids| <= |pending|
    ensures |ids| == 0 <==> forall i :: 0 <= i < |pending| ==> !Wants(pending[i], close)
    ensures forall i :: 0 <= i < |pending| && Wants(pending[i], close) ==> pending[i].issueId in ids
    ensures forall j :: 0 <= j < |ids| ==>
      exists i :: 0 <= i < |pending| && Wants(pending[i], close) && pending[i].issueId == ids[j]
  {
    if |pending| == 0 then []
    else
      var rest := StateIds(pending[1..], close);
      assert forall i :: 1 <= i < |pending| ==> pending[i] == pending[1..][i - 1];
      if Wants(pending[0], close) then [pending[0].issueId] + rest else rest
  }

  /** The result of a pending item from the content update alone: the
      item whose issue id has an entry in the reply map gets that entry's
      outcome; an item without one stays "Not processed". */
  function ContentResult(p: PendingUpdate, updated: map<string, Result<Issues.IssueInfo>>): SyncResult {
    if p.issueId !in updated then Failed("Not processed")
    else if updated[p.issueId].Ok? then Updated(p.issueNumber)
    else Failed(updated[p.issueId].error)
  }

  /** The final result of one pending item once the content update and
      the close and reopen requests have answered: a failed reopen, else a
      failed close, overwrites what the content update gave. */
  function ItemResult(p: PendingUpdate, updated: map<string, Result<Issues.IssueInfo>>,
                      closed: Result<()>, reopened: Result<()>): SyncResult
  {
    if p.needsReopen && reopened.Err? then Failed("Failed to reopen: " + reopened.error)
    else if p.needsClose && closed.Err? then Failed("Failed to close: " + closed.error)
    else ContentResult(p, updated)
  }

  /** An item is updated exactly when its content update succeeded and
      neither state change it asked for failed. */
  lemma ItemUpdatedIff(p: PendingUpdate, updated: map<string, Result<Issues.IssueInfo>>,
                       closed: Result<()>, reopened: Result<()>)
    ensures var r := ItemResult(p, updated, closed, reopened);
            && (r.Updated? <==> p.issueId in updated && updated[p.issueId].Ok?
                                && !(p.needsClose && closed.Err?) && !(p.needsReopen && reopened.Err?))
            && (r.Failed? || r == Updated(p.issueNumber))
  {
  }

  /** What `batch_update` sends: the content updates, then the ids to
      close and to reopen (empty when that request is not sent). */
  datatype UpdateRun = UpdateRun(updates: seq<Issues.IssueUpdate>, closeIds: seq<string>, reopenIds: seq<string>,
                                 results: seq<SyncResult>)

  /** The results once the content update has answered: the close and
      reopen requests are sent only when some item asks for them, so an
      unsent request cannot fail. */
  function AfterStateChanges(pending: seq<PendingUpdate>, m: map<string, Result<Issues.IssueInfo>>,
                             closed: Result<()>, reopened: Result<()>): (r: seq<SyncResult>)
    ensures |r| == |pending|
    ensures forall i :: 0 <= i < |pending| ==> r[i] == ItemResult(pending[i], m, closed, reopened)
  {
    var closeOutcome := if |StateIds(pending, true)| > 0 then closed else Ok(());
    var reopenOutcome := if |StateIds(pending, false)| > 0 then reopened else Ok(());
    seq(|pending|, i requires 0 <= i < |pending| => ItemResult(pending[i], m, closeOutcome, reopenOutcome))
  }

  /** `batch_update`, given what `update_issues_batch`, `close_issues_batch`
      and `reopen_issues_batch` return. Every item starts as "Not
      processed"; a failed content request fails every item and sends
      nothing more. */
  function BatchUpdate(pending: seq<PendingUpdate>, updated: Result<map<string, Result<Issues.IssueInfo>>>,
                       closed: Result<()>, reopened: Result<()>): (run: UpdateRun)
    ensures |run.results| == |pending|
    ensures run.updates == UpdatesOf(pending)
    ensures |pending| > 0 && updated.Err? ==>
      run.closeIds == [] && run.reopenIds == [] && forall i :: 0 <= i < |pending| ==> run.results[i] == Failed(updated.error)
    ensures updated.Ok? || |pending| == 0 ==>
      run.closeIds == StateIds(pending, true) && run.reopenIds == StateIds(pending, false)
    ensures updated.Ok? ==> forall i :: 0 <= i < |pending| ==>
      run.results[i] == ItemResult(pending[i], updated.value, closed, reopened)
    ensures forall i :: 0 <= i < |pending| ==> run.results[i].Failed? || run.results[i] == Updated(pending[i].issueNumber)
  {
    var updates := UpdatesOf(pending);
    if |pending| == 0 then UpdateRun(updates, [], [], [])
    else
      match updated
      case Err(e) => UpdateRun(updates, [], [], seq(|pending|, i requires 0 <= i < |pending| => Failed(e)))
      case Ok(m) =>
        forall i | 0 <= i < |pending|
          ensures ItemResult(pending[i], m, closed, reopened).Failed?
                  || ItemResult(pending[i], m, closed, reopened) == Updated(pending[i].issueNumber)
        {
          ItemUpdatedIff(pending[i], m, closed, reopened);
        }
        UpdateRun(updates, StateIds(pending, true), StateIds(pending, false), AfterStateChanges(pending, m, closed, reopened))
  }

  /** A failed close touches only the items that asked for a close, and a
      failed reopen only those that asked for a reopen. */
  lemma StateFailureIsolated(pending: seq<PendingUpdate>, m: map<string, Result<Issues.IssueInfo>>,
                             closed: Result<()>, reopened: Result<()>, i: nat)
    requires i < |pending| && !pending[i].needsClose && !pending[i].needsReopen
    ensures BatchUpdate(pending, Ok(m), closed, reopened).results[i]
            == BatchUpdate(pending, Ok(m), Ok(()), Ok(())).results[i]
  {
  }

  // ---------------------------------------------------------------------
  // Batched creates

  datatype PendingCreate = PendingCreate(ticketIdx: nat, title: string, body: string, labelIds: seq<string>,
                                         issueTypeId: Option<string>)

  function CreatesOf(pending: seq<PendingCreate>): (cs: seq<Issues.IssueCreate>)
    ensures |cs| == |pending|
    ensures forall i :: 0 <= i < |pending| ==>
      cs[i] == Issues.IssueCreate(pending[i].title, pending[i].body, pending[i].labelIds, pending[i].issueTypeId)
  {
    seq(|pending|, i requires 0 <= i < |pending| =>
      Issues.IssueCreate(pending[i].title, pending[i].body, pending[i].labelIds, pending[i].issueTypeId))
  }

  /** The result of one created issue. */
  function CreateResult(r: Result<Issues.IssueInfo>): (s: SyncResult)
    ensures s.Created? <==> r.Ok?
    ensures r.Ok? ==> s == Created(r.value.id, r.value.number, r.value.url)
    ensures r.Err? ==> s == Failed(r.error)
  {
    match r
    case Ok(info) => Created(info.id, info.number, info.url)
    case Err(e) => Failed(e)
  }

  /** `batch_create`, given what `create_issues_batch` returns: nothing for
      no input, one failure per item when the request fails, otherwise one
      result per returned item. */
  function BatchCreate(pending: seq<PendingCreate>, created: Result<seq<Result<Issues.IssueInfo>>>): (r: seq<SyncResult>)
    ensures |pending| == 0 ==> r == []
    ensures |pending| > 0 && created.Err? ==>
      |r| == |pending| && forall i :: 0 <= i < |r| ==> r[i] == Failed(created.error)
    ensures |pending| > 0 && created.Ok? ==>
      |r| == |created.value| && forall i :: 0 <= i < |r| ==> r[i] == CreateResult(created.value[i])
    ensures forall i :: 0 <= i < |r| ==> r[i].Created? || r[i].Failed?
  {
    if |pending| == 0 then []
    else
      match created
      case Err(e) => seq(|pending|, i requires 0 <= i < |pending| => Failed(e))
      case Ok(items) => seq(|items|, i requires 0 <= i < |items| => CreateResult(items[i]))
  }

  /** Composed with `create_issues_batch`, the create phase yields exactly
      one result per pending item. */
  lemma CreateResultPerItem(pending: seq<PendingCreate>, repoId: string, assignees: Option<seq<string>>,
                            reply: Result<Issues.Json.Response>)
    ensures |BatchCreate(pending, Issues.CreateIssuesBatch(repoId, CreatesOf(pending), assignees, reply).result)| == |pending|
  {
  }

  // ---------------------------------------------------------------------
  // Summary

  /** The counts printed at the end of a sync. */
  datatype Summary = Summary(created: nat, updated: nat, skipped: nat, failed: nat)

  function Total(s: Summary): nat {
    s.created + s.updated + s.skipped + s.failed
  }

  /** Counts each result under its kind. */
  function Tally(results: seq<SyncResult>): (s: Summary)
    ensures s.created + s.updated + s.skipped + s.failed == |results|
  {
    if |results| == 0 then Summary(0, 0, 0, 0)
    else
      var rest := Tally(results[1..]);
      var r := results[0];
      if r.Created? then Summary(rest.created + 1, rest.updated, rest.skipped, rest.failed)
      else if r.Updated? then Summary(rest.created, rest.updated + 1, rest.skipped, rest.failed)
      else if r.Skipped? then Summary(rest.created, rest.updated, rest.skipped + 1, rest.failed)
      else Summary(rest.created, rest.updated, rest.skipped, rest.failed + 1)
  }

  /** Nothing is counted as created exactly when no result is a creation,
      and nothing as failed exactly when no result is a failure. */
  lemma {:induction false} TallyZeroes(results: seq<SyncResult>)
    ensures Tally(results).created == 0 <==> forall r :: r in results ==> !r.Created?
    ensures Tally(results).failed == 0 <==> forall r :: r in results ==> !r.Failed?
  {
    if |results| > 0 {
      var tail := results[1..];
      TallyZeroes(tail);
      assert results == [results[0]] + tail;
      assert forall r :: r in results <==> r == results[0] || r in tail;
    }
  }

  /** Tallies add up over concatenation. */
  lemma {:induction false} TallyAppend(a: seq<SyncResult>, b: seq<SyncResult>)
    ensures Tally(a + b) == Summary(Tally(a).created + Tally(b).created, Tally(a).updated + Tally(b).updated,
                                    Tally(a).skipped + Tally(b).skipped, Tally(a).failed + Tally(b).failed)
  {
    if |a| > 0 {
      assert (a + b)[0] == a[0] && (a + b)[1..] == a[1..] + b;
      TallyAppend(a[1..], b);
    } else {
      assert a + b == b;
    }
  }

  /** The number of results of one kind, counted from the last result
      back: an independent reference for `Tally`. */
  function Count(results: seq<SyncResult>, kind: SyncResult -> bool): (n: nat)
    ensures n <= |results|
  {
    if |results| == 0 then 0
    else Count(results[..|results| - 1], kind) + (if kind(results[|results| - 1]) then 1 else 0)
  }

  predicate IsCreated(r: SyncResult) { r.Created? }
  predicate IsUpdated(r: SyncResult) { r.Updated? }
  predicate IsSkipped(r: SyncResult) { r.Skipped? }
  predicate IsFailed(r: SyncResult) { r.Failed? }

  /** Each counter of the summary holds exactly the number of results of
      its own kind. */
  lemma {:induction false} TallyCounts(results: seq<SyncResult>)
    ensures Tally(results) == Summary(Count(results, IsCreated), Count(results, IsUpdated),
                                      Count(results, IsSkipped), Count(results, IsFailed))
  {
    if |results| > 0 {
      var front, last := results[..|results| - 1], results[|results| - 1];
      assert results == front + [last];
      TallyAppend(front, [last]);
      TallyCounts(front);
      assert [last][1..] == [];
    }
  }

  /** A run in which every result is a skip counts only skips. */
  lemma {:induction false} TallyAllSkipped(results: seq<SyncResult>)
    requires forall i :: 0 <= i < |results| ==> results[i].Skipped?
    ensures Tally(results) == Summary(0, 0, |results|, 0)
  {
    if |results| > 0 {
      assert forall i :: 1 <= i < |results| ==> results[i] == results[1..][i - 1];
      TallyAllSkipped(results[1..]);
    }
  }
}

=== FILE: strings.dfy ===
/** Text primitives with the semantics of the Rust standard library calls
    the ticket and sync code relies on (`starts_with`, `contains`, `find`,
    `split`, `join`, `lines`, `trim`, `trim_start_matches`, ASCII case
    folding). Strings are sequences of Unicode scalar values. */
module Strings {
  import opened Wrappers

  // ---------------------------------------------------------------------
  // Prefixes and occurrences

  /** Rust `s.starts_with(p)`. */
  predicate StartsWith(s: string, p: string) {
    p <= s
  }

  /** `pat` occurs in `s` starting at index `i`. */
  predicate OccursAt(s: string, pat: string, i: int) {
    0 <= i && i + |pat| <= |s| && s[i..i + |pat|] == pat
  }

  /** Rust `s.contains(pat)`. */
  predicate Contains(s: string, pat: string) {
    exists i :: 0 <= i <= |s| - |pat| && OccursAt(s, pat, i)
  }

  /** First occurrence of `pat` in `s` at or after `from` (Rust `find` on a suffix). */
  function FindFrom(s: string, pat: string, from: nat): (r: Option<nat>)
    requires from <= |s|
    ensures r.Some? ==> from <= r.value && OccursAt(s, pat, r.value)
    ensures r.Some? ==> forall j :: from <= j < r.value ==> !OccursAt(s, pat, j)
    ensures r.None? ==> forall j :: from <= j ==> !OccursAt(s, pat, j)
    decreases |s| - from
  {
    if OccursAt(s, pat, from) then Some(from)
    else if from + |pat| >= |s| then
      assert forall j :: from < j ==> !OccursAt(s, pat, j);
      None
    else FindFrom(s, pat, from + 1)
  }

  /** Rust `s.find(pat)`: the index of the first occurrence. */
  function Find(s: string, pat: string): (r: Option<nat>)
    ensures r.Some? <==> Contains(s, pat)
    ensures r.Some? ==> OccursAt(s, pat, r.value)
    ensures r.Some? ==> forall j :: 0 <= j < r.value ==> !OccursAt(s, pat, j)
  {
    FindFrom(s, pat, 0)
  }

  /** A prefix of a string is found at index 0. */
  lemma FindPrefix(s: string, pat: string)
    requires StartsWith(s, pat)
    ensures Find(s, pat) == Some(0)
  {
    assert OccursAt(s, pat, 0);
  }

  // ---------------------------------------------------------------------
  // ASCII case folding

  /** Rust `char::to_ascii_lowercase`. */
  function LowerChar(c: char): char {
    if 'A' <= c <= 'Z' then (c as int + 32) as char else c
  }

  /** ASCII lowercasing of a whole string. */
  function Lower(s: string): (r: string)
    ensures |r| == |s|
    ensures forall i :: 0 <= i < |s| ==> r[i] == LowerChar(s[i])
  {
    seq(|s|, i requires 0 <= i < |s| => LowerChar(s[i]))
  }

  /** Lowercasing is idempotent, so a lowercased key can be looked up again. */
  lemma LowerIdempotent(s: string)
    ensures Lower(Lower(s)) == Lower(s)
  {
  }

  /** Text without ASCII capitals. */
  predicate NoUpper(s: string) {
    forall i :: 0 <= i < |s| ==> !('A' <= s[i] <= 'Z')
  }

  /** Lowercasing leaves text without capitals unchanged. */
  lemma LowerNoUpper(s: string)
    requires NoUpper(s)
    ensures Lower(s) == s
  {
  }

  /** Lowercasing a text lowercases every occurrence in it. */
  lemma ContainsLowered(s: string, pat: string)
    requires Contains(s, pat)
    ensures Contains(Lower(s), Lower(pat))
  {
    var i :| 0 <= i <= |s| - |pat| && OccursAt(s, pat, i);
    assert Lower(s)[i..i + |pat|] == Lower(s[i..i + |pat|]);
    assert OccursAt(Lower(s), Lower(pat), i);
  }

  /** An already-lowercase phrase found in `s` is still found after `s` is
      lowercased: the case-insensitive error classifiers match it. */
  lemma ContainsAfterLower(s: string, pat: string)
    requires Contains(s, pat) && NoUpper(pat)
    ensures Contains(Lower(s), pat)
  {
    ContainsLowered(s, pat);
    LowerNoUpper(pat);
  }

  /** Rust `eq_ignore_ascii_case`. */
  predicate EqIgnoreAsciiCase(a: string, b: string) {
    Lower(a) == Lower(b)
  }

  // ---------------------------------------------------------------------
  // Splitting and joining

  /** Number of occurrences of the character `c` in `s`. */
  function CountChar(s: string, c: char): nat {
    if |s| == 0 then 0 else (if s[0] == c then 1 else 0) + CountChar(s[1..], c)
  }

  lemma {:induction false} CountCharAppend(a: string, b: string, c: char)
    ensures CountChar(a + b, c) == CountChar(a, c) + CountChar(b, c)
  {
    if |a| > 0 {
      assert (a + b)[1..] == a[1..] + b;
      CountCharAppend(a[1..], b, c);
    } else {
      assert a + b == b;
    }
  }

  lemma {:induction false} CountCharAbsent(s: string, c: char)
    requires c !in s
    ensures CountChar(s, c) == 0
  {
    if |s| > 0 {
      assert c !in s[1..];
      CountCharAbsent(s[1..], c);
    }
  }

  /** `parts` joined with `sep` between consecutive elements (Rust `join`). */
  function Join(parts: seq<string>, sep: string): string {
    if |parts| == 0 then ""
    else if |parts| == 1 then parts[0]
    else parts[0] + sep + Join(parts[1..], sep)
  }

  /** Where part `i` starts in `Join(parts, sep)`: after every earlier
      part and its separator. */
  function JoinOffset(parts: seq<string>, sep: string, i: nat): nat
    requires i < |parts|
  {
    if i == 0 then 0 else |parts[0]| + |sep| + JoinOffset(parts[1..], sep, i - 1)
  }

  /** A match in `s` is a match, shifted, in `p + s`. */
  lemma OccursAfter(p: string, s: string, pat: string, k: nat)
    requires OccursAt(s, pat, k)
    ensures OccursAt(p + s, pat, |p| + k)
  {
    assert (p + s)[|p| + k..|p| + k + |pat|] == s[k..k + |pat|];
  }

  /** The layout of a join: part `i` sits at its offset, the separator
      follows every part but the last, and the last part ends the text. */
  lemma {:induction false} JoinLayout(parts: seq<string>, sep: string, i: nat)
    requires i < |parts|
    ensures OccursAt(Join(parts, sep), parts[i], JoinOffset(parts, sep, i))
    ensures i + 1 < |parts| ==>
      OccursAt(Join(parts, sep), sep, JoinOffset(parts, sep, i) + |parts[i]|)
      && JoinOffset(parts, sep, i + 1) == JoinOffset(parts, sep, i) + |parts[i]| + |sep|
    ensures i + 1 == |parts| ==> |Join(parts, sep)| == JoinOffset(parts, sep, i) + |parts[i]|
  {
    if |parts| > 1 {
      if i == 0 {
        JoinHead(parts, sep);
      } else {
        JoinLayout(parts[1..], sep, i - 1);
        JoinShift(parts, sep, i);
      }
    }
  }

  /** The separator after part `i` of a join that follows a heading. */
  lemma JoinSepAfter(head: string, parts: seq<string>, sep: string, i: nat)
    requires i + 1 < |parts|
    ensures OccursAt(head + Join(parts, sep), sep, |head| + JoinOffset(parts, sep, i) + |parts[i]|)
  {
    JoinLayout(parts, sep, i);
    OccursAfter(head, Join(parts, sep), sep, JoinOffset(parts, sep, i) + |parts[i]|);
  }

  /** The layout of a join after a heading `head`. */
  lemma JoinLayoutAfter(head: string, parts: seq<string>, sep: string, i: nat)
    requires i < |parts|
    ensures var r := head + Join(parts, sep);
            var start := |head| + JoinOffset(parts, sep, i);
            && OccursAt(r, parts[i], start)
            && (i + 1 < |parts| ==> OccursAt(r, sep, start + |parts[i]|))
            && (i + 1 == |parts| ==> |r| == start + |parts[i]|)
  {
    JoinLayout(parts, sep, i);
    OccursAfter(head, Join(parts, sep), parts[i], JoinOffset(parts, sep, i));
    if i + 1 < |parts| {
      OccursAfter(head, Join(parts, sep), sep, JoinOffset(parts, sep, i) + |parts[i]|);
    }
  }

  /** Consecutive offsets are one part and one separator apart. */
  lemma {:induction false} JoinOffsetStep(parts: seq<string>, sep: string, i: nat)
    requires i + 1 < |parts|
    ensures JoinOffset(parts, sep, i + 1) == JoinOffset(parts, sep, i) + |parts[i]| + |sep|
  {
    if i > 0 {
      JoinOffsetStep(parts[1..], sep, i - 1);
    }
  }

  /** Parts come in order: a later part starts after an earlier one and
      its separator end. */
  lemma {:induction false} JoinOffsetOrdered(parts: seq<string>, sep: string, i: nat, j: nat)
    requires i < j < |parts|
    ensures JoinOffset(parts, sep, i) + |parts[i]| + |sep| <= JoinOffset(parts, sep, j)
    decreases j
  {
    JoinOffsetStep(parts, sep, j - 1);
    if i < j - 1 {
      JoinOffsetOrdered(parts, sep, i, j - 1);
    }
  }

  /** The first of several joined parts and the separator after it. */
  lemma JoinHead(parts: seq<string>, sep: string)
    requires |parts| > 1
    ensures OccursAt(Join(parts, sep), parts[0], 0)
    ensures OccursAt(Join(parts, sep), sep, |parts[0]|)
  {
    var rest := Join(parts[1..], sep);
    assert Join(parts, sep) == parts[0] + sep + rest;
    assert (parts[0] + sep + rest)[..|parts[0]|] == parts[0];
    assert (parts[0] + sep + rest)[|parts[0]|..|parts[0]| + |sep|] == sep;
  }

  /** The layout of the join of the tail, shifted past the first part and
      its separator. */
  lemma JoinShift(parts: seq<string>, sep: string, i: nat)
    requires 0 < i < |parts|
    requires var tail := parts[1..];
      && OccursAt(Join(tail, sep), tail[i - 1], JoinOffset(tail, sep, i - 1))
      && (i < |tail| ==> OccursAt(Join(tail, sep), sep, JoinOffset(tail, sep, i - 1) + |tail[i - 1]|))
      && (i == |tail| ==> |Join(tail, sep)| == JoinOffset(tail, sep, i - 1) + |tail[i - 1]|)
    ensures OccursAt(Join(parts, sep), parts[i], JoinOffset(parts, sep, i))
    ensures i + 1 < |parts| ==> OccursAt(Join(parts, sep), sep, JoinOffset(parts, sep, i) + |parts[i]|)
    ensures i + 1 == |parts| ==> |Join(parts, sep)| == JoinOffset(parts, sep, i) + |parts[i]|
  {
    var tail := parts[1..];
    var head := parts[0] + sep;
    var k := JoinOffset(tail, sep, i - 1);
    assert Join(parts, sep) == head + Join(tail, sep);
    assert tail[i - 1] == parts[i];
    OccursAfter(head, Join(tail, sep), parts[i], k);
    if i + 1 < |parts| {
      OccursAfter(head, Join(tail, sep), sep, k + |parts[i]|);
    }
  }

  /** Rust `{:?}` of a list of strings, `["a", "b"]`, as error messages
      print the available names. */
  function DebugList(names: seq<string>): (r: string)
    ensures |names| == 0 ==> r == "[]"
  {
    "[" + Join(seq(|names|, i requires 0 <= i < |names| => "\"" + names[i] + "\""), ", ") + "]"
  }

  /** Rust `s.split(c).collect()` for a single-character separator. */
  function Split(s: string, c: char): (r: seq<string>)
    ensures |r| == CountChar(s, c) + 1
    ensures Join(r, [c]) == s
    ensures forall i :: 0 <= i < |r| ==> c !in r[i]
  {
    if |s| == 0 then [""]
    else
      var rest := Split(s[1..], c);
      if s[0] == c then
        assert s == [c] + s[1..];
        [""] + rest
      else
        var r := [[s[0]] + rest[0]] + rest[1..];
        assert s == [s[0]] + s[1..];
        assert r[1..] == rest[1..];
        r
  }

  /** The line terminators Rust's `lines` removes: a `\r` directly before `\n`. */
  function StripCr(line: string): string {
    if |line| > 0 && line[|line| - 1] == '\r' then line[..|line| - 1] else line
  }

  /** Rust `s.lines()`: split at `\n`, drop a `\r` that precedes a `\n`,
      and do not report an empty piece after a final `\n`. */
  function Lines(s: string): (r: seq<string>)
    ensures forall i :: 0 <= i < |r| ==> '\n' !in r[i]
    ensures s == "" ==> r == []
  {
    if s == "" then []
    else
      var pieces := Split(s, '\n');
      var n := |pieces|;
      var ended := seq(n - 1, i requires 0 <= i < n - 1 => StripCr(pieces[i]));
      assert forall i :: 0 <= i < n - 1 ==> '\n' !in ended[i] by {
        forall i | 0 <= i < n - 1 ensures '\n' !in ended[i] {
          assert '\n' !in pieces[i];
        }
      }
      if pieces[n - 1] == "" then ended else ended + [pieces[n - 1]]
  }

  // ---------------------------------------------------------------------
  // Whitespace trimming

  /** Unicode White_Space, the set Rust's `trim` removes. */
  predicate IsWhitespace(c: char) {
    c == ' ' || ('\t' <= c <= '\r') || c == '\U{85}' || c == '\U{A0}'
    || c == '\U{1680}' || ('\U{2000}' <= c <= '\U{200A}') || c == '\U{2028}'
    || c == '\U{2029}' || c == '\U{202F}' || c == '\U{205F}' || c == '\U{3000}'
  }

  /** Rust `trim_start`. */
  function TrimStart(s: string): (r: string)
    ensures |r| <= |s| && r == s[|s| - |r|..]
    ensures forall i :: 0 <= i < |s| - |r| ==> IsWhitespace(s[i])
    ensures |r| > 0 ==> !IsWhitespace(r[0])
  {
    if |s| > 0 && IsWhitespace(s[0]) then TrimStart(s[1..]) else s
  }

  /** Rust `trim_end`. */
  function TrimEnd(s: string): (r: string)
    ensures |r| <= |s| && r == s[..|r|]
    ensures forall i :: |r| <= i < |s| ==> IsWhitespace(s[i])
    ensures |r| > 0 ==> !IsWhitespace(r[|r| - 1])
  {
    if |s| > 0 && IsWhitespace(s[|s| - 1]) then TrimEnd(s[..|s| - 1]) else s
  }

  /** `r` is `s[a..b]` and everything outside `a..b` is whitespace. */
  predicate TrimmedSlice(s: string, r: string, a: int, b: int) {
    && 0 <= a <= b <= |s| && r == s[a..b]
    && (forall i :: 0 <= i < a ==> IsWhitespace(s[i]))
    && (forall i :: b <= i < |s| ==> IsWhitespace(s[i]))
  }

  /** Rust `trim`: the slice left after removing whitespace at both ends. */
  function Trim(s: string): (r: string)
    ensures exists a, b :: TrimmedSlice(s, r, a, b)
    ensures |r| > 0 ==> !IsWhitespace(r[0]) && !IsWhitespace(r[|r| - 1])
  {
    var t := TrimStart(s);
    var r := TrimEnd(t);
    TrimBothEnds(s, t, r);
    r
  }

  /** Trimming the start and then the end leaves a slice of `s` with only
      whitespace cut off on either side. */
  lemma TrimBothEnds(s: string, t: string, r: string)
    requires |t| <= |s| && t == s[|s| - |t|..]
    requires forall i :: 0 <= i < |s| - |t| ==> IsWhitespace(s[i])
    requires |r| <= |t| && r == t[..|r|]
    requires forall i :: |r| <= i < |t| ==> IsWhitespace(t[i])
    ensures TrimmedSlice(s, r, |s| - |t|, |s| - |t| + |r|)
  {
    var a := |s| - |t|;
    PrefixOfSuffix(s, a, |r|);
    forall i | a + |r| <= i < |s| ensures IsWhitespace(s[i]) {
      assert s[i] == t[i - a];
    }
  }

  /** A prefix of a suffix is a middle slice. */
  lemma PrefixOfSuffix(s: string, a: nat, n: nat)
    requires a + n <= |s|
    ensures s[a..][..n] == s[a..a + n]
  {
  }

  // ---------------------------------------------------------------------
  // Repeated prefix removal

  /** `k` copies of `p` concatenated. */
  function Repeat(p: string, k: nat): string {
    if k == 0 then "" else p + Repeat(p, k - 1)
  }

  /** How many leading copies of `p` `trim_start_matches` removes. */
  function LeadingCopies(s: string, p: string): nat
    requires |p| > 0
    decreases |s|
  {
    if StartsWith(s, p) then 1 + LeadingCopies(s[|p|..], p) else 0
  }

  /** One more copy in front. */
  lemma RepeatStep(p: string, k: nat, r: string)
    ensures Repeat(p, k + 1) + r == p + (Repeat(p, k) + r)
  {
  }

  /** Rust `s.trim_start_matches(p)` for a non-empty pattern: removes `p`
      from the front for as long as it is there. */
  function TrimStartMatches(s: string, p: string): (r: string)
    requires |p| > 0
    ensures !StartsWith(r, p)
    ensures s == Repeat(p, LeadingCopies(s, p)) + r
    decreases |s|
  {
    if StartsWith(s, p) then
      var rest := s[|p|..];
      assert s == p + rest;
      var r := TrimStartMatches(rest, p);
      RepeatStep(p, LeadingCopies(rest, p), r);
      r
    else s
  }
}

=== FILE: subissues.dfy ===
/** Sub-issue links (src/github/subissues.rs): the batched `addSubIssue`
    request, the reading of its per-link results, and the policy that
    treats "already linked" failures as success. Each reply is a parameter. */
module SubIssues {
  import opened Wrappers
  import opened Strings
  import Json
  import Batch

  /** Make `child` a sub-issue of `parent` (both issue node ids). */
  datatype SubIssueLink = SubIssueLink(parent: string, child: string)

  /** The phrases GitHub uses when a link already exists. */
  const AlreadyLinkedPhrases: seq<string> := [
    "already a sub-issue",
    "is already a child",
    "already has this sub-issue",
    "duplicate sub-issues",
    "may only have one parent"
  ]

  /** The lowercased error contains one of the "already linked" phrases. */
  predicate IsAlreadyLinked(err: string) {
    exists k :: 0 <= k < |AlreadyLinkedPhrases| && Contains(Lower(err), AlreadyLinkedPhrases[k])
  }

  /** The `AddSubIssueInput` of one link. */
  function LinkInput(link: SubIssueLink): (v: Json.Value)
    ensures v.Obj? && v.fields.Keys == {"issueId", "subIssueId"}
    ensures v.fields["issueId"] == Json.Str(link.parent) && v.fields["subIssueId"] == Json.Str(link.child)
  {
    Json.Obj(map["issueId" := Json.Str(link.parent), "subIssueId" := Json.Str(link.child)])
  }

  /** The result of link `i`, read from alias `link_<i>`: a present alias
      must carry a `subIssue` key; an absent alias counts as success. */
  function LinkItem(resp: Json.Response, i: nat): (r: Result<()>)
    ensures r.Err? <==> Batch.Alias("link", i) in resp && Json.Get(resp[Batch.Alias("link", i)], "subIssue").None?
    ensures r.Err? ==> r.error == "No subIssue in response"
  {
    var key := Batch.Alias("link", i);
    if key !in resp then Ok(())
    else if Json.Get(resp[key], "subIssue").Some? then Ok(())
    else Err("No subIssue in response")
  }

  /** The request of a batched link: alias `link_<i>` and variable
      `input_<i>` bound to the i-th link's input. */
  function LinkRequest(links: seq<SubIssueLink>): (r: Option<Batch.Request>)
    ensures r.None? <==> |links| == 0
    ensures r.Some? ==> r.value.aliases == Batch.Aliases("link", |links|)
    ensures r.Some? ==> forall i :: 0 <= i < |links| ==>
      Batch.VarName(i) in r.value.variables && r.value.variables[Batch.VarName(i)] == LinkInput(links[i])
  {
    Batch.Plan("link", "addSubIssue", seq(|links|, i requires 0 <= i < |links| => LinkInput(links[i])))
  }

  /** `add_sub_issues_batch`: nothing is sent for no links; otherwise one
      `link_<i>` alias per link, a per-link result on success, all-success
      when the whole request failed because the links already exist, and
      the failure itself otherwise. */
  function AddSubIssuesBatch(links: seq<SubIssueLink>, reply: Result<Json.Response>): (c: Batch.Call<seq<Result<()>>>)
    ensures |links| == 0 ==> c == Batch.Call(None, Ok([]))
    ensures |links| > 0 ==> c.request.Some? && c.request.value.aliases == Batch.Aliases("link", |links|)
    ensures |links| > 0 ==> forall i :: 0 <= i < |links| ==>
      Batch.VarName(i) in c.request.value.variables
      && c.request.value.variables[Batch.VarName(i)] == LinkInput(links[i])
    ensures c.result.Ok? ==> |c.result.value| == |links|
    ensures reply.Ok? ==> c.result.Ok? && forall i :: 0 <= i < |links| ==> c.result.value[i] == LinkItem(reply.value, i)
    ensures reply.Err? && |links| > 0 ==>
      (c.result.Ok? <==> IsAlreadyLinked(reply.error))
      && (c.result.Ok? ==> forall i :: 0 <= i < |links| ==> c.result.value[i].Ok?)
      && (c.result.Err? ==> c.result.error == reply.error)
  {
    if |links| == 0 then Batch.Call(None, Ok([]))
    else
      var request := LinkRequest(links);
      match reply
      case Ok(resp) => Batch.Call(request, Ok(seq(|links|, i requires 0 <= i < |links| => LinkItem(resp, i))))
      case Err(e) =>
        if IsAlreadyLinked(e) then Batch.Call(request, Ok(seq(|links|, _ => Ok(()))))
        else Batch.Call(request, Err(e))
  }

  /** A link fails only when its alias came back without `subIssue`: a
      response with none of the aliases reports every link as linked. */
  lemma EmptyResponseAllLinked(links: seq<SubIssueLink>)
    ensures AddSubIssuesBatch(links, Ok(map[])).result == Ok(seq(|links|, _ => Ok(())))
  {
    var c := AddSubIssuesBatch(links, Ok(map[]));
    assert c.result.value == seq(|links|, _ => Ok(()));
  }

  /** A `null` alias (no object, hence no `subIssue`) is a failure. */
  lemma NullAliasFails(links: seq<SubIssueLink>, i: nat)
    requires i < |links|
    ensures AddSubIssuesBatch(links, Ok(map[Batch.Alias("link", i) := Json.Null])).result.value[i]
            == Err("No subIssue in response")
  {
  }

  /** `add_sub_issue`: the single-link call; `reply` is the outcome of the
      mutation (its payload is not inspected). */
  function AddSubIssue(reply: Outcome): (r: Result<()>)
    ensures reply.Pass? ==> r.Ok?
    ensures reply.Fail? ==> (r.Ok? <==> IsAlreadyLinked(reply.error))
    ensures reply.Fail? && r.Err? ==> r.error == reply.error
  {
    match reply
    case Pass => Ok(())
    case Fail(e) => if IsAlreadyLinked(e) then Ok(()) else Err(e)
  }

  /** The single and the batched call classify a failure identically. */
  lemma SingleAndBatchAgree(link: SubIssueLink, err: string)
    ensures AddSubIssue(Fail(err)).Ok? <==> AddSubIssuesBatch([link], Err(err)).result.Ok?
  {
  }

  /** Each phrase is already lowercase, as matching against the
      lowercased error requires. */
  lemma PhraseNoUpper(k: nat)
    requires k < |AlreadyLinkedPhrases|
    ensures NoUpper(AlreadyLinkedPhrases[k])
  {
    if k < 2 {
      FirstPhrasesNoUpper();
    } else if k < 4 {
      MiddlePhrasesNoUpper();
    } else {
      assert NoUpper("may only have one parent");
    }
  }

  lemma FirstPhrasesNoUpper()
    ensures NoUpper(AlreadyLinkedPhrases[0]) && NoUpper(AlreadyLinkedPhrases[1])
  {
  }

  lemma MiddlePhrasesNoUpper()
    ensures NoUpper(AlreadyLinkedPhrases[2]) && NoUpper(AlreadyLinkedPhrases[3])
  {
  }

  /** An error that carries one of the phrases verbatim, such as GitHub's
      "Issue may only have one parent", is recognised. */
  lemma PhraseRecognised(err: string, k: nat)
    requires k < |AlreadyLinkedPhrases| && Contains(err, AlreadyLinkedPhrases[k])
    ensures IsAlreadyLinked(err)
  {
    PhraseNoUpper(k);
    ContainsAfterLower(err, AlreadyLinkedPhrases[k]);
  }
}

=== FILE: tickets.dfy ===
/** Tickets as read from the markdown files under `.tickets` (src/ticket.rs): the record, the
    frontmatter defaults, title and body extraction from the markdown
    part, the `gh-<n>` external reference convention, and the line-based
    rewrite that records an external reference in the frontmatter. YAML
    decoding and file access are not modelled: the decoded frontmatter
    and the file contents are parameters. */
module Tickets {
  import opened Wrappers
  import opened Strings
  import opened Numerals

  type U8 = x: int | 0 <= x < 256

  /** A parsed ticket. `priority` is 0 (highest) to 4 by convention. */
  datatype Ticket = Ticket(
    path: string,
    id: string,
    status: string,
    deps: seq<string>,
    links: seq<string>,
    created: Option<string>,
    ticketType: string,
    priority: U8,
    assignee: Option<string>,
    externalRef: Option<string>,
    parent: Option<string>,
    tags: seq<string>,
    title: string,
    body: string)

  /** The decoded YAML frontmatter; `None` marks a key the file omits. */
  datatype Frontmatter = Frontmatter(
    id: string,
    status: Option<string>,
    deps: Option<seq<string>>,
    links: Option<seq<string>>,
    created: Option<string>,
    ticketType: Option<string>,
    priority: Option<U8>,
    assignee: Option<string>,
    externalRef: Option<string>,
    parent: Option<string>,
    tags: Option<seq<string>>)

  const DEFAULT_STATUS: string := "open"
  const DEFAULT_TYPE: string := "task"
  const DEFAULT_PRIORITY: U8 := 2

  // ---------------------------------------------------------------------
  // Title

  predicate IsTitleLine(line: string) {
    StartsWith(line, "# ")
  }

  /** Index of the first `# ` line. */
  function FirstTitleLine(lines: seq<string>): (r: Option<nat>)
    ensures r.Some? ==> r.value < |lines| && IsTitleLine(lines[r.value])
    ensures r.Some? ==> forall j :: 0 <= j < r.value ==> !IsTitleLine(lines[j])
    ensures r.None? ==> forall j :: 0 <= j < |lines| ==> !IsTitleLine(lines[j])
  {
    if |lines| == 0 then None
    else if IsTitleLine(lines[0]) then Some(0)
    else
      var r := FirstTitleLine(lines[1..]);
      if r.Some? then Some(r.value + 1) else None
  }

  /** The title taken in `parse`: the first line of the (trimmed) markdown
      that starts with `# `, with every leading `# ` removed, or `Untitled`. */
  function ExtractTitle(markdown: string): (title: string)
    ensures (forall j :: 0 <= j < |Lines(markdown)| ==> !IsTitleLine(Lines(markdown)[j])) ==> title == "Untitled"
    ensures forall k :: 0 <= k < |Lines(markdown)| && IsTitleLine(Lines(markdown)[k])
                        && (forall j :: 0 <= j < k ==> !IsTitleLine(Lines(markdown)[j])) ==>
              Lines(markdown)[k] == Repeat("# ", LeadingCopies(Lines(markdown)[k], "# ")) + title
              && !StartsWith(title, "# ")
  {
    var lines := Lines(markdown);
    var k := FirstTitleLine(lines);
    if k.None? then "Untitled" else TrimStartMatches(lines[k.value], "# ")
  }

  // ---------------------------------------------------------------------
  // Body

  predicate IsNotesHeading(line: string) {
    StartsWith(line, "## Notes")
  }

  predicate IsSectionHeading(line: string) {
    StartsWith(line, "## ")
  }

  /** Line `i` lies in a Notes section: some `## Notes` heading at or before
      it with no `## ` heading after that heading, up to and including `i`. */
  predicate InNotes(lines: seq<string>, i: nat)
    requires i < |lines|
  {
    exists k :: 0 <= k <= i && IsNotesHeading(lines[k])
      && forall j :: k < j <= i ==> !IsSectionHeading(lines[j])
  }

  /** The first `n` lines without those in Notes sections. */
  function OutsideNotes(lines: seq<string>, n: nat): (r: seq<string>)
    requires n <= |lines|
    ensures |r| <= n
  {
    if n == 0 then []
    else OutsideNotes(lines, n - 1) + (if InNotes(lines, n - 1) then [] else [lines[n - 1]])
  }

  /** Drop the leading title lines. */
  function DropTitles(lines: seq<string>): (r: seq<string>)
    ensures |r| <= |lines| && r == lines[|lines| - |r|..]
    ensures |r| > 0 ==> !IsTitleLine(r[0])
    ensures forall j :: 0 <= j < |lines| - |r| ==> IsTitleLine(lines[j])
  {
    if |lines| > 0 && IsTitleLine(lines[0]) then DropTitles(lines[1..]) else lines
  }

  /** The body, described section-wise: the lines outside Notes sections,
      without the title lines that precede everything else, joined and
      trimmed. */
  function BodyOf(markdown: string): string {
    var lines := Lines(markdown);
    Trim(Join(DropTitles(OutsideNotes(lines, |lines|)), "\n"))
  }

  lemma {:induction false} DropTitlesSnoc(xs: seq<string>, line: string)
    ensures DropTitles(xs + [line]) ==
      (if |DropTitles(xs)| == 0 && IsTitleLine(line) then [] else DropTitles(xs) + [line])
  {
    if |xs| > 0 {
      assert (xs + [line])[1..] == xs[1..] + [line];
      DropTitlesSnoc(xs[1..], line);
    }
  }

  /** A title line is never a section heading. */
  lemma TitleIsNotSection(line: string)
    requires IsTitleLine(line)
    ensures !IsSectionHeading(line) && !IsNotesHeading(line)
  {
    assert line[1] == ' ';
  }

  /** The Notes state after line `i` follows from the state before it:
      a Notes heading opens a section, another `## ` heading closes it, and
      any other line leaves it as it was. */
  lemma InNotesStep(lines: seq<string>, i: nat)
    requires i < |lines|
    ensures InNotes(lines, i) <==>
      IsNotesHeading(lines[i]) || (!IsSectionHeading(lines[i]) && i > 0 && InNotes(lines, i - 1))
  {
    if IsNotesHeading(lines[i]) {
      assert InNotes(lines, i);
    } else if !IsSectionHeading(lines[i]) && i > 0 && InNotes(lines, i - 1) {
      var k :| 0 <= k <= i - 1 && IsNotesHeading(lines[k])
        && forall j :: k < j <= i - 1 ==> !IsSectionHeading(lines[j]);
      assert InNotes(lines, i);
    }
  }

  /** The loop state of `extract_body` after `i` lines: whether a Notes
      section is open, and the lines kept so far. */
  predicate BodyState(lines: seq<string>, i: nat, inNotes: bool, result: seq<string>)
    requires i <= |lines|
  {
    (inNotes <==> i > 0 && InNotes(lines, i - 1)) && result == DropTitles(OutsideNotes(lines, i))
  }

  /** One iteration of `extract_body`, on the loop state alone. */
  function NextBodyState(line: string, inNotes: bool, result: seq<string>): (bool, seq<string>) {
    if IsTitleLine(line) && |result| == 0 then (inNotes, result)
    else if IsNotesHeading(line) then (true, result)
    else
      var open := if inNotes && IsSectionHeading(line) then false else inNotes;
      (open, if open then result else result + [line])
  }

  /** The iteration keeps the loop state in step with the section-wise
      description. */
  lemma NextBodyStateCorrect(lines: seq<string>, i: nat, inNotes: bool, result: seq<string>,
                              inNotes': bool, result': seq<string>)
    requires i < |lines| && BodyState(lines, i, inNotes, result)
    requires (inNotes', result') == NextBodyState(lines[i], inNotes, result)
    ensures BodyState(lines, i + 1, inNotes', result')
  {
    var line := lines[i];
    var kept := OutsideNotes(lines, i);
    var n := InNotes(lines, i);
    assert OutsideNotes(lines, i + 1) == kept + (if n then [] else [line]);
    DropTitlesSnoc(kept, line);
    InNotesStep(lines, i);
    if IsTitleLine(line) {
      TitleIsNotSection(line);
    }
    if n {
      assert kept + [] == kept;
    }
  }

  /** `extract_body`: one pass over the lines that skips title lines while
      nothing has been kept, drops a `## Notes` heading and what follows it
      up to the next `## ` heading, and keeps everything else. */
  method ExtractBody(markdown: string) returns (body: string)
    ensures body == BodyOf(markdown)
  {
    var result := KeepBodyLines(Lines(markdown));
    body := Trim(Join(result, "\n"));
  }

  /** The loop of `extract_body`, over the lines of the markdown. */
  method KeepBodyLines(lines: seq<string>) returns (result: seq<string>)
    ensures result == DropTitles(OutsideNotes(lines, |lines|))
  {
    result := [];
    var inNotes := false;
    var i := 0;
    while i < |lines|
      invariant 0 <= i <= |lines|
      invariant BodyState(lines, i, inNotes, result)
    {
      var next := NextBodyState(lines[i], inNotes, result);
      NextBodyStateCorrect(lines, i, inNotes, result, next.0, next.1);
      inNotes, result := next.0, next.1;
      i := i + 1;
    }
  }

  /** A `## ` heading other than Notes ends a Notes section: it and the
      lines after it are kept up to the next Notes heading. */
  lemma SectionAfterNotesKept(lines: seq<string>, i: nat)
    requires i < |lines| && IsSectionHeading(lines[i]) && !IsNotesHeading(lines[i])
    ensures !InNotes(lines, i)
  {
    InNotesStep(lines, i);
  }

  // ---------------------------------------------------------------------
  // Parsing

  /** `parse` once the frontmatter is decoded and the markdown after it is
      split off: missing keys take their defaults (`open`, `task`, 2, empty
      lists), the title and body come from the trimmed markdown. */
  method Parse(path: string, fm: Frontmatter, markdown: string) returns (t: Ticket)
    ensures t.path == path && t.id == fm.id
    ensures t.status == fm.status.GetOr(DEFAULT_STATUS)
    ensures t.ticketType == fm.ticketType.GetOr(DEFAULT_TYPE)
    ensures t.priority == fm.priority.GetOr(DEFAULT_PRIORITY)
    ensures t.deps == fm.deps.GetOr([]) && t.links == fm.links.GetOr([]) && t.tags == fm.tags.GetOr([])
    ensures t.created == fm.created && t.assignee == fm.assignee
    ensures t.externalRef == fm.externalRef && t.parent == fm.parent
    ensures t.title == ExtractTitle(Trim(markdown))
    ensures t.body == BodyOf(Trim(markdown))
  {
    var content := Trim(markdown);
    var body := ExtractBody(content);
    t := Ticket(path, fm.id, fm.status.GetOr(DEFAULT_STATUS), fm.deps.GetOr([]), fm.links.GetOr([]),
                fm.created, fm.ticketType.GetOr(DEFAULT_TYPE), fm.priority.GetOr(DEFAULT_PRIORITY),
                fm.assignee, fm.externalRef, fm.parent, fm.tags.GetOr([]), ExtractTitle(content), body);
  }

  /** A frontmatter holding only an id yields the documented defaults. */
  lemma MinimalFrontmatterDefaults(id: string)
    ensures var fm := Frontmatter(id, None, None, None, None, None, None, None, None, None, None);
            fm.status.GetOr(DEFAULT_STATUS) == "open" && fm.ticketType.GetOr(DEFAULT_TYPE) == "task"
            && fm.priority.GetOr(DEFAULT_PRIORITY) == 2
  {
  }

  // ---------------------------------------------------------------------
  // External references

  const GH_PREFIX: string := "gh-"

  /** `is_synced`: the external reference starts with `gh-`. */
  predicate IsSynced(t: Ticket) {
    t.externalRef.Some? && StartsWith(t.externalRef.value, GH_PREFIX)
  }

  /** `github_issue_number`: the text after `gh-`, parsed as a `u64`. */
  function GithubIssueNumber(t: Ticket): (r: Option<nat>)
    ensures r.Some? ==> IsSynced(t)
    ensures r.Some? ==> r.value < U64_LIMIT
    ensures r.Some? ==> ParseU64(t.externalRef.value[3..]) == r
    ensures IsSynced(t) ==> r == ParseU64(t.externalRef.value[3..])
  {
    if t.externalRef.Some? && StartsWith(t.externalRef.value, GH_PREFIX) then ParseU64(t.externalRef.value[3..])
    else None
  }

  /** The reference written for issue `n` reads back as `n`. */
  lemma GithubIssueNumberOfRef(t: Ticket, n: nat)
    requires n < U64_LIMIT && t.externalRef == Some(GH_PREFIX + NatToString(n))
    ensures IsSynced(t) && GithubIssueNumber(t) == Some(n)
  {
    assert t.externalRef.value[3..] == NatToString(n);
    ParseU64OfNatToString(n);
  }

  /** A zero-padded reference still names its issue, as Rust's parser
      reads `007` as 7. */
  lemma PaddedGithubRef(t: Ticket)
    requires t.externalRef == Some("gh-007")
    ensures IsSynced(t) && GithubIssueNumber(t) == Some(7)
  {
    assert "gh-007"[3..] == "00" + NatToString(7);
    ParseU64Padded(7);
  }

  /** A reference into another tracker is neither synced nor numbered. */
  lemma ForeignRefNotSynced(t: Ticket)
    requires t.externalRef == Some("jira-123")
    ensures !IsSynced(t) && GithubIssueNumber(t) == None
  {
    assert "jira-123"[0] != 'g';
  }

  /** `gh-` with something other than a number is synced yet has no number. */
  lemma MalformedGithubRef(t: Ticket)
    requires t.externalRef == Some("gh-12a")
    ensures IsSynced(t) && GithubIssueNumber(t) == None
  {
    assert "gh-12a"[3..] == "12a";
    ParseU64RejectsNonDigit("12a", 2);
  }

  // ---------------------------------------------------------------------
  // Writing the external reference back

  const FENCE: string := "---"
  const REF_KEY: string := "external-ref:"

  /** The line written for a reference. */
  function RefLine(externalRef: string): string {
    "external-ref: " + externalRef
  }

  /** Index of the first fence line at or after `from`. */
  function FenceFrom(lines: seq<string>, from: nat): (r: Option<nat>)
    requires from <= |lines|
    ensures r.Some? ==> from <= r.value < |lines| && lines[r.value] == FENCE
    ensures r.Some? ==> forall j :: from <= j < r.value ==> lines[j] != FENCE
    ensures r.None? ==> forall j :: from <= j < |lines| ==> lines[j] != FENCE
    decreases |lines| - from
  {
    if from == |lines| then None
    else if lines[from] == FENCE then Some(from)
    else FenceFrom(lines, from + 1)
  }

  /** The line that opens the frontmatter: the first `---`. */
  function OpenFence(lines: seq<string>): Option<nat> {
    FenceFrom(lines, 0)
  }

  /** The line that closes it: the next `---` after the opening one. */
  function CloseFence(lines: seq<string>): (r: Option<nat>)
    ensures r.Some? ==> OpenFence(lines).Some? && OpenFence(lines).value < r.value
  {
    var open := OpenFence(lines);
    if open.None? then None else FenceFrom(lines, open.value + 1)
  }

  /** Line `i` is strictly inside the frontmatter (an unclosed frontmatter
      extends to the end). */
  predicate InFrontmatter(lines: seq<string>, i: nat) {
    var open := OpenFence(lines);
    var close := CloseFence(lines);
    open.Some? && open.value < i < |lines| && (close.None? || i < close.value)
  }

  predicate IsRefLine(line: string) {
    StartsWith(line, REF_KEY)
  }

  /** The frontmatter already has an `external-ref:` line. */
  predicate HasRefInFrontmatter(lines: seq<string>) {
    exists i :: 0 <= i < |lines| && InFrontmatter(lines, i) && IsRefLine(lines[i])
  }

  /** Update mode, described per line: frontmatter reference lines are
      replaced and every other line is kept. */
  function ReplaceRefLines(lines: seq<string>, externalRef: string): (r: seq<string>)
    ensures |r| == |lines|
  {
    seq(|lines|, i requires 0 <= i < |lines| =>
      if InFrontmatter(lines, i) && IsRefLine(lines[i]) then RefLine(externalRef) else lines[i])
  }

  /** Insert mode: the reference line goes right before the closing fence;
      with no closing fence nothing is inserted. */
  function InsertRefLine(lines: seq<string>, externalRef: string): (r: seq<string>)
    ensures CloseFence(lines).None? ==> r == lines
  {
    var close := CloseFence(lines);
    if close.None? then lines else lines[..close.value] + [RefLine(externalRef)] + lines[close.value..]
  }

  /** Appends a final newline unless there is one. */
  function EnsureNewline(s: string): (r: string)
    ensures |r| > 0 && r[|r| - 1] == '\n'
    ensures r == s || r == s + "\n"
  {
    if |s| > 0 && s[|s| - 1] == '\n' then s else s + "\n"
  }

  /** The file contents `write_external_ref` writes for `content`. */
  function RewrittenContent(content: string, externalRef: string): (r: string)
    ensures |r| > 0 && r[|r| - 1] == '\n'
  {
    var lines := Lines(content);
    var newLines := if HasRefInFrontmatter(lines) then ReplaceRefLines(lines, externalRef)
                    else InsertRefLine(lines, externalRef);
    EnsureNewline(Join(newLines, "\n"))
  }

  /** The scan that decides the mode: walk the lines, open the frontmatter
      at the first fence, stop at the second, and look for `external-ref:`. */
  method ScanForRef(lines: seq<string>) returns (found: bool)
    ensures found == HasRefInFrontmatter(lines)
  {
    var inFrontmatter := false;
    var i := 0;
    found := false;
    while i < |lines|
      invariant 0 <= i <= |lines|
      invariant inFrontmatter <==> OpenFence(lines).Some? && OpenFence(lines).value < i
      invariant !inFrontmatter ==> FenceFrom(lines, 0) == FenceFrom(lines, i)
      invariant inFrontmatter ==> CloseFence(lines) == FenceFrom(lines, i)
      invariant forall j :: 0 <= j < i ==> !(InFrontmatter(lines, j) && IsRefLine(lines[j]))
    {
      if lines[i] == FENCE {
        if inFrontmatter {
          assert CloseFence(lines) == Some(i);
          break;
        }
        assert OpenFence(lines) == Some(i);
        inFrontmatter := true;
        i := i + 1;
        continue;
      }
      if inFrontmatter && IsRefLine(lines[i]) {
        assert InFrontmatter(lines, i);
        found := true;
        return;
      }
      i := i + 1;
    }
    if !found {
      forall j | 0 <= j < |lines| && InFrontmatter(lines, j) ensures !IsRefLine(lines[j]) {
      }
    }
  }

  /** Update mode as the source runs it: every fence toggles the frontmatter
      flag, and a reference line is replaced only before the second fence. */
  method ReplaceInFrontmatter(lines: seq<string>, externalRef: string) returns (out: seq<string>)
    ensures out == ReplaceRefLines(lines, externalRef)
  {
    var inFrontmatter := false;
    var passed := false;
    out := [];
    var i := 0;
    while i < |lines|
      invariant 0 <= i <= |lines| && |out| == i
      invariant forall j :: 0 <= j < i ==> out[j] == ReplaceRefLines(lines, externalRef)[j]
      invariant Scanned(lines, i, inFrontmatter, passed)
    {
      var line := lines[i];
      if line == FENCE {
        ScanFence(lines, i, inFrontmatter, passed);
        if inFrontmatter {
          passed := true;
        }
        inFrontmatter := !inFrontmatter;
        out := out + [line];
      } else {
        ScanOther(lines, i, inFrontmatter, passed);
        if inFrontmatter && !passed && IsRefLine(line) {
          out := out + [RefLine(externalRef)];
        } else {
          out := out + [line];
        }
      }
      i := i + 1;
    }
  }

  /** What the scan's two flags say after `i` lines: before the opening
      fence, inside the frontmatter, or past its closing fence. */
  ghost predicate Scanned(lines: seq<string>, i: nat, inFrontmatter: bool, passed: bool)
    requires i <= |lines|
  {
    && (!passed && !inFrontmatter ==> OpenFence(lines) == FenceFrom(lines, i))
    && (!passed && inFrontmatter ==>
          OpenFence(lines).Some? && OpenFence(lines).value < i && CloseFence(lines) == FenceFrom(lines, i))
    && (passed ==> CloseFence(lines).Some? && CloseFence(lines).value < i)
  }

  /** A fence is never inside the frontmatter; it toggles the flag and
      the second one ends the frontmatter for good. */
  lemma ScanFence(lines: seq<string>, i: nat, inFrontmatter: bool, passed: bool)
    requires i < |lines| && lines[i] == FENCE && Scanned(lines, i, inFrontmatter, passed)
    ensures !InFrontmatter(lines, i)
    ensures Scanned(lines, i + 1, !inFrontmatter, passed || inFrontmatter)
  {
    if inFrontmatter && !passed {
      assert CloseFence(lines) == Some(i);
    } else if !passed {
      assert OpenFence(lines) == Some(i);
    }
  }

  /** Any other line is inside the frontmatter exactly when the scan is
      between the two fences, and leaves the flags as they are. */
  lemma ScanOther(lines: seq<string>, i: nat, inFrontmatter: bool, passed: bool)
    requires i < |lines| && lines[i] != FENCE && Scanned(lines, i, inFrontmatter, passed)
    ensures InFrontmatter(lines, i) <==> inFrontmatter && !passed
    ensures Scanned(lines, i + 1, inFrontmatter, passed)
  {
  }

  /** `write_external_ref` on the file contents, in the source's steps. */
  method RewriteContent(content: string, externalRef: string) returns (newContent: string)
    ensures newContent == RewrittenContent(content, externalRef)
  {
    var lines := Lines(content);
    var hasRef := ScanForRef(lines);
    var newLines: seq<string>;
    if hasRef {
      newLines := ReplaceInFrontmatter(lines, externalRef);
    } else {
      newLines := InsertRefLine(lines, externalRef);
    }
    var joined := Join(newLines, "\n");
    newContent := EnsureNewline(joined);
  }

  /** The fence following `k` when nothing between is a fence. */
  lemma FenceFromIs(lines: seq<string>, from: nat, k: nat)
    requires from <= k < |lines| && lines[k] == FENCE
    requires forall j :: from <= j < k ==> lines[j] != FENCE
    ensures FenceFrom(lines, from) == Some(k)
  {
  }

  /** Update mode keeps both fences in place and changes no line outside
      the frontmatter, so look-alike lines in the body survive, and no
      frontmatter line other than an `external-ref:` one. */
  lemma ReplaceKeepsOutside(lines: seq<string>, externalRef: string, i: nat)
    requires i < |lines| && (!InFrontmatter(lines, i) || !IsRefLine(lines[i]))
    ensures ReplaceRefLines(lines, externalRef)[i] == lines[i]
  {
  }

  /** Insert mode adds exactly one line, and it lands inside the rewritten
      frontmatter, so the file now has a frontmatter reference. */
  lemma InsertedLineInFrontmatter(lines: seq<string>, externalRef: string)
    requires CloseFence(lines).Some?
    ensures var out := InsertRefLine(lines, externalRef);
            var c := CloseFence(lines).value;
            |out| == |lines| + 1 && out[c] == RefLine(externalRef)
            && out[..c] == lines[..c] && out[c + 1..] == lines[c..]
            && InFrontmatter(out, c) && HasRefInFrontmatter(out)
  {
    var out := InsertRefLine(lines, externalRef);
    var o := OpenFence(lines).value;
    var c := CloseFence(lines).value;
    assert out[c] == RefLine(externalRef);
    assert RefLine(externalRef)[..3] == "ext";
    assert out[c] != FENCE;
    forall j | 0 <= j < c ensures out[j] == lines[j] { }
    FenceFromIs(out, 0, o);
    forall j | o + 1 <= j < c + 1 ensures out[j] != FENCE {
      if j < c {
        assert out[j] == lines[j];
      }
    }
    assert out[c + 1] == lines[c];
    FenceFromIs(out, o + 1, c + 1);
    assert InFrontmatter(out, c);
    assert IsRefLine(RefLine(externalRef));
  }

  // ---------------------------------------------------------------------
  // The whole write-back

  /** `write_external_ref`: read the file, rewrite its contents, write
      them; the ticket records the reference only when both succeed. The
      read and the write are parameters: `read` is the file contents, and
      `write` the outcome of writing what `written` holds. */
  datatype WriteBack = WriteBack(written: Option<string>, result: Result<Ticket>)

  function WriteExternalRef(t: Ticket, externalRef: string, read: Result<string>, write: Outcome): (w: WriteBack)
    ensures read.Err? ==> w == WriteBack(None, Err("Failed to read ticket: " + t.path))
    ensures read.Ok? ==> w.written == Some(RewrittenContent(read.value, externalRef))
    ensures w.result.Ok? <==> read.Ok? && write.Pass?
    ensures w.result.Ok? ==> w.result.value == t.(externalRef := Some(externalRef))
    ensures read.Ok? && write.Fail? ==> w.result == Err("Failed to write ticket: " + t.path)
  {
    match read
    case Err(_) => WriteBack(None, Err("Failed to read ticket: " + t.path))
    case Ok(content) =>
      var newContent := RewrittenContent(content, externalRef);
      match write
      case Fail(_) => WriteBack(Some(newContent), Err("Failed to write ticket: " + t.path))
      case Pass => WriteBack(Some(newContent), Ok(t.(externalRef := Some(externalRef))))
  }

  /** After a successful write-back of `gh-<n>` the ticket is synced to
      issue `n`. */
  lemma WriteBackSyncs(t: Ticket, n: nat, read: Result<string>, write: Outcome)
    requires n < U64_LIMIT
    requires WriteExternalRef(t, GH_PREFIX + NatToString(n), read, write).result.Ok?
    ensures var t2 := WriteExternalRef(t, GH_PREFIX + NatToString(n), read, write).result.value;
            IsSynced(t2) && GithubIssueNumber(t2) == Some(n)
  {
    var t2 := WriteExternalRef(t, GH_PREFIX + NatToString(n), read, write).result.value;
    GithubIssueNumberOfRef(t2, n);
  }
}

=== FILE: wrappers.dfy ===
/** Option and Result values standing in for Rust's `Option<T>` and
    `Result<T, E>` throughout the model. */
module Wrappers {

  datatype Option<+T> = None | Some(value: T) {

    /** The wrapped value, or `default` when there is none (Rust `unwrap_or`). */
    function GetOr(default: T): T {
      match this
      case Some(v) => v
      case None => default
    }
  }

  /** A success value or an error message (Rust `Result<T, String>`). */
  datatype Result<+T> = Ok(value: T) | Err(error: string) {

    /** Rust `Result::ok`: forgets the error. */
    function ToOption(): Option<T> {
      match this
      case Ok(v) => Some(v)
      case Err(_) => None
    }
  }

  /** A unit result (Rust `Result<(), String>`). */
  datatype Outcome = Pass | Fail(error: string)

  /** `order` lists every key of `m` once: the order in which a Rust
      `HashMap` happens to yield its entries. */
  ghost predicate KeyOrder<K(!new), V>(order: seq<K>, m: map<K, V>) {
    && (forall k :: k in order <==> k in m)
    && (forall i, j :: 0 <= i < j < |order| ==> order[i] != order[j])
  }
}
